=== FILE: README.md ===
# X-store decision logic in Dafny

X-store is three Next.js apps around one on-chain marketplace:

- **Delivery** lists orders and lets sellers confirm delivery.
- **Marketplace** is the storefront, the NFT market, the profile with saved collection slugs, and its API routes.
- **seller** is the seller's dashboard and product form.

Almost all of it is UI and calls into a wallet, the chain, MongoDB and the OpenSea REST API. This project models the small pure decisions and transformations inside those apps. Every external system is an input:

- a chain read is a function from id to `Option` (`None` when the call throws);
- a REST reply is an `Option` or a `Result`;
- a database collection or an EIP-20 allowance table is a `map`.

Each operation is a pure function over immutable datatypes. Its contract states what the code promises, and lemmas relate operations to each other or to an independent reference definition.

Layout, one module per file:

- `wrappers.dfy` (`Option`, `Result`)
- `js.dfy` covers the JavaScript semantics the code leans on: truthiness, `||`, template rendering of `undefined`, ASCII lower-casing, clamping `slice`, `startsWith`/`includes`, and BigInt division toward zero.
- `decimal.dfy` covers decimal text.
- `units.dfy` covers ethers `formatUnits`/`parseUnits`.
- `bytes.dfy` covers `hexlify`/`getBytes` and base64 per section 4 of RFC 4648.
- `seqs.dfy` holds the filter, the subsequence relation and the id-range loop `Collect` shared by all list builders.
- The other modules follow the apps' source files:
  - `address`
  - `chain`
  - `image_url`
  - `orders` (Delivery `OrdersPage`)
  - `storefront` (Marketplace `page.js`)
  - `market`
  - `profile`
  - `opensea`
  - `slug_service` (`services/getslug.js`)
  - `my_store`
  - `buy_nft`
  - `slug_store` (the `slugstore` and `getslug` routes)
  - `product_route` (Delivery `api/product`)
  - `approval`
  - `contract_hooks` (`useContract.js`)
  - `dashboard`
  - `folder_stack`
  - `product_form`

## Model

| member | source | states |
|---|---|---|
| Seqs.Collect | Delivery/components/OrdersPage.js:80-98 | The id loop `for (i = lo; i < hi; i++)` keeping each fetched record: at most `hi - lo` records; which ones and in what order is stated by `Seqs.CollectMembers`, `Seqs.CollectKeys` and `Seqs.CollectLoop` |
| Seqs.CollectLoop | Delivery/components/OrdersPage.js:80-98 | The id-range loop builds, one id at a time, exactly the list `Collect` defines: each id's row in ascending id order, skipping ids whose step yields nothing |
| Seqs.CollectMembers | Marketplace/app/page.js:59-77 | A value is in an id-range list iff some id in the range produces it |
| Seqs.CollectKeys | seller/components/Dashboard.js:26-48 | When each row carries its own id, the list's ids lie in the range and strictly increase, so they are distinct |
| Seqs.Filter | Delivery/components/OrdersPage.js:337-342 | `Array.prototype.filter`: the kept elements, in order; `Seqs.FilterEmbeds` and `Seqs.FilterAll` state that they are a subsequence and that exactly the matching ones are kept |
| Seqs.FilterEmbeds | Delivery/components/OrdersPage.js:337-342 | `filter` keeps its survivors in their original relative order: the result embeds into the input by strictly increasing indices |
| Seqs.FilterAll | Delivery/components/OrdersPage.js:338-341 | A filter whose predicate holds everywhere returns the whole list |
| Orders.LoadOrders | Delivery/components/OrdersPage.js:78-98 | The reloaded order list holds at most `orderCount - 1` rows (ids start at 1 and the bound is exclusive) and none when the count is 0; membership and order are stated by `Orders.LoadOrdersContents` and `Orders.LoadOrdersAscending` |
| Orders.LoadOrdersContents | Delivery/components/OrdersPage.js:78-98 | An order is listed iff its id is in `1 .. orderCount-1`, its fetch succeeded and its buyer is not the zero address; the row is built from that fetch |
| Orders.LoadOrdersAscending | Delivery/components/OrdersPage.js:80-98 | Listed ids are in `1 .. orderCount-1` and strictly ascending |
| Orders.OrderAmountsAgree | Delivery/components/OrdersPage.js:84-95 | The displayed amount parses back with `parseUnits(·,18)` to the paid amount, and the raw amount is its decimal text |
| Orders.ProductsMap | Delivery/components/OrdersPage.js:100-120 | The product map has a key exactly for each listed order's product whose fetch succeeded, holding that product |
| Orders.FindOrder | Delivery/components/OrdersPage.js:137-138 | `find` returns the first order with that id, and returns one iff any order has it |
| Orders.CheckPaymentAgainstChainPrice | Delivery/components/OrdersPage.js:129-147 | The payment check is false when the product or the balance cannot be read; otherwise it is true iff the seller's balance is at least the on-chain price |
| Orders.CheckPaymentCompares | Delivery/components/OrdersPage.js:137-146 | With the order found and its product's raw price readable, the check holds iff the seller's balance was read and covers that price |
| Orders.CheckPaymentStatus | Delivery/components/OrdersPage.js:137-138 | An order id that is not listed is never paid |
| Orders.PaymentCheck | Delivery/components/OrdersPage.js:137-161 | Attempt `k` of the retry is `checkPaymentStatus(orderId)` against the balances the chain reports at that attempt; `Orders.ConfirmDeliveryRun` and `Orders.ConfirmFollowsBalances` state what the retry decides with it |
| Orders.CheckPaymentWithRetry | Delivery/components/OrdersPage.js:149-161 | At most `retries` checks; true iff one of the first `retries` checks succeeds; stops at the first success; waits only between checks. Zero or negative retries make no check, no wait, and report unpaid |
| Orders.ErrorText | Delivery/components/OrdersPage.js:192 | The shown error is the reason, else the message, else the fallback |
| Orders.ConfirmDelivery | Delivery/components/OrdersPage.js:137-196 | The contract is called iff the order is listed and either paid or found paid by one of the retry's three default checks, each being `checkPaymentStatus` over the same orders and products. The result is a success iff that call does not fail. A payment failure carries the message with the product's price, seller and token |
| Orders.ConfirmDeliveryRun | Delivery/components/OrdersPage.js:137-196 | Runs the retry loop with its default of three `checkPaymentStatus` calls, and only for a listed unpaid order. The outcome is the one `ConfirmDelivery` describes, after at most three checks |
| Orders.UnpaidNeverConfirmed | Delivery/components/OrdersPage.js:168-177 | An unpaid order whose three checks all fail never reaches the contract call and, with its product known, ends in the payment error |
| Orders.UnpaidWithoutProductNeverConfirmed | Delivery/components/OrdersPage.js:137-177 | An unpaid order with no product entry never reaches the contract call, whatever the chain answers: every check fails, and reading the product's price throws |
| Orders.ConfirmFollowsBalances | Delivery/components/OrdersPage.js:144-177 | For an unpaid order with a known product, the contract is called iff one of the three attempts sees the seller's balance covering the product's raw price |
| Orders.OnOrderPlaced | Delivery/components/OrdersPage.js:230-245 | Appends exactly one order with that id, not delivered, amounts `"0"`, product id as decimal text, and buyer, seller and `isPaid` taken from the event |
| Orders.OnOrderPaid | Delivery/components/OrdersPage.js:247-260 | Same length; orders with another id unchanged; the matching order becomes its paid version |
| Orders.MarkPaid | Delivery/components/OrdersPage.js:251-256 | The order row after a payment is seen: paid, with the amount in token units and in raw units; that nothing else changes and both amounts read back is stated by `Orders.MarkPaidRecordsAmount` |
| Orders.MarkPaidRecordsAmount | Delivery/components/OrdersPage.js:251-256 | Marking paid sets `isPaid`, leaves every other field but the amounts alone, and both amounts read back as the paid amount |
| Orders.OnOrderDelivered | Delivery/components/OrdersPage.js:262-268 | Same length; only the matching order changes, and only its `isDelivered` becomes true |
| Orders.OnOrderDeliveredIdempotent | Delivery/components/OrdersPage.js:262-268 | Replaying a delivered event changes nothing |
| Orders.PaidDeliveredCommute | Delivery/components/OrdersPage.js:247-268 | Paid and delivered events commute |
| Orders.StatusOf | Delivery/components/OrdersPage.js:322-326 | Delivered iff delivered; Paid iff paid and not delivered; Pending iff neither, so exactly one holds |
| Orders.StatusLabelInjective | Delivery/components/OrdersPage.js:304-320 | Distinct states show distinct badges |
| Orders.EventsAdvanceStatus | Delivery/components/OrdersPage.js:247-268 | After a delivered event the order is Delivered; after a paid event it is Paid unless already delivered |
| Orders.FilteredOrders | Delivery/components/OrdersPage.js:337-342 | An order is shown iff it is listed and the active tab keeps it |
| Orders.TabsSelect | Delivery/components/OrdersPage.js:337-342 | The tab list is a subsequence. "pending" keeps exactly the Pending orders and "completed" exactly the paid and delivered ones. Every other tab keeps the whole list |
| Orders.DeliveredUnpaidInNoTab | Delivery/components/OrdersPage.js:339-340 | A delivered but unpaid order is in neither the pending nor the completed tab |
| Orders.ButtonsFollowStatus | Delivery/components/OrdersPage.js:899-990 | No button without an account. Cancel appears only before delivery. Confirm-paid appears exactly for Paid orders of the connected seller and never together with confirm-unpaid |
| Orders.ButtonsIgnoreCase | Delivery/components/OrdersPage.js:569-616 | Button visibility depends on the account only up to letter case |
| Orders.OnCheckPayment | Delivery/components/OrdersPage.js:824-836 | A found payment records "detected" for that order only; otherwise the status map is kept and the not-received error shown |
| Address.FormatAddress | Delivery/components/OrdersPage.js:300-301 | The short form is the first six characters, `...`, and the last four, with `slice` clamping on short strings |
| Address.FormatFullAddress | Marketplace/app/page.js:189-191 | A 42-character address shortens to 13 characters: `a[..6] + "..." + a[38..]` |
| ImageUrl.DeliveryImageUrl | Delivery/components/OrdersPage.js:288-298 | The order card image: placeholder, PNG data URL or IPFS gateway URL; the three cases and when each applies are stated by `ImageUrl.DeliveryImageUrlCases` |
| ImageUrl.DeliveryImageUrlCases | Delivery/components/OrdersPage.js:288-298 | Bytes starting with ASCII `data` give a PNG data URL with the hex of the rest; other bytes the IPFS URL of their hex; undecodable text the placeholder |
| ImageUrl.MatchHeaderIsMagicPrefix | Marketplace/app/page.js:151-164 | Matching the header table on `hexlify(b)` is matching the magic numbers on the bytes `b` |
| ImageUrl.MagicNumbersExclusive | Marketplace/app/page.js:151-157 | No byte string starts with two different magic numbers, so table order does not matter |
| ImageUrl.MarketImageUrl | Marketplace/app/page.js:148-182 | The storefront image classifier; its branches (magic number, `data` tag, hex tail, gateway, error image) are stated by `ImageUrl.MarketImageUrlCases` and the lemmas after it |
| ImageUrl.MarketImageUrlCases | Marketplace/app/page.js:148-182 | A magic number gives its data URL plus the base64 of all bytes. Otherwise, `data` followed by at least one byte gives a PNG data URL of the hex tail. Anything else gives the IPFS gateway URL |
| ImageUrl.HexTailShape | Marketplace/app/page.js:166-170 | The base64 regex accepts a lower-case hex tail iff it is non-empty |
| ImageUrl.EmptyBytesReachGateway | Marketplace/app/page.js:144-146 | Missing or empty text gives the placeholder, while the empty byte string `0x` reaches the IPFS gateway |
| Bytes.Hexlify | Marketplace/app/page.js:148 | `ethers.hexlify`: `0x` plus two lower-case digits per byte, so `2 + 2n` characters for `n` bytes; `Bytes.GetBytesHexlify` states that `getBytes` reads it back |
| Bytes.GetBytes | Marketplace/app/page.js:148 | The byte reading `ethers.hexlify` applies to a string argument: `0x`-prefixed hex text of even length, otherwise an error; `Bytes.GetBytesHexlify` states it inverts `Bytes.Hexlify` |
| Bytes.GetBytesHexlify | Marketplace/app/page.js:148 | Decoding the hex text `hexlify` prints gives back the bytes |
| Bytes.HexOfInjective | Marketplace/app/page.js:173-176 | Different byte strings have different hex text, so different content ids |
| Bytes.Base64 | Marketplace/app/page.js:161-162 | `ethers.toBase64`: the standard padded alphabet, one four-character group per three bytes; `Bytes.Base64RoundTrip` and `Bytes.Base64Length` state its inverse and length |
| Bytes.Base64RoundTrip | Marketplace/app/page.js:161-162 | Base64 decoding of the encoded bytes gives them back |
| Bytes.Base64Length | Marketplace/app/page.js:161 | Base64 text is four characters per started group of three bytes |
| Bytes.Base64UsesAlphabet | Marketplace/app/page.js:161 | Every character is from the RFC 4648 section 4 alphabet or `=` |
| Units.FormatUnits | Marketplace/app/page.js:65 | `ethers.formatUnits(x, d)`: sign, whole part, a point and the fraction with trailing zeros dropped but at least one digit; `Units.ParseFormatRoundTrip` states that parsing gives `x` back |
| Units.ParseUnits | Marketplace/app/page.js:99 | `ethers.parseUnits(s, d)`: an optional sign, digits, an optional point and at most `d` fraction digits, otherwise an error; `Units.ParseFormatRoundTrip` and `Units.ParseOneEther` state its values |
| Units.ParseFormatRoundTrip | Marketplace/app/page.js:65 | For every integer and decimal count, parsing the formatted amount gives it back (`parseUnits(formatUnits(x, d), d) == x`); ethers' own 512-bit and 80-decimal limits are under Left out |
| Units.ParseOneEther | Marketplace/hooks/useContract.js:81 | `parseEther("1")` is `10^18` |
| Storefront.LoadProducts | Marketplace/app/page.js:59-77 | The storefront list holds at most `productCount` products (ids `1 .. productCount`, bound inclusive); membership and order are stated by `Storefront.LoadProductsContents` and `Storefront.LoadProductsAscending` |
| Storefront.LoadProductsContents | Marketplace/app/page.js:59-77 | A product is listed iff its id is in `1 .. productCount` and its fetch succeeded. Its image is `/laptop.png`, and its shown price parses back to the on-chain price |
| Storefront.LoadProductsAscending | Marketplace/app/page.js:59-77 | Listed ids lie in `1 .. productCount`, inclusive, strictly ascending |
| Storefront.HandlePlaceOrder | Marketplace/app/page.js:88-121 | No contract or no payment method means no transaction. Otherwise the transaction carries `payNow` iff the method is "paynow", and the value is the parsed price when paying now and 0 otherwise |
| Storefront.PlaceOrderSendsChainPrice | Marketplace/app/page.js:65-103 | For a loaded product the value sent when paying now is exactly the on-chain price |
| Storefront.LaptopPathRendersErrorImage | Marketplace/app/page.js:69 | Every loaded card's image text `/laptop.png` makes `hexlify` throw, so the card shows `/image.png` |
| Storefront.CardImage | Marketplace/app/page.js:299 | A path image is shown as it is; any other image goes through the byte classifier |
| Storefront.CardImageShowsLaptop | Marketplace/app/page.js:69 | With the corrected card image every loaded card shows `/laptop.png`, where the code as written shows `/image.png` |
| Storefront.CardImageKeepsBytes | Marketplace/app/page.js:141-187 | For decodable hex images the corrected card image equals the code as written |
| Dashboard.SellerProducts | seller/components/Dashboard.js:26-48 | The seller dashboard list holds at most `productCount` products; which ones is stated by `Dashboard.SellerProductsContents` and `Dashboard.SellerProductsComplete` |
| Dashboard.SellerProductsContents | seller/components/Dashboard.js:26-48 | A product is kept iff its id is in `1 .. productCount`, its fetch succeeded, its seller is the connected address ignoring case and its image decodes. Its price and stock read back as the chain values |
| Dashboard.SellerProductsComplete | seller/components/Dashboard.js:28-45 | Every readable product of the connected seller with a decodable image appears |
| Dashboard.SellerProductsAscending | seller/components/Dashboard.js:26 | Kept ids are in range and strictly ascending, so distinct |
| Dashboard.NoAddressNoProducts | seller/components/Dashboard.js:29-31 | With no resolved address every step throws and the list is empty |
| Dashboard.SellerProductsIgnoreCase | seller/components/Dashboard.js:29-31 | The list depends on the address only up to letter case |
| Approval.ApproveToken | Marketplace/hooks/approval.js:4-36 | No `approve` function or a failed read throws. An allowance that already suffices sends nothing and changes nothing. Otherwise `approve(price)` sets the allowance to exactly `price`. Success implies allowance ≥ price. Only the (owner, spender) entry can change |
| Approval.ApproveTokenIdempotent | Marketplace/hooks/approval.js:22-25 | After a successful approval a second call sends nothing and changes nothing |
| ContractHooks.Init | Marketplace/hooks/useContract.js:9-19 | Initialisation succeeds iff a wallet exists and the signer is obtained. Every failure is prefixed "Contract initialization failed: " |
| ContractHooks.PlaceOrder | Marketplace/hooks/useContract.js:37-63 | Approval is requested, for the stored price, iff prepaid and the product reads. A prepaid purchase is sent iff `approveToken` does not throw: `approve` exists, the reads succeed, and the allowance already suffices or the approval is mined. The allowances are those `approveToken` leaves |
| ContractHooks.GetProducts | Marketplace/hooks/useContract.js:65-76 | `getProducts()`: products `1 .. productCount - 1` or a failure; the all-or-nothing shape is stated by `ContractHooks.GetProductsShape` |
| ContractHooks.GetProductsShape | Marketplace/hooks/useContract.js:65-76 | Either all of `store(1) .. store(count-1)` in order, `max(0, count-1)` of them, or nothing when any read fails |
| ContractHooks.NameTransfer | Marketplace/hooks/useContract.js:78-122 | A foreign owner is refused before any step. The manager is approved iff the current approval is not the manager, ignoring case. A failed approval stops before the deposit. A deposit is made iff the owner is the signer, the manager is or becomes approved and the amount parses, and it carries `parseEther(brtxAmount)`. The call succeeds iff, in addition, the deposit succeeds |
| ContractHooks.DefaultDepositIsOneToken | Marketplace/hooks/useContract.js:81 | The default deposit amount is `10^18` base units |
| Market.GeneratedPrice | Marketplace/components/market.js:115-124 | The pattern and variation indices are the character-code hash modulo 12 and 20, so always in range |
| Market.PriceHash | Marketplace/components/market.js:116-118 | The character-code sum of `${contract}-${tokenId}`; `Market.PriceHashSplits` states how it splits over the two parts |
| Market.PriceHashSplits | Marketplace/components/market.js:116-118 | The hash of `contract-tokenId` is the contract's sum, plus `-`, plus the token id's sum |
| Market.FetchedNfts | Marketplace/components/market.js:48-62 | One grid entry per NFT with an image, in order, each decorated with its position among them |
| Market.Decorate | Marketplace/components/market.js:50-58 | The key is `contract-identifier`, or `contract-index` without an identifier. The price is kept or generated. The currency defaults to ETH |
| Market.FetchedNftsKeepOrder | Marketplace/components/market.js:48-49 | The kept NFTs are exactly those with an image, as a subsequence |
| Market.PageSlice | Marketplace/components/market.js:79-83 | A page shows at most four NFTs; which ones is stated by `Market.PageSliceContents` |
| Market.PageSliceContents | Marketplace/components/market.js:79-83 | Page `p` is the contiguous slice from `(p-1)*4` of at most four items, non-empty on every existing page |
| Market.NextPage | Marketplace/components/market.js:85-91 | The next page moves by exactly one while a next page exists, else stays; a consistent grid stays consistent |
| Market.PrevPage | Marketplace/components/market.js:93-99 | The previous page moves by exactly one above page 1, else stays; consistency is kept |
| Market.NextThenPrev | Marketplace/components/market.js:85-99 | Going forward then back restores the grid |
| Market.ToggleFavorite | Marketplace/components/market.js:101-113 | Toggling flips membership of that key only |
| Market.ToggleFavoriteTwice | Marketplace/components/market.js:101-113 | Toggling twice restores the favourites |
| Profile.SlugRegexIsRule | Marketplace/components/profile.js:118-120 | The regex `^(?!-)(?!.*--)[a-z0-9-]+(?<!-)$` accepts exactly the non-empty `[a-z0-9-]` strings with no hyphen at either end and no `--` |
| Profile.ScanSlug | Marketplace/components/profile.js:118-120 | A single left-to-right scan decides the slug rule exactly |
| Profile.HandleSaveSlug | Marketplace/components/profile.js:122-149 | The save call happens iff the slug is valid. A blank or invalid slug gives its alert with no call. On the save path the slug is cleared and the popup closed whatever the outcome |
| Profile.ValidSlugNotBlank | Marketplace/components/profile.js:124-135 | A valid slug always passes the blank check |
| Profile.ListingDetails | Marketplace/components/profile.js:157-167 | The first listed NFT with the same identifier, defined iff `isNFTListed` holds |
| SlugService.FetchOwned | Marketplace/services/getslug.js:125-134 | The account's NFTs, or `[]` on any failure |
| SlugService.NftMap | Marketplace/services/getslug.js:154-157 | The map has a key for each identifier text present, holding an NFT with that identifier |
| SlugService.NftMapLastWins | Marketplace/services/getslug.js:154-157 | The last NFT with an identifier is the one kept |
| SlugService.ShapeListing | Marketplace/services/getslug.js:159-175 | A listing takes identifier, price, currency and hash from the order. The name defaults to "Unknown", and the description and image to "" |
| SlugService.FetchListed | Marketplace/services/getslug.js:136-180 | Nothing when the wallet offers no order or the NFT list fails. Otherwise one listing per order offered by the wallet, in order, each shaped from its order and the NFT the map holds under the order's token id text |
| SlugService.MetadataFor | Marketplace/services/getslug.js:154-162 | The lookup finds an NFT iff the contract's list has one with the order's token id text, and the NFT found has that text |
| SlugService.FetchListedDetails | Marketplace/services/getslug.js:159-174 | Each listing carries its order's token id, price, currency and hash and the contract. Its name, description and image come from an NFT with the same identifier text, or are "Unknown", "" and "" when none has it |
| SlugService.FetchListedOnlyOwnOrders | Marketplace/services/getslug.js:140-145 | Every listed NFT comes from an order the wallet offered, compared ignoring case |
| SlugService.FetchMetadata | Marketplace/services/getslug.js:80-123 | Three empty lists without a contract or when the contract's NFT list fails. Otherwise all NFTs, the owned ones keyed `-owned` and the listed ones keyed `-listed-hash` |
| SlugService.OwnedKey | Marketplace/services/getslug.js:107-110 | The React key `${contract}-${identifier}-owned`; `SlugService.OwnedKeyInjective` states that it tells owned NFTs apart |
| SlugService.ListedKey | Marketplace/services/getslug.js:111-114 | The React key `${contract}-${identifier}-listed-${order_hash}` of a listed NFT, built as the source does; no property beyond its shape is claimed |
| SlugService.OwnedKeyInjective | Marketplace/services/getslug.js:107-110 | Owned keys within one contract determine the identifier |
| SlugService.EntryFor | Marketplace/services/getslug.js:33-65 | A slug contributes nothing iff its collection has no data. A thrown request gives `{slug, error}` with the message; data gives `{slug, data}` with the collection and its metadata |
| SlugService.Collections | Marketplace/services/getslug.js:31-65 | At most one collection entry per saved slug; `SlugService.CollectionsFollowSlugs` and `SlugService.CollectionsEntries` state order and contents |
| SlugService.CollectionsFollowSlugs | Marketplace/services/getslug.js:31-65 | Collections follow the slug order, keeping exactly the slugs whose request failed or returned data |
| SlugService.GetSlug | Marketplace/services/getslug.js:3-78 | Null for a falsy wallet or an error reply. Otherwise the saved slugs (`data.Slug || []`) and the entries the collection loop builds for them |
| SlugService.CollectionsEntries | Marketplace/services/getslug.js:33-65 | Every entry is what some saved slug contributes. Every saved slug whose request threw or returned data has its `{slug, error}` or `{slug, data}` entry |
| SlugService.GetSlugFollowsSlugs | Marketplace/services/getslug.js:25-70 | The returned entries' slugs are the returned slugs that contribute, in order |
| MyStore.Fallback | Marketplace/app/api/mystore/route.js:56-68 | The item a failed enrichment returns: the NFT with its collection and no price; `MyStore.FailureIsolated` states when it is used |
| MyStore.Enrich | Marketplace/app/api/mystore/route.js:26-69 | A failed stats or listings request gives the fallback. Otherwise the item is listed iff there are listings, priced from the first, and named by the stats name or the collection |
| MyStore.ListedIffPriced | Marketplace/app/api/mystore/route.js:42-54 | An enriched item is listed iff it has a price iff it has a currency |
| MyStore.MyStore | Marketplace/app/api/mystore/route.js:4-80 | A missing address gives 400. Otherwise there is one enriched item per fetched NFT, in order, and a missing list counts as empty. An outer failure gives the upstream status and message |
| MyStore.FailureIsolated | Marketplace/app/api/mystore/route.js:56-68 | An item's entry depends only on its own replies; a failed reply gives the fallback |
| MyStore.UpstreamStatus | Marketplace/app/api/mystore/route.js:77 | The status is the upstream one when present, else 500 |
| BuyNft.BuyNft | Marketplace/app/api/buynft/route.js:8-85 | Falsy fields or bad addresses give 400 before the network is touched, and a foreign owner gives 403; neither sends a transaction. It answers 200 exactly when the request is well formed, the signer owns the token, the amount is readable and both transactions are mined; it then sends the fee before the transfer and reports the fee, the seller share and the hash |
| BuyNft.FeeSplit | Marketplace/app/api/buynft/route.js:50-52 | Fee plus seller share is the payment. For payments ≥ 0 the fee is 2% rounded down, between 0 and the seller share, and monotone. Truncation mirrors negative payments |
| BuyNft.SmallNegativePaymentHasNoFee | Marketplace/app/api/buynft/route.js:50-52 | A payment in (-50, 0) has fee 0 |
| BuyNft.SignedDecimalRoundTrip | Marketplace/app/api/buynft/route.js:51 | `BigInt` reads a decimal numeral, either sign, back as the amount it spells |
| BuyNft.TransferIgnoresPayment | Marketplace/app/api/buynft/route.js:55-65 | The token transfer does not depend on the payment amount |
| BuyNft.ReportedAmountsAddUp | Marketplace/app/api/buynft/route.js:69-74 | The reported fee and seller amounts parse back with `parseEther` and add up to the payment |
| SlugStore.AddToSet | Marketplace/app/api/slugstore/route.js:17 | The slug is present afterwards, nothing else is added, an existing slug changes nothing, and distinctness is kept |
| SlugStore.Upsert | Marketplace/app/api/slugstore/route.js:15-19 | The wallet's document gains the slug. A new wallet gets `[slug]`, and other wallets are unchanged |
| SlugStore.StoreSlug | Marketplace/app/api/slugstore/route.js:3-25 | 400 iff a field is missing, and then the store is unchanged. 200 returns the post-update document containing the slug. Any failure gives 500 with the store unchanged |
| SlugStore.StoreSlugPreserves | Marketplace/app/api/slugstore/route.js:15-19 | A save keeps every record filed under its own wallet id with a slug list free of duplicates, and leaves every other wallet's record as it was |
| SlugStore.StoreSlugIdempotent | Marketplace/app/api/slugstore/route.js:15-19 | Saving the same slug again changes nothing and answers the same |
| SlugStore.ReadSlugs | Marketplace/app/api/getslug/route.js:3-37 | 400 iff connected and the wallet id is missing, with no query made. A stored wallet gives 200 "Success" with its slugs (or `[]`), an unknown one 200 "No user found" with `[]`, and a failed connection or query 500 |
| SlugStore.SavedSlugIsRead | Marketplace/app/api/getslug/route.js:24-32 | After a save, reading the wallet returns the new slug and every slug saved before |
| ProductRoute.RegisterWallet | Delivery/app/api/product/route.js:3-47 | A stored id gives 400 with the stored record and no change. Otherwise 201 inserts exactly that record. Failures give 500 with no change |
| ProductRoute.SecondRegistrationRefused | Delivery/app/api/product/route.js:8-20 | After a 201, the same wallet id is refused with the first record |
| ProductRoute.RecordsAreNeverRewritten | Delivery/app/api/product/route.js:22-28 | No request changes a stored record |
| FolderStack.Tick | seller/components/FolderStack.js:17-21 | One interval tick, `unshift(pop())`; `FolderStack.TickPermutes` and `FolderStack.TicksRotate` state that it rotates the stack |
| FolderStack.TickPermutes | seller/components/FolderStack.js:17-21 | A tick moves the last card to the front and keeps the same cards |
| FolderStack.EmptyStackStaysBroken | seller/components/FolderStack.js:18-20 | An empty stack becomes one `undefined` card and stays so |
| FolderStack.TicksRotate | seller/components/FolderStack.js:16-22 | `n` ticks rotate right by `n` |
| FolderStack.FullTurnRestores | seller/components/FolderStack.js:16-22 | As many ticks as cards restore the stack |
| FolderStack.DefaultStackRepeats | seller/components/FolderStack.js:4-10 | The five default images repeat every five ticks |
| FolderStack.StyleAt | seller/components/FolderStack.js:34-42 | The card style at a stack position: z-index `10 - index`, offsets `5 * index`, the front card scaled to 105%; `FolderStack.StylesOrderCards` states the ordering |
| FolderStack.StylesOrderCards | seller/components/FolderStack.js:34-42 | Earlier cards are drawn above and less offset. Positions have distinct styles. Only the front card is enlarged |
| ProductForm.HandleInputChange | seller/components/ProductForm.js:72-75 | Only the named field changes, to the typed text |
| ProductForm.HandleFileChange | seller/components/ProductForm.js:77-98 | No file changes nothing. A successful upload sets only the image. A failed one keeps the form and shows "Image upload failed" |
| ProductForm.InitialFormComplete | seller/components/ProductForm.js:11-19 | The initial form has exactly the seven fields, price as text |
| ProductForm.HandlersKeepFormComplete | seller/components/ProductForm.js:72-98 | The handlers keep every field present and the price text |
| ProductForm.ClassifyTxError | seller/components/ProductForm.js:59-60 | Codes 4001 and 4100 give "Transaction canceled by user" whatever the message |
| ProductForm.ClassifyByMessage | seller/components/ProductForm.js:61-65 | Without those codes, the rejection text anywhere in the message gives "You rejected the transaction"; another message is shown as is; none gives "Transaction failed" |
| ProductForm.CallContractFunction | seller/components/ProductForm.js:37-70 | Without a contract function only the not-initialized error is set. Otherwise the form is sent and submitting ends false. `onSubmit` runs iff it succeeds, and a failure shows the classified message |
| ProductForm.TypedValueIsSent | seller/components/ProductForm.js:47-56 | A value typed into any of the six inputs (name, price, stock, type, condition, description) is what `addProduct` receives, the stock as the input's text |

## Left out

- Rendering, modals, animations, routing, timers and intervals are not modelled. The retry models the number of waits, not the delay. The stack models ticks, not the one-second interval.
- Every network, RPC, MongoDB, OpenSea and Pinata call is an input, and so is the wallet. A chain read is `nat -> Option<…>`, a reply is `Option`/`Result`, and a collection is a `map`.
- The same request is assumed to give the same reply within one run: `getslug.js` fetches a contract's NFT list twice and is given one answer.
- `decodeBytes32String` and `toUtf8String` are left out: names and descriptions pass through as text. The dashboard's image decoding is an input that may fail.
- `ethers.isAddress` (EIP-55 checksum, which needs keccak) is a parameter.
- `BuyNft.BigIntOf`: `BigInt` is modelled on integers, booleans and signed decimal text only. Hex, octal and binary prefixes and surrounding whitespace are not read. JSON numbers are integers.
- `Decimal.ParseNat`: `getBigInt` on the stored raw price is modelled on decimal text only, which is what `toString` produces.
- Floating point is left out: the final price `Math.round(pattern * variation * 1e18)`, `formatPrice`, and division by `1e18`. `Market.GeneratedPrice` stops at the two indices.
- Randomness (`rating`, `reviewCount`) is left out.
- `Market.CharSum` sums code points, where `charCodeAt` sums UTF-16 units. The two differ only outside the Basic Multilingual Plane.
- Units.FormatUnits: ethers formats through a signed 512-bit fixed-point number, so it throws for a value outside `[-2^511, 2^511)` and for more than 80 decimals. The model formats every integer with any number of decimals. Every call here uses 18 decimals on values that fit in 256 bits, so no outcome changes.
- Units.ParseUnits: for the same reason, ethers throws on text whose value lies outside `[-2^511, 2^511)` or with more than 80 decimals, where the model returns the value.
- Units.ParseFormatRoundTrip: the round trip is proved for the model's format and parse over every integer and decimal count. For ethers itself it holds within the bounds above.
- Js.Render: an absent value always renders as "undefined". A JavaScript template literal prints "null" for a field that is present but `null`, which is not distinguished. This matters only where OpenSea sends `identifier: null`: the keys of `Market.PriceHash` and `SlugService.OwnedKey`/`SlugService.ListedKey` would then end in "null", not "undefined". Both spellings are fixed, so the injectivity and lookup properties hold either way.
- `Js.LowerChar` folds ASCII letters only. Addresses are hex, so this is enough for every comparison made.
- The timestamp `onOrderPlaced` adds and the `createdAt`/`updatedAt` fields of the product route are left out.
- Delivery `cancelOrder` and `connectWallet` are contract and wallet calls with shared error text and are not modelled.
- `collection_stats` is kept as opaque text. The rest of the NFT record, which mystore spreads into each item, is represented only by the fields read.
- The 500 bodies' `details`/`error` carry the thrown message as an input.
- ProductRoute.RegisterWallet: a missing `walletid` is the key `None`, matching the driver's `null`. A stored document lacking `walletId` would also match `null`; no such document is ever written by this route.
- Mongoose casting of non-string request fields is not modelled: `walletId` and `slug` are optional strings.
- `BuyNft.BuyNft` takes whether the fee payment is accepted as an input. Whether the node rejects a negative value is not modelled.
- The product form's `imagePreview` is set from the file reader's result, which is given as an input. Its race with the upload is not modelled.

## Findings

| source | as written | input that shows it | evidently intended | confidence | as-written member | corrected member |
|---|---|---|---|---|---|---|
| Marketplace/app/page.js:69 | Every loaded product's image is set to the path `/laptop.png`, and line 299 renders it through `bytesToImageUrl`, whose `hexlify` throws on text that is not `0x`-prefixed hex, so the catch returns `/image.png` | any loaded product, e.g. `store(1)` succeeds: its card shows `/image.png` | the card shows the laptop picture `/laptop.png` | not executed | Storefront.LaptopPathRendersErrorImage | Storefront.CardImageShowsLaptop |

=== FILE: address.dfy ===
/** Account addresses as the pages handle them: compared case-insensitively
    and shortened for display. Checksum validation is not part of this model. */
module Address {
  import opened Wrappers
  import opened Js

  /** `ethers.ZeroAddress`. */
  const ZeroAddress := "0x0000000000000000000000000000000000000000"

  /** `a.toLowerCase() === b.toLowerCase()`. */
  predicate SameAddress(a: string, b: string) {
    SameIgnoringCase(a, b)
  }

  /** `addr.toLowerCase() === currentAccount?.toLowerCase()`: with no
      connected account the right side is `undefined`, which no string equals. */
  predicate IsAccount(addr: string, account: Option<string>) {
    account.Some? && SameAddress(addr, account.value)
  }

  /** `${address.slice(0, 6)}...${address.slice(-4)}`. */
  function FormatAddress(a: string): (r: string)
    ensures |r| == (if |a| < 6 then |a| else 6) + 3 + (if |a| < 4 then |a| else 4)
    ensures |a| >= 6 ==> r[..6] == a[..6] && r[6..9] == "..."
    ensures |a| >= 4 ==> r[|r| - 4..] == a[|a| - 4..]
    ensures |a| < 6 ==> r == a + "..." + (if |a| < 4 then a else a[|a| - 4..])
  {
    Slice(a, 0, 6) + "..." + SliceFrom(a, -4)
  }

  /** A full 20-byte address, `0x` plus 40 hex digits, shortens to 13
      characters that keep the `0x` prefix and the last four digits. */
  lemma FormatFullAddress(a: string)
    requires |a| == 42
    ensures |FormatAddress(a)| == 13
    ensures FormatAddress(a) == a[..6] + "..." + a[38..]
  {
  }
}

=== FILE: approval.dfy ===
/** `approveToken`: make sure the marketplace may spend `price` tokens of
    the signer, sending an EIP-20 `approve` only when the current allowance
    is short. The token's allowances are the abstract state. */
module Approval {
  import opened Wrappers

  /** EIP-20 allowances, keyed by (owner, spender); a missing entry is 0. */
  type Allowances = map<(string, string), nat>

  /** `allowance(owner, spender)`. */
  function AllowanceOf(a: Allowances, owner: string, spender: string): nat {
    if (owner, spender) in a then a[(owner, spender)] else 0
  }

  /** Why `approveToken` throws. Every error is rethrown to the caller. */
  datatype ApprovalError =
    | NoApproveFunction   // the token contract object has no `approve`
    | ReadFailed          // `getAddress` or `allowance` failed
    | ApproveFailed       // the `approve` transaction or its receipt failed

  const NoApproveMessage := "Contract does not have an 'approve' function!"

  /** The outcome, the allowances afterwards, and whether `approve` was sent. */
  datatype ApprovalRun = ApprovalRun(result: Result<bool, ApprovalError>, allowances: Allowances, approveSent: bool)

  /** `approveToken(signer, spender, price)` for the signer `owner`.
      `readOk` says whether the address and allowance queries succeed,
      `txOk` whether an `approve` would be mined. A mined `approve` sets the
      allowance to exactly `price`, as section "approve" of EIP-20 requires. */
  function ApproveToken(hasApprove: bool, a: Allowances, owner: string, spender: string,
                        price: nat, readOk: bool, txOk: bool): (r: ApprovalRun)
    ensures r.approveSent <==> hasApprove && readOk && AllowanceOf(a, owner, spender) < price
    ensures r.result.Success? ==> r.result.value && AllowanceOf(r.allowances, owner, spender) >= price
    ensures r.result.Failure? ==> r.allowances == a
    ensures !hasApprove ==> r.result == Failure(NoApproveFunction)
    ensures hasApprove && !readOk ==> r.result == Failure(ReadFailed)
    ensures hasApprove && readOk ==> (r.result.Success? <==> AllowanceOf(a, owner, spender) >= price || txOk)
    ensures !r.approveSent ==> r.allowances == a
    ensures r.approveSent && r.result.Success? ==> AllowanceOf(r.allowances, owner, spender) == price
    ensures forall o, s :: (o, s) != (owner, spender) ==> AllowanceOf(r.allowances, o, s) == AllowanceOf(a, o, s)
  {
    if !hasApprove then ApprovalRun(Failure(NoApproveFunction), a, false)
    else if !readOk then ApprovalRun(Failure(ReadFailed), a, false)
    else if AllowanceOf(a, owner, spender) >= price then ApprovalRun(Success(true), a, false)
    else if !txOk then ApprovalRun(Failure(ApproveFailed), a, true)
    else ApprovalRun(Success(true), a[(owner, spender) := price], true)
  }

  /** A second call right after a successful one finds the allowance
      sufficient and sends nothing. */
  lemma ApproveTokenIdempotent(a: Allowances, owner: string, spender: string, price: nat, txOk: bool, txOk2: bool)
    requires ApproveToken(true, a, owner, spender, price, true, txOk).result.Success?
    ensures
      var a1 := ApproveToken(true, a, owner, spender, price, true, txOk).allowances;
      var second := ApproveToken(true, a1, owner, spender, price, true, txOk2);
      !second.approveSent && second.allowances == a1 && second.result == Success(true)
  {
  }
}

=== FILE: buy_nft.dfy ===
/** The marketplace's server-side purchase route (`POST /api/buynft`): the
    marketplace wallet checks that it owns the token, sends a 2% fee to the
    fee recipient, transfers the token to the buyer, and reports the fee and
    the seller's share in ether. */
module BuyNft {
  import opened Wrappers
  import opened Js
  import opened Decimal
  import opened Units

  const MarketplaceFeePercent := 2
  const FeeRecipient := "0x059a36538f6357DEe444c2f566B16847d9cfB511"

  const MissingParameters := "Missing required parameters"
  const InvalidAddress := "Invalid address format"
  const NotOwned := "NFT not owned by marketplace"
  const TxFailed := "Transaction failed"

  /** The request body's fields, `Undefined` when missing. */
  datatype Request = Request(nftContract: Json, tokenId: Json, buyerAddress: Json, paymentAmount: Json)

  /** What the route sends on chain, in order. */
  datatype Tx =
    | FeeTx(recipient: string, value: int)
    | TransferTx(nftContract: Json, from: string, to: Json, tokenId: Json)

  datatype Body =
    | Purchased(feeCollected: string, sellerAmount: string, txHash: string)
    | Refused(error: string)
    | Failed(error: string, details: Option<string>)

  datatype Response = Response(status: int, body: Body)

  /** What the route learns from the network: the marketplace wallet's
      address, `ownerOf(tokenId)` (`None` when the call throws), whether the
      fee payment and the transfer are accepted, the transfer's hash, whether
      both are mined, and the message of whatever throws. */
  datatype Network = Network(
    signer: string, ownerOf: Option<string>, feeAccepted: bool, transferAccepted: bool,
    transferHash: string, mined: bool, error: Option<string>)

  /** `BigInt(v)` for the JSON values a request can carry: an integer, a
      decimal numeral with an optional sign, or `true`; `None` where it
      throws. */
  function BigIntOf(v: Json): (r: Option<int>)
    ensures v.Num? ==> r == Some(v.n)
    ensures v.Bool? ==> r == Some(if v.b then 1 else 0)
    ensures v.Undefined? || v.Null? ==> r.None?
  {
    match v
    case Num(n) => Some(n)
    case Bool(b) => Some(if b then 1 else 0)
    case Str(s) => SignedDecimal(s)
    case _ => None
  }

  /** An optional `+` or `-` followed by decimal digits. */
  function SignedDecimal(s: string): (r: Option<int>)
  {
    if |s| > 0 && (s[0] == '-' || s[0] == '+') then
      match ParseNat(s[1..])
      case Some(n) =>
        var v: int := if s[0] == '-' then 0 - n as int else n as int;
        Some(v)
      case None => None
    else
      match ParseNat(s)
      case Some(n) => Some(n)
      case None => None
  }

  /** A decimal numeral reads back as the amount it spells, either sign. */
  lemma SignedDecimalRoundTrip(x: int)
    ensures x >= 0 ==> BigIntOf(Str(ToDecimal(x))) == Some(x)
    ensures x < 0 ==> BigIntOf(Str("-" + ToDecimal(-x))) == Some(x)
  {
    if x >= 0 {
      ParseNatToDecimal(x);
      assert ToDecimal(x)[0] != '-' && ToDecimal(x)[0] != '+';
    } else {
      ParseNatToDecimal(-x);
      assert ("-" + ToDecimal(-x))[1..] == ToDecimal(-x);
    }
  }

  /** `(amount * 2n) / 100n`. */
  function Fee(amount: int): int {
    BigIntDiv(amount * MarketplaceFeePercent, 100)
  }

  /** `amount - fee`. */
  function SellerShare(amount: int): int {
    amount - Fee(amount)
  }

  /** The fee and the seller's share add up to the payment; for a
      non-negative payment the fee is 2% rounded down, never more than the
      payment, and grows with it; truncation makes the fee of a negative
      payment the mirror image of the positive one. */
  lemma FeeSplit(amount: int, more: int)
    ensures Fee(amount) + SellerShare(amount) == amount
    ensures amount >= 0 ==> 0 <= Fee(amount) <= SellerShare(amount)
    ensures amount >= 0 ==> 50 * Fee(amount) <= amount < 50 * Fee(amount) + 50
    ensures amount >= 0 && more >= amount ==> Fee(amount) <= Fee(more)
    ensures Fee(-amount) == -Fee(amount)
  {
    if amount >= 0 && more >= amount {
      DivMonotone(amount * 2, more * 2, 100);
    }
    if amount < 0 {
      assert -amount * 2 >= 0;
    }
  }

  lemma MulMonotone(x: int, y: int, d: int)
    requires x <= y && d > 0
    ensures x * d <= y * d
  {
  }

  lemma DivMonotone(a: int, b: int, d: int)
    requires 0 <= a <= b && d > 0
    ensures a / d <= b / d
  {
    assert a == a / d * d + a % d;
    assert b == b / d * d + b % d;
    if a / d > b / d {
      assert a / d >= b / d + 1;
      MulMonotone(b / d + 1, a / d, d);
    }
  }

  /** Payments just below zero carry no fee, so their fee transaction is a
      zero-value transfer. */
  lemma SmallNegativePaymentHasNoFee(amount: int)
    requires -50 < amount < 0
    ensures Fee(amount) == 0 && SellerShare(amount) == amount
  {
  }

  /** `ethers.isAddress` on a request field; only a string can be one.
      `isAddress` itself (hex length and EIP-55 checksum) is a parameter. */
  predicate IsAddressField(isAddress: string -> bool, v: Json) {
    v.Str? && isAddress(v.s)
  }

  /** All four fields are truthy. */
  predicate Complete(q: Request) {
    Truthy(q.nftContract) && Truthy(q.tokenId) && Truthy(q.buyerAddress) && Truthy(q.paymentAmount)
  }

  /** The checks made before touching the network. */
  predicate WellFormed(q: Request, isAddress: string -> bool) {
    Complete(q) && IsAddressField(isAddress, q.nftContract) && IsAddressField(isAddress, q.buyerAddress)
  }

  /** Everything the route needs to complete a sale: a well-formed request,
      a readable owner who is the signer, a payment amount `BigInt` accepts,
      and both transactions sent and mined. */
  predicate Succeeds(q: Request, isAddress: string -> bool, net: Network) {
    && WellFormed(q, isAddress)
    && net.ownerOf.Some? && SameIgnoringCase(net.ownerOf.value, net.signer)
    && BigIntOf(q.paymentAmount).Some?
    && net.feeAccepted && net.transferAccepted && net.mined
  }

  /** The route. Returns the answer and the transactions it sent. */
  function BuyNft(req: Option<Request>, isAddress: string -> bool, net: Network): (r: (Response, seq<Tx>))
    ensures r.0.status in {200, 400, 403, 500}
    ensures r.0.status == 400 <==> req.Some? && !WellFormed(req.value, isAddress)
    ensures r.0.status == 400 ==> r.0.body == Refused(if Complete(req.value) then InvalidAddress else MissingParameters)
    ensures r.0.status == 403 ==> r.0.body == Refused(NotOwned) && r.1 == []
    ensures r.0.status == 403 <==>
      (req.Some? && WellFormed(req.value, isAddress) && net.ownerOf.Some? &&
       !SameIgnoringCase(net.ownerOf.value, net.signer))
    ensures r.0.status == 500 ==> r.0.body == Failed(TxFailed, net.error)
    ensures r.0.status in {400, 403} ==> r.1 == []
    ensures r.0.status == 200 <==> req.Some? && Succeeds(req.value, isAddress, net)
    ensures r.0.status == 200 ==>
      var q := req.value;
      var amount := BigIntOf(q.paymentAmount).value;
      BigIntOf(q.paymentAmount).Some? &&
      SameIgnoringCase(net.ownerOf.value, net.signer) &&
      r.1 == [FeeTx(FeeRecipient, Fee(amount)), TransferTx(q.nftContract, net.signer, q.buyerAddress, q.tokenId)] &&
      r.0.body == Purchased(FormatUnits(Fee(amount), TokenDecimals),
                            FormatUnits(SellerShare(amount), TokenDecimals), net.transferHash)
    ensures r.1 != [] ==> r.1[0].FeeTx? && r.1[0].recipient == FeeRecipient
  {
    if req.None? then (Response(500, Failed(TxFailed, net.error)), [])
    else
      var q := req.value;
      if !Complete(q) then
        (Response(400, Refused(MissingParameters)), [])
      else if !IsAddressField(isAddress, q.nftContract) || !IsAddressField(isAddress, q.buyerAddress) then
        (Response(400, Refused(InvalidAddress)), [])
      else if net.ownerOf.None? then (Response(500, Failed(TxFailed, net.error)), [])
      else if !SameIgnoringCase(net.ownerOf.value, net.signer) then (Response(403, Refused(NotOwned)), [])
      else
        match BigIntOf(q.paymentAmount)
        case None => (Response(500, Failed(TxFailed, net.error)), [])
        case Some(amount) =>
          var fee := FeeTx(FeeRecipient, Fee(amount));
          var transfer := TransferTx(q.nftContract, net.signer, q.buyerAddress, q.tokenId);
          if !net.feeAccepted then (Response(500, Failed(TxFailed, net.error)), [])
          else if !net.transferAccepted then (Response(500, Failed(TxFailed, net.error)), [fee])
          else if !net.mined then (Response(500, Failed(TxFailed, net.error)), [fee, transfer])
          else
            (Response(200, Purchased(FormatUnits(Fee(amount), TokenDecimals),
                                     FormatUnits(SellerShare(amount), TokenDecimals), net.transferHash)),
             [fee, transfer])
  }

  /** The route never checks that the buyer paid: two requests that differ
      only in the payment amount, both readable, transfer the same token to
      the same buyer. */
  lemma TransferIgnoresPayment(req: Request, other: Json, isAddress: string -> bool, net: Network)
    requires Truthy(other) && BigIntOf(other).Some?
    requires Succeeds(req, isAddress, net)
    ensures
      var r2 := BuyNft(Some(req.(paymentAmount := other)), isAddress, net);
      r2.0.status == 200 && r2.1[1] == BuyNft(Some(req), isAddress, net).1[1]
  {
  }

  /** The reported amounts read back through `parseEther` as the fee and
      the seller's share, which add up to the payment. */
  lemma ReportedAmountsAddUp(req: Request, isAddress: string -> bool, net: Network)
    requires Succeeds(req, isAddress, net)
    ensures
      var b := BuyNft(Some(req), isAddress, net).0.body;
      ParseUnits(b.feeCollected, TokenDecimals).Success? &&
      ParseUnits(b.sellerAmount, TokenDecimals).Success? &&
      ParseUnits(b.feeCollected, TokenDecimals).value + ParseUnits(b.sellerAmount, TokenDecimals).value ==
        BigIntOf(req.paymentAmount).value
  {
    var amount := BigIntOf(req.paymentAmount).value;
    ParseFormatRoundTrip(Fee(amount), TokenDecimals);
    ParseFormatRoundTrip(SellerShare(amount), TokenDecimals);
    FeeSplit(amount, amount);
  }
}

=== FILE: bytes.dfy ===
/** Byte strings as ethers exchanges them with the chain: a `bytes` value is
    the text `0x` followed by hexadecimal digits (`getBytes` accepts either
    letter case, `hexlify` always prints lower case), and `toBase64` renders
    bytes in the standard base64 alphabet of section 4 of RFC 4648. */
module Bytes {
  import opened Wrappers
  import Decimal

  type Byte = b: nat | b < 256

  /** The digit `hexlify` prints for a nibble: `0`-`9` then `a`-`f`. */
  function HexChar(n: nat): (c: char)
    requires n < 16
    ensures IsLowerHexDigit(c)
  {
    if n < 10 then ('0' as int + n) as char else ('a' as int + n - 10) as char
  }

  predicate IsLowerHexDigit(c: char) {
    '0' <= c <= '9' || 'a' <= c <= 'f'
  }

  /** The value of one hexadecimal digit, in either case. */
  function HexValue(c: char): (r: Option<nat>)
    ensures r.Some? ==> r.value < 16
  {
    if '0' <= c <= '9' then Some(c as int - '0' as int)
    else if 'a' <= c <= 'f' then Some(c as int - 'a' as int + 10)
    else if 'A' <= c <= 'F' then Some(c as int - 'A' as int + 10)
    else None
  }

  lemma HexValueOfHexChar(n: nat)
    requires n < 16
    ensures HexValue(HexChar(n)) == Some(n)
  {
  }

  /** Two lower-case hexadecimal digits per byte, high nibble first. */
  function HexOf(bs: seq<Byte>): (s: string)
    ensures |s| == 2 * |bs|
  {
    if |bs| == 0 then "" else [HexChar(bs[0] / 16), HexChar(bs[0] % 16)] + HexOf(bs[1..])
  }

  /** The hex text of a four-byte header, digit by digit. */
  lemma HexOfFour(b0: Byte, b1: Byte, b2: Byte, b3: Byte)
    ensures HexOf([b0, b1, b2, b3]) ==
      [HexChar(b0 / 16), HexChar(b0 % 16), HexChar(b1 / 16), HexChar(b1 % 16),
       HexChar(b2 / 16), HexChar(b2 % 16), HexChar(b3 / 16), HexChar(b3 % 16)]
  {
    assert [b3][1..] == [];
    assert HexOf([b3]) == [HexChar(b3 / 16), HexChar(b3 % 16)];
    assert [b2, b3][1..] == [b3];
    assert HexOf([b2, b3]) == [HexChar(b2 / 16), HexChar(b2 % 16)] + HexOf([b3]);
    assert [b1, b2, b3][1..] == [b2, b3];
    assert HexOf([b1, b2, b3]) == [HexChar(b1 / 16), HexChar(b1 % 16)] + HexOf([b2, b3]);
    assert [b0, b1, b2, b3][1..] == [b1, b2, b3];
    assert HexOf([b0, b1, b2, b3]) == [HexChar(b0 / 16), HexChar(b0 % 16)] + HexOf([b1, b2, b3]);
  }

  /** `hexlify(bytes)`. */
  function Hexlify(bs: seq<Byte>): (s: string)
    ensures |s| == 2 + 2 * |bs|
  {
    "0x" + HexOf(bs)
  }

  /** Reads pairs of hexadecimal digits; fails on an odd length or a non-digit. */
  function ParseHex(s: string): Option<seq<Byte>>
    decreases |s|
  {
    if |s| == 0 then Some([])
    else if |s| == 1 then None
    else
      match (HexValue(s[0]), HexValue(s[1]), ParseHex(s[2..]))
      case (Some(hi), Some(lo), Some(rest)) => Some([hi * 16 + lo] + rest)
      case _ => None
  }

  /** `getBytes(text)`: accepts exactly `0x` (or `0X`) followed by an even
      number of hexadecimal digits of either case; anything else throws. */
  function GetBytes(s: string): Option<seq<Byte>> {
    if |s| >= 2 && s[0] == '0' && (s[1] == 'x' || s[1] == 'X') then ParseHex(s[2..]) else None
  }

  /** Hex printing is read back exactly. */
  lemma {:induction false} ParseHexOf(bs: seq<Byte>)
    ensures ParseHex(HexOf(bs)) == Some(bs)
  {
    if |bs| > 0 {
      var s := HexOf(bs);
      assert s[2..] == HexOf(bs[1..]);
      HexValueOfHexChar(bs[0] / 16);
      HexValueOfHexChar(bs[0] % 16);
      ParseHexOf(bs[1..]);
      assert [bs[0]] + bs[1..] == bs;
    }
  }

  /** `getBytes(hexlify(b)) == b`: the canonical text of a byte string is accepted. */
  lemma GetBytesHexlify(bs: seq<Byte>)
    ensures GetBytes(Hexlify(bs)) == Some(bs)
  {
    assert Hexlify(bs)[2..] == HexOf(bs);
    ParseHexOf(bs);
  }

  /** Every character `hexlify` prints after `0x` is a lower-case hex digit. */
  predicate LowerHex(s: string) {
    forall i :: 0 <= i < |s| ==> IsLowerHexDigit(s[i])
  }

  lemma {:induction false} HexOfIsLowerHex(bs: seq<Byte>)
    ensures LowerHex(HexOf(bs))
  {
    if |bs| > 0 {
      HexOfIsLowerHex(bs[1..]);
    }
  }

  /** Hex printing is prefix-preserving: the text of `a + b` starts with the text of `a`. */
  lemma {:induction false} HexOfAppend(a: seq<Byte>, b: seq<Byte>)
    ensures HexOf(a + b) == HexOf(a) + HexOf(b)
  {
    if |a| > 0 {
      assert (a + b)[1..] == a[1..] + b;
      HexOfAppend(a[1..], b);
    } else {
      assert a + b == b;
    }
  }

  /** Distinct bytes print differently, so the printed text determines the bytes. */
  lemma HexOfInjective(a: seq<Byte>, b: seq<Byte>)
    requires HexOf(a) == HexOf(b)
    ensures a == b
  {
    ParseHexOf(a);
    ParseHexOf(b);
  }

  /** A hex-text prefix test on `hexlify(b)` is a byte-prefix test on `b`. */
  lemma HexPrefix(bs: seq<Byte>, m: seq<Byte>)
    ensures (|HexOf(m)| <= |HexOf(bs)| && HexOf(bs)[..|HexOf(m)|] == HexOf(m))
        <==> (|m| <= |bs| && bs[..|m|] == m)
  {
    if |m| <= |bs| {
      assert bs == bs[..|m|] + bs[|m|..];
      HexOfAppend(bs[..|m|], bs[|m|..]);
      assert HexOf(bs)[..|HexOf(m)|] == HexOf(bs[..|m|]);
      if HexOf(bs[..|m|]) == HexOf(m) {
        HexOfInjective(bs[..|m|], m);
      }
    }
  }

  // ---------------------------------------------------------------------
  // Base64, section 4 of RFC 4648: 3 bytes become 4 characters of the
  // alphabet A-Z a-z 0-9 + /, and a final group of 1 or 2 bytes is padded
  // with "==" or "=".
  // ---------------------------------------------------------------------

  /** The alphabet character for a 6-bit value: A-Z, a-z, 0-9, `+`, `/`. */
  function B64Char(n: nat): (c: char)
    requires n < 64
    ensures IsBase64Letter(c)
  {
    if n < 26 then ('A' as int + n) as char
    else if n < 52 then ('a' as int + n - 26) as char
    else if n < 62 then ('0' as int + n - 52) as char
    else if n == 62 then '+'
    else '/'
  }

  /** The characters of the RFC 4648 section 4 alphabet (the class `[a-zA-Z0-9+/]`). */
  predicate IsBase64Letter(c: char) {
    'A' <= c <= 'Z' || 'a' <= c <= 'z' || '0' <= c <= '9' || c == '+' || c == '/'
  }

  /** The 6-bit value of an alphabet character. */
  function B64Value(c: char): (r: Option<nat>)
    ensures r.Some? ==> r.value < 64
  {
    if 'A' <= c <= 'Z' then Some(c as int - 'A' as int)
    else if 'a' <= c <= 'z' then Some(c as int - 'a' as int + 26)
    else if '0' <= c <= '9' then Some(c as int - '0' as int + 52)
    else if c == '+' then Some(62)
    else if c == '/' then Some(63)
    else None
  }

  lemma B64ValueOfChar(n: nat)
    requires n < 64
    ensures B64Value(B64Char(n)) == Some(n)
  {
  }

  /** One full group: 24 bits as four 6-bit characters. */
  function EncodeGroup(b0: Byte, b1: Byte, b2: Byte): (s: string)
    ensures |s| == 4
  {
    [B64Char(b0 / 4), B64Char((b0 % 4) * 16 + b1 / 16),
     B64Char((b1 % 16) * 4 + b2 / 64), B64Char(b2 % 64)]
  }

  /** A final group of one byte: 8 bits and two pads. */
  function EncodeOne(b0: Byte): (s: string)
    ensures |s| == 4
  {
    [B64Char(b0 / 4), B64Char((b0 % 4) * 16), '=', '=']
  }

  /** A final group of two bytes: 16 bits and one pad. */
  function EncodeTwo(b0: Byte, b1: Byte): (s: string)
    ensures |s| == 4
  {
    [B64Char(b0 / 4), B64Char((b0 % 4) * 16 + b1 / 16), B64Char((b1 % 16) * 4), '=']
  }

  /** `toBase64(bytes)`. */
  function Base64(bs: seq<Byte>): (s: string)
  {
    if |bs| == 0 then ""
    else if |bs| == 1 then EncodeOne(bs[0])
    else if |bs| == 2 then EncodeTwo(bs[0], bs[1])
    else EncodeGroup(bs[0], bs[1], bs[2]) + Base64(bs[3..])
  }

  /** Reads one 4-character group back into 1 to 3 bytes; the bits a
      padded group leaves over must be zero. */
  function DecodeGroup(g: string): Option<seq<Byte>>
    requires |g| == 4
  {
    var v0 := B64Value(g[0]);
    var v1 := B64Value(g[1]);
    var v2 := B64Value(g[2]);
    var v3 := B64Value(g[3]);
    if v0.None? || v1.None? then None
    else if g[2] == '=' && g[3] == '=' then
      if v1.value % 16 == 0 then Some([v0.value * 4 + v1.value / 16]) else None
    else if v2.None? then None
    else if g[3] == '=' then
      if v2.value % 4 == 0 then Some([v0.value * 4 + v1.value / 16, (v1.value % 16) * 16 + v2.value / 4])
      else None
    else if v3.None? then None
    else Some([v0.value * 4 + v1.value / 16, (v1.value % 16) * 16 + v2.value / 4, (v2.value % 4) * 64 + v3.value])
  }

  /** Base64 decoding: padding may only appear in the last group. */
  function Base64Decode(s: string): Option<seq<Byte>>
    decreases |s|
  {
    if |s| == 0 then Some([])
    else if |s| < 4 then None
    else
      match DecodeGroup(s[..4])
      case None => None
      case Some(g) =>
        if |g| < 3 && |s| > 4 then None
        else
          match Base64Decode(s[4..])
          case None => None
          case Some(rest) => Some(g + rest)
  }

  /** Packing `x < k` below `a` in base `k` is undone by `/ k` and `% k`. */
  lemma Unpack(a: nat, x: nat, k: nat)
    requires x < k
    ensures (a * k + x) / k == a && (a * k + x) % k == x
  {
    Decimal.ModUnique(a * k + x, k, a, x);
  }

  /** `b` is its quotient by `k` times `k` plus its remainder. */
  lemma Split(b: nat, k: nat)
    requires k > 0
    ensures (b / k) * k + b % k == b
  {
  }

  lemma DecodeEncodeGroup(b0: Byte, b1: Byte, b2: Byte)
    ensures DecodeGroup(EncodeGroup(b0, b1, b2)) == Some([b0, b1, b2])
  {
    var v0, v1, v2, v3 := b0 / 4, (b0 % 4) * 16 + b1 / 16, (b1 % 16) * 4 + b2 / 64, b2 % 64;
    B64ValueOfChar(v0);
    B64ValueOfChar(v1);
    B64ValueOfChar(v2);
    B64ValueOfChar(v3);
    Unpack(b0 % 4, b1 / 16, 16);
    Unpack(b1 % 16, b2 / 64, 4);
    Split(b0, 4);
    Split(b1, 16);
    Split(b2, 64);
    assert v0 * 4 + v1 / 16 == b0;
    assert (v1 % 16) * 16 + v2 / 4 == b1;
    assert (v2 % 4) * 64 + v3 == b2;
  }

  lemma DecodeEncodeOne(b0: Byte)
    ensures DecodeGroup(EncodeOne(b0)) == Some([b0])
  {
    B64ValueOfChar(b0 / 4);
    B64ValueOfChar((b0 % 4) * 16);
    Unpack(b0 % 4, 0, 16);
    Split(b0, 4);
  }

  lemma DecodeEncodeTwo(b0: Byte, b1: Byte)
    ensures DecodeGroup(EncodeTwo(b0, b1)) == Some([b0, b1])
  {
    var v1 := (b0 % 4) * 16 + b1 / 16;
    B64ValueOfChar(b0 / 4);
    B64ValueOfChar(v1);
    B64ValueOfChar((b1 % 16) * 4);
    Unpack(b0 % 4, b1 / 16, 16);
    Unpack(b1 % 16, 0, 4);
    Split(b0, 4);
    Split(b1, 16);
  }

  /** Three or more bytes: one full group, then the rest. */
  lemma Base64Step(bs: seq<Byte>)
    requires |bs| >= 3
    ensures Base64(bs) == EncodeGroup(bs[0], bs[1], bs[2]) + Base64(bs[3..])
  {
  }

  /** A lone group that decodes to `g` is a whole decodable text. */
  lemma DecodeLastGroup(s: string, g: seq<Byte>)
    requires |s| == 4 && DecodeGroup(s) == Some(g)
    ensures Base64Decode(s) == Some(g)
  {
    assert s[..4] == s;
    assert s[4..] == "";
    assert g + [] == g;
  }

  /** A full group in front of a decodable text contributes its three bytes. */
  lemma DecodeFullGroup(s: string, t: string, g: seq<Byte>, rest: seq<Byte>)
    requires |s| == 4 && DecodeGroup(s) == Some(g) && |g| == 3
    requires Base64Decode(t) == Some(rest)
    ensures Base64Decode(s + t) == Some(g + rest)
  {
    var u := s + t;
    assert u[..4] == s;
    assert u[4..] == t;
  }

  /** An encoded full group in front of a decodable text decodes to its three
      bytes in front of that text's bytes. */
  lemma DecodeGroupThen(b0: Byte, b1: Byte, b2: Byte, t: string, rest: seq<Byte>)
    requires Base64Decode(t) == Some(rest)
    ensures Base64Decode(EncodeGroup(b0, b1, b2) + t) == Some([b0, b1, b2] + rest)
  {
    DecodeEncodeGroup(b0, b1, b2);
    DecodeFullGroup(EncodeGroup(b0, b1, b2), t, [b0, b1, b2], rest);
  }

  lemma RoundTripOne(bs: seq<Byte>)
    requires |bs| == 1
    ensures Base64Decode(Base64(bs)) == Some(bs)
  {
    var s := EncodeOne(bs[0]);
    DecodeEncodeOne(bs[0]);
    assert [bs[0]] == bs;
    DecodeLastGroup(s, bs);
  }

  lemma RoundTripTwo(bs: seq<Byte>)
    requires |bs| == 2
    ensures Base64Decode(Base64(bs)) == Some(bs)
  {
    var s := EncodeTwo(bs[0], bs[1]);
    DecodeEncodeTwo(bs[0], bs[1]);
    assert [bs[0], bs[1]] == bs;
    DecodeLastGroup(s, bs);
  }

  /** Base64 output is read back exactly. */
  lemma {:induction false} Base64RoundTrip(bs: seq<Byte>)
    ensures Base64Decode(Base64(bs)) == Some(bs)
  {
    if |bs| == 1 {
      RoundTripOne(bs);
    } else if |bs| == 2 {
      RoundTripTwo(bs);
    } else if |bs| >= 3 {
      var t := bs[3..];
      Base64RoundTrip(t);
      Base64Step(bs);
      DecodeGroupThen(bs[0], bs[1], bs[2], Base64(t), t);
      assert [bs[0], bs[1], bs[2]] + t == bs;
    }
  }

  /** Characters `toBase64` may print. */
  predicate Base64Char(c: char) {
    IsBase64Letter(c) || c == '='
  }

  /** Four characters for every started group of three bytes. */
  lemma {:induction false} Base64Length(bs: seq<Byte>)
    ensures |Base64(bs)| == 4 * ((|bs| + 2) / 3)
  {
    if |bs| >= 3 {
      var t := bs[3..];
      Base64Step(bs);
      Base64Length(t);
      assert (|t| + 2) / 3 + 1 == (|bs| + 2) / 3;
    }
  }

  lemma {:induction false} Base64UsesAlphabet(bs: seq<Byte>)
    ensures forall i :: 0 <= i < |Base64(bs)| ==> Base64Char(Base64(bs)[i])
  {
    if |bs| >= 3 {
      Base64UsesAlphabet(bs[3..]);
    }
  }
}

=== FILE: chain.dfy ===
/** The records the marketplace contract hands out. Text fields stored as
    `bytes32` or UTF-8 bytes arrive already decoded (a failing decode counts
    as a failing fetch); the `image` bytes stay as the `0x…` hex text ethers
    returns for a `bytes` value. */
module Chain {
  /** `contract.orders(i)`. */
  datatype ChainOrder = ChainOrder(
    productId: nat, amountPaid: nat, buyer: string, seller: string,
    isPaid: bool, isDelivered: bool)

  /** `contract.store(i)`. */
  datatype ChainProduct = ChainProduct(
    name: string, price: nat, description: string, image: string,
    productType: string, condition: string, seller: string, stock: nat)
}

=== FILE: contract_hooks.dfy ===
/** The marketplace's contract hook: its initialization, `PlaceOrder`
    (approve first when prepaid), `GetProducts` (all products or nothing)
    and `NameTransfer` (deposit an NFT the signer owns). */
module ContractHooks {
  import opened Wrappers
  import opened Js
  import opened Chain
  import opened Address
  import opened Approval
  import Units
  import Seqs

  const InitPrefix := "Contract initialization failed: "
  const NoWalletMessage := "MetaMask or similar wallet extension not detected!"

  /** Initialization: without a wallet provider, or when `getSigner` throws,
      the hook throws with the cause's message behind a fixed prefix;
      otherwise it yields the signer's address. */
  function Init(hasWallet: bool, signer: Result<string, Thrown>): (r: Result<string, string>)
    ensures r.Failure? ==> StartsWith(r.error, InitPrefix)
    ensures r.Success? <==> hasWallet && signer.Success?
    ensures r.Success? ==> r.value == signer.value
    ensures !hasWallet ==> r.error == InitPrefix + NoWalletMessage
  {
    if !hasWallet then Failure(InitPrefix + NoWalletMessage)
    else
      match signer
      case Failure(e) => Failure(InitPrefix + Render(e.message))
      case Success(address) => Success(address)
  }

  /** What `PlaceOrder` did: whether it succeeded, the token allowances
      afterwards, the amount `approveToken` was asked for (if it was called)
      and whether `buyProduct` was sent. */
  datatype PlaceRun = PlaceRun(ok: bool, allowances: Allowances, approvalAsked: Option<nat>, buyCalled: bool)

  /** `PlaceOrder(productId, isPrepaid)` by `owner` on the marketplace at
      `market`. The approval inputs are those of `approveToken`; `buyOk`
      says whether `buyProduct` and its receipt succeed. Every error is
      rethrown. */
  function PlaceOrder(market: string, owner: string, productId: nat, isPrepaid: bool,
                      store: nat -> Option<ChainProduct>, a: Allowances,
                      hasApprove: bool, readOk: bool, approveTxOk: bool, buyOk: bool): (r: PlaceRun)
    ensures r.approvalAsked.Some? <==> isPrepaid && store(productId).Some?
    ensures r.approvalAsked.Some? ==> r.approvalAsked.value == store(productId).value.price
    ensures r.buyCalled ==> store(productId).Some?
    ensures r.buyCalled && isPrepaid ==> AllowanceOf(r.allowances, owner, market) >= store(productId).value.price
    ensures !isPrepaid ==> r.allowances == a && (r.buyCalled <==> store(productId).Some?)
    ensures r.ok <==> r.buyCalled && buyOk
    ensures isPrepaid && store(productId).Some? ==>
      (r.buyCalled <==>
        hasApprove && readOk && (AllowanceOf(a, owner, market) >= store(productId).value.price || approveTxOk))
    ensures isPrepaid && store(productId).Some? ==>
      r.allowances == ApproveToken(hasApprove, a, owner, market, store(productId).value.price, readOk, approveTxOk).allowances
  {
    match store(productId)
    case None => PlaceRun(false, a, None, false)
    case Some(p) =>
      if isPrepaid then
        var run := ApproveToken(hasApprove, a, owner, market, p.price, readOk, approveTxOk);
        if run.result.Failure? then PlaceRun(false, run.allowances, Some(p.price), false)
        else PlaceRun(buyOk, run.allowances, Some(p.price), true)
      else PlaceRun(buyOk, a, None, true)
  }

  /** The fetch loop of `GetProducts` from id `lo` up to, not including,
      `hi`: one failing `store(i)` aborts the whole call. */
  function GetProductsFrom(lo: nat, hi: nat, store: nat -> Option<ChainProduct>): (r: Option<seq<ChainProduct>>)
    ensures r.Some? <==> forall i :: lo <= i < hi ==> store(i).Some?
    ensures r.Some? ==> |r.value| == Seqs.Span(lo, hi)
    ensures r.Some? ==> forall k :: 0 <= k < |r.value| ==> store(lo + k) == Some(r.value[k])
    decreases hi - lo
  {
    if hi <= lo then Some([])
    else
      match store(lo)
      case None => None
      case Some(p) =>
        match GetProductsFrom(lo + 1, hi, store)
        case None => None
        case Some(rest) => Some([p] + rest)
  }

  /** `GetProducts()` for `productCount() == count`: `store(1) … store(count - 1)`. */
  function GetProducts(count: nat, store: nat -> Option<ChainProduct>): Option<seq<ChainProduct>> {
    GetProductsFrom(1, count, store)
  }

  /** All products `1 .. count - 1` in id order, so `max(0, count - 1)` of
      them, or nothing at all when any fetch fails. */
  lemma GetProductsShape(count: nat, store: nat -> Option<ChainProduct>)
    ensures GetProducts(count, store).Some? <==> forall i :: 1 <= i < count ==> store(i).Some?
    ensures GetProducts(count, store).Some? ==>
      |GetProducts(count, store).value| == (if count > 0 then count - 1 else 0)
    ensures GetProducts(count, store).Some? ==>
      forall k :: 0 <= k < |GetProducts(count, store).value| ==>
        store(k + 1) == Some(GetProducts(count, store).value[k])
  {
  }

  /** A step `NameTransfer` takes on chain. */
  datatype TransferStep =
    | ApproveManager(tokenId: nat)                        // `nft.approve(manager, tokenId)`
    | Deposit(nft: string, tokenId: nat, amount: int)     // `depositNFT(nft, tokenId, amount)`

  /** Why `NameTransfer` throws; every error is rethrown. */
  datatype TransferError =
    | OwnerQueryFailed | NotOwner | ApprovalFailed | BadAmount(e: Units.UnitsError) | DepositFailed

  const NotOwnerMessage := "You don't own this NFT"

  /** The steps taken and the outcome. */
  datatype TransferRun = TransferRun(steps: seq<TransferStep>, result: Result<bool, TransferError>)

  /** The deposit amount: `parseEther(brtxAmount)`, with `"1"` when the
      argument is left out. */
  function DepositAmount(brtxAmount: Option<string>): Result<int, Units.UnitsError> {
    Units.ParseUnits(if brtxAmount.Some? then brtxAmount.value else "1", Units.TokenDecimals)
  }

  /** Whether some step is a deposit. */
  predicate HasDeposit(steps: seq<TransferStep>) {
    |steps| > 0 && (steps[0].Deposit? || HasDeposit(steps[1..]))
  }

  /** The signer owns the NFT and the manager is, or becomes, approved for it. */
  predicate MayDeposit(signer: string, manager: string, owner: Option<string>, approved: Option<string>, approveOk: bool) {
    owner.Some? && SameAddress(owner.value, signer) &&
    ((approved.Some? && SameAddress(approved.value, manager)) || approveOk)
  }

  /** `NameTransfer(nft, tokenId, brtxAmount)` by `signer`. `owner` is what
      `ownerOf(tokenId)` returns (`None` when it throws), `approved` what
      `getApproved(tokenId)` returns (`None` for a null result); `manager`
      is the NFT manager contract. */
  function NameTransfer(nft: string, tokenId: nat, brtxAmount: Option<string>, signer: string, manager: string,
                        owner: Option<string>, approved: Option<string>, approveOk: bool, depositOk: bool): (r: TransferRun)
    ensures r.result == Failure(NotOwner) <==> owner.Some? && !SameAddress(owner.value, signer)
    ensures r.result == Failure(NotOwner) || r.result == Failure(OwnerQueryFailed) ==> r.steps == []
    ensures ApproveManager(tokenId) in r.steps <==>
      owner.Some? && SameAddress(owner.value, signer) && !(approved.Some? && SameAddress(approved.value, manager))
    ensures forall s :: s in r.steps && s.Deposit? ==>
      DepositAmount(brtxAmount) == Success(s.amount) && s.nft == nft && s.tokenId == tokenId
    ensures r.result.Success? ==>
      owner.Some? && SameAddress(owner.value, signer) && |r.steps| >= 1 && r.steps[|r.steps| - 1].Deposit? && depositOk
    ensures ApproveManager(tokenId) in r.steps && !approveOk ==>
      r == TransferRun([ApproveManager(tokenId)], Failure(ApprovalFailed))
    ensures HasDeposit(r.steps) <==>
      MayDeposit(signer, manager, owner, approved, approveOk) && DepositAmount(brtxAmount).Success?
    ensures r.result.Success? <==>
      MayDeposit(signer, manager, owner, approved, approveOk) && DepositAmount(brtxAmount).Success? && depositOk
  {
    match owner
    case None => TransferRun([], Failure(OwnerQueryFailed))
    case Some(o) =>
      if !SameAddress(o, signer) then TransferRun([], Failure(NotOwner))
      else
        var needsApproval := !(approved.Some? && SameAddress(approved.value, manager));
        var approvals := if needsApproval then [ApproveManager(tokenId)] else [];
        if needsApproval && !approveOk then TransferRun(approvals, Failure(ApprovalFailed))
        else
          match DepositAmount(brtxAmount)
          case Failure(e) => TransferRun(approvals, Failure(BadAmount(e)))
          case Success(amount) =>
            var steps := approvals + [Deposit(nft, tokenId, amount)];
            TransferRun(steps, if depositOk then Success(true) else Failure(DepositFailed))
  }

  /** Without an amount the deposit is one whole token, `10^18` base units. */
  lemma DefaultDepositIsOneToken()
    ensures DepositAmount(None) == Success(1_000_000_000_000_000_000)
  {
    Units.ParseOneEther();
  }
}

=== FILE: dashboard.dfy ===
/** The seller dashboard's product list: every product id is scanned and
    only the connected seller's products are kept. */
module Dashboard {
  import opened Wrappers
  import opened Chain
  import opened Address
  import Decimal
  import Units
  import Seqs

  /** A row of the seller's product list. */
  datatype SellerProduct = SellerProduct(
    id: nat, name: string, price: string, stock: string, description: string,
    image: string, productType: string, condition: string, seller: string)

  /** One pass of the scan. A failing `store(i)`, an image that is not UTF-8
      (`utf8` gives `None`), a missing connected address (`getAddress`
      resolved to null, so `toLowerCase` throws) and another seller's
      product all leave nothing. */
  function SellerProductAt(store: nat -> Option<ChainProduct>, address: Option<string>,
                           utf8: string -> Option<string>): nat -> Option<SellerProduct> {
    (i: nat) =>
      match store(i)
      case None => None
      case Some(p) =>
        if address.None? || !SameAddress(p.seller, address.value) then None
        else
          match utf8(p.image)
          case None => None
          case Some(image) =>
            Some(SellerProduct(i, p.name, Units.FormatUnits(p.price, Units.TokenDecimals),
              Decimal.ToDecimal(p.stock), p.description, image, p.productType, p.condition, p.seller))
  }

  /** The dashboard list for `productCount() == count`: ids `1 .. count`. */
  function SellerProducts(count: nat, store: nat -> Option<ChainProduct>, address: Option<string>,
                          utf8: string -> Option<string>): (r: seq<SellerProduct>)
    ensures |r| <= count
  {
    Seqs.Collect(1, count + 1, SellerProductAt(store, address, utf8))
  }

  /** A product is listed iff its id is in range, its fetch succeeded, its
      seller is the connected address up to letter case and its image
      decodes; its price reads back as the on-chain price and its stock as
      the on-chain stock. */
  lemma SellerProductsContents(count: nat, store: nat -> Option<ChainProduct>, address: Option<string>,
                               utf8: string -> Option<string>, r: SellerProduct)
    ensures r in SellerProducts(count, store, address, utf8) <==>
      exists i: nat :: 1 <= i <= count && SellerProductAt(store, address, utf8)(i) == Some(r)
    ensures r in SellerProducts(count, store, address, utf8) ==>
      1 <= r.id <= count && store(r.id).Some? && address.Some? &&
      SameAddress(store(r.id).value.seller, address.value) &&
      utf8(store(r.id).value.image) == Some(r.image) &&
      Units.ParseUnits(r.price, Units.TokenDecimals) == Success(store(r.id).value.price as int) &&
      Decimal.ParseNat(r.stock) == Some(store(r.id).value.stock)
  {
    var f := SellerProductAt(store, address, utf8);
    Seqs.CollectMembers(1, count + 1, f, r);
    if r in SellerProducts(count, store, address, utf8) {
      var i: nat :| 1 <= i < count + 1 && f(i) == Some(r);
      assert r.id == i;
      Units.ParseFormatRoundTrip(store(i).value.price, Units.TokenDecimals);
      Decimal.ParseNatToDecimal(store(i).value.stock);
    }
  }

  /** Every product of the connected seller whose fetch and decode succeed is listed. */
  lemma SellerProductsComplete(count: nat, store: nat -> Option<ChainProduct>, address: string,
                               utf8: string -> Option<string>, i: nat)
    requires 1 <= i <= count && store(i).Some? && SameAddress(store(i).value.seller, address)
    requires utf8(store(i).value.image).Some?
    ensures exists r :: r in SellerProducts(count, store, Some(address), utf8) && r.id == i
  {
    var f := SellerProductAt(store, Some(address), utf8);
    var r := f(i).value;
    Seqs.CollectMembers(1, count + 1, f, r);
  }

  /** The kept ids are distinct, in range and ascending, so the list is a
      subsequence of the scanned range. */
  lemma SellerProductsAscending(count: nat, store: nat -> Option<ChainProduct>, address: Option<string>,
                                utf8: string -> Option<string>)
    ensures |SellerProducts(count, store, address, utf8)| <= count
    ensures forall k :: 0 <= k < |SellerProducts(count, store, address, utf8)| ==>
      1 <= SellerProducts(count, store, address, utf8)[k].id <= count
    ensures forall j, k :: 0 <= j < k < |SellerProducts(count, store, address, utf8)| ==>
      SellerProducts(count, store, address, utf8)[j].id < SellerProducts(count, store, address, utf8)[k].id
  {
    var f := SellerProductAt(store, address, utf8);
    var key := (r: SellerProduct) => r.id;
    forall i: nat | f(i).Some?
      ensures key(f(i).value) == i
    {
    }
    Seqs.CollectKeys(1, count + 1, f, key);
  }

  /** With no connected address every pass throws and the list is empty. */
  lemma NoAddressNoProducts(count: nat, store: nat -> Option<ChainProduct>, utf8: string -> Option<string>)
    ensures SellerProducts(count, store, None, utf8) == []
  {
    var f := SellerProductAt(store, None, utf8);
    if |SellerProducts(count, store, None, utf8)| > 0 {
      var r := SellerProducts(count, store, None, utf8)[0];
      SellerProductsContents(count, store, None, utf8, r);
    }
  }

  /** The list depends on the connected address only up to letter case. */
  lemma SellerProductsIgnoreCase(count: nat, store: nat -> Option<ChainProduct>, a: string, b: string,
                                 utf8: string -> Option<string>)
    requires Js.SameIgnoringCase(a, b)
    ensures SellerProducts(count, store, Some(a), utf8) == SellerProducts(count, store, Some(b), utf8)
  {
    var fa := SellerProductAt(store, Some(a), utf8);
    var fb := SellerProductAt(store, Some(b), utf8);
    forall i: nat | 1 <= i < count + 1
      ensures fa(i) == fb(i)
    {
      if store(i).Some? {
        Js.SameIgnoringCaseIsEquivalence(store(i).value.seller, a, b);
        Js.SameIgnoringCaseIsEquivalence(store(i).value.seller, b, a);
      }
    }
    Seqs.CollectCongruent(1, count + 1, fa, fb);
  }
}

=== FILE: decimal.dfy ===
/** Decimal digit strings: how a JavaScript `Number`/`BigInt` prints a
    non-negative integer and how a run of digits is read back. */
module Decimal {
  import opened Wrappers

  predicate IsDigit(c: char) {
    '0' <= c <= '9'
  }

  predicate AllDigits(s: string) {
    forall i :: 0 <= i < |s| ==> IsDigit(s[i])
  }

  function DigitChar(d: nat): (c: char)
    requires d < 10
    ensures IsDigit(c)
  {
    ('0' as int + d) as char
  }

  function DigitOf(c: char): (d: nat)
    requires IsDigit(c)
    ensures d < 10
  {
    c as int - '0' as int
  }

  function Pow10(k: nat): (r: nat)
    ensures r >= 1
  {
    if k == 0 then 1 else 10 * Pow10(k - 1)
  }

  /** The number a digit string denotes (the empty string denotes 0). */
  function Value(s: string): nat
    requires AllDigits(s)
    decreases |s|
  {
    if |s| == 0 then 0 else Value(s[..|s| - 1]) * 10 + DigitOf(s[|s| - 1])
  }

  /** `k` zero characters. */
  function Zeros(k: nat): (z: string)
    ensures |z| == k && AllDigits(z)
    ensures forall i :: 0 <= i < k ==> z[i] == '0'
  {
    seq(k, _ => '0')
  }

  /** `n.toString()`: the shortest decimal spelling, with no leading zero. */
  function ToDecimal(n: nat): (r: string)
    ensures AllDigits(r) && |r| >= 1
    ensures |r| > 1 ==> r[0] != '0'
    decreases n
  {
    if n < 10 then [DigitChar(n)] else ToDecimal(n / 10) + [DigitChar(n % 10)]
  }

  /** `BigInt(s)` on the decimal spellings `toString` produces; any other
      text is refused, as a throwing conversion. */
  function ParseNat(s: string): (r: Option<nat>)
    ensures r.Some? <==> |s| >= 1 && AllDigits(s)
  {
    if |s| >= 1 && AllDigits(s) then Some(Value(s)) else None
  }

  /** The lowest `k` decimal digits of `r`, left-padded with zeros. */
  function Fixed(r: nat, k: nat): (s: string)
    ensures |s| == k && AllDigits(s)
  {
    if k == 0 then [] else Fixed(r / 10, k - 1) + [DigitChar(r % 10)]
  }

  lemma ValueOfDigitChar(d: nat)
    requires d < 10
    ensures DigitOf(DigitChar(d)) == d
  {
  }

  /** Reading back what `ToDecimal` printed gives the number. */
  lemma {:induction false} ValueOfToDecimal(n: nat)
    ensures Value(ToDecimal(n)) == n
    decreases n
  {
    var s := ToDecimal(n);
    if n >= 10 {
      ValueOfToDecimal(n / 10);
      assert s[..|s| - 1] == ToDecimal(n / 10);
    }
  }

  /** `BigInt(n.toString())` is `n`. */
  lemma ParseNatToDecimal(n: nat)
    ensures ParseNat(ToDecimal(n)) == Some(n)
  {
    ValueOfToDecimal(n);
  }

  /** Splitting off the last digit of `r` and the last `k` digits of the rest. */
  lemma ModStep(r: nat, k: nat)
    ensures (r / 10) % Pow10(k) * 10 + r % 10 == r % Pow10(k + 1)
  {
    var p := Pow10(k);
    var q := r / 10;
    var d := r % 10;
    var a := q / p;
    var b := q % p;
    assert q == p * a + b;
    assert r == 10 * q + d;
    assert r == (10 * p) * a + (10 * b + d);
    assert 0 <= 10 * b + d < 10 * p;
    ModUnique(r, 10 * p, a, 10 * b + d);
  }

  lemma ModUnique(n: nat, m: nat, q: nat, rem: nat)
    requires m > 0 && n == m * q + rem && rem < m
    ensures n % m == rem && n / m == q
  {
    var x := q - n / m;
    assert m * x == m * q - m * (n / m);
    assert m * x == rem - n % m;
    MulAtLeast(m, x);
  }

  /** Dividing a natural number by a positive one gives a natural quotient
      and remainder. */
  lemma QuotientBounds(n: nat, m: nat)
    requires m >= 1
    ensures 0 <= n / m <= n && 0 <= n % m < m
  {
    assert n == m * (n / m) + n % m;
    MulAtLeast(m, n / m);
  }

  lemma MulAtLeast(m: nat, x: int)
    ensures x >= 1 ==> m * x >= m
    ensures x <= -1 ==> m * x + m <= 0
  {
    if x >= 1 {
      assert m * x == m * (x - 1) + m;
    } else if x <= -1 {
      assert m * x == -(m * (-x - 1)) - m;
    }
  }

  /** `Fixed(r, k)` denotes `r` modulo `10^k`. */
  lemma {:induction false} ValueOfFixed(r: nat, k: nat)
    ensures Value(Fixed(r, k)) == r % Pow10(k)
  {
    if k > 0 {
      var s := Fixed(r, k);
      assert s[..|s| - 1] == Fixed(r / 10, k - 1);
      ValueOfFixed(r / 10, k - 1);
      ModStep(r, k - 1);
    }
  }

  /** The value of a concatenation: the left part shifted by the right part's length. */
  lemma {:induction false} ValueAppend(a: string, b: string)
    requires AllDigits(a) && AllDigits(b)
    ensures AllDigits(a + b)
    ensures Value(a + b) == Value(a) * Pow10(|b|) + Value(b)
    decreases |b|
  {
    if |b| > 0 {
      var b' := b[..|b| - 1];
      var last := DigitOf(b[|b| - 1]);
      assert (a + b)[..|a + b| - 1] == a + b';
      ValueAppend(a, b');
      assert (a + b)[|a + b| - 1] == b[|b| - 1];
      assert Value(a + b) == Value(a + b') * 10 + last;
      assert Value(b) == Value(b') * 10 + last;
      assert Pow10(|b|) == Pow10(|b'|) * 10;
      ShiftDigit(Value(a), Pow10(|b'|), Value(b'), last);
    } else {
      assert a + b == a;
    }
  }

  /** Appending a digit to a shifted sum shifts it once more. */
  lemma ShiftDigit(x: nat, p: nat, y: nat, d: nat)
    ensures (x * p + y) * 10 + d == x * (p * 10) + (y * 10 + d)
  {
  }

  /** Digit characters are exactly the ten ASCII digits, so a digit string
      never contains the sign or the decimal point. */
  lemma DigitsExcludePunctuation(c: char)
    requires IsDigit(c)
    ensures c != '.' && c != '-'
  {
  }
}

=== FILE: folder_stack.dfy ===
/** The seller landing page's rotating stack of cards: every second the
    last image moves to the front, and each card is drawn by its position. */
module FolderStack {
  import opened Wrappers

  const Images: seq<string> := ["/img1.png", "/img2.png", "/img3.png", "/img4.png", "/img5.png"]

  /** The stack as the component holds it: `pop()` on an empty array yields
      `undefined`, so an entry may be missing. */
  type Stack = seq<Option<string>>

  function Initial(images: seq<string>): (r: Stack)
    ensures |r| == |images|
    ensures forall i :: 0 <= i < |images| ==> r[i] == Some(images[i])
  {
    seq(|images|, i requires 0 <= i < |images| => Some(images[i]))
  }

  /** One interval tick: `unshift(pop())`. */
  function Tick(s: Stack): (r: Stack)
  {
    if |s| == 0 then [None] else [s[|s| - 1]] + s[..|s| - 1]
  }

  /** `n` ticks. */
  function Ticks(s: Stack, n: nat): Stack
    decreases n
  {
    if n == 0 then s else Ticks(Tick(s), n - 1)
  }

  /** The reference rotation: the last `k` cards moved, in order, to the front. */
  function RotateRight(s: Stack, k: nat): (r: Stack)
    requires k <= |s|
  {
    s[|s| - k..] + s[..|s| - k]
  }

  /** A tick of a non-empty stack keeps its cards and its size. */
  lemma TickPermutes(s: Stack)
    requires |s| > 0
    ensures |Tick(s)| == |s|
    ensures multiset(Tick(s)) == multiset(s)
    ensures Tick(s)[0] == s[|s| - 1]
    ensures forall i :: 1 <= i < |s| ==> Tick(s)[i] == s[i - 1]
  {
    assert s == s[..|s| - 1] + [s[|s| - 1]];
  }

  /** An empty stack becomes one missing card, and stays so. */
  lemma {:induction false} EmptyStackStaysBroken(n: nat)
    ensures Tick([]) == [None]
    ensures Ticks([None], n) == [None]
  {
    if n > 0 {
      assert Tick([None]) == [None];
      EmptyStackStaysBroken(n - 1);
    }
  }

  /** `n` ticks of a non-empty stack rotate it right by `n` places. */
  lemma {:induction false} TicksRotate(s: Stack, n: nat)
    requires 0 < |s| && n <= |s|
    ensures Ticks(s, n) == RotateRight(s, n)
  {
    if n == 0 {
      assert RotateRight(s, 0) == s[|s|..] + s[..|s|];
      assert s[|s|..] == [] && s[..|s|] == s;
    } else {
      var p := n - 1;
      TicksStepLast(s, p);
      TicksRotate(s, p);
      RotateStep(s, p);
      assert Ticks(s, n) == Tick(Ticks(s, p)) == Tick(RotateRight(s, p));
    }
  }

  /** `Ticks` unfolded at the last step. */
  lemma {:induction false} TicksStepLast(s: Stack, n: nat)
    ensures Ticks(s, n + 1) == Tick(Ticks(s, n))
    decreases n
  {
    if n > 0 {
      TicksStepLast(Tick(s), n - 1);
    }
  }

  /** One more tick moves one more card to the front. */
  lemma RotateStep(s: Stack, k: nat)
    requires k < |s|
    ensures Tick(RotateRight(s, k)) == RotateRight(s, k + 1)
  {
    var m := |s| - k;
    var front, back := s[m..], s[..m - 1];
    var x := s[m - 1];
    assert s[..m] == back + [x];
    var r := front + back + [x];
    assert RotateRight(s, k) == r;
    assert r[..|r| - 1] == front + back;
    assert Tick(r) == [x] + (front + back);
    assert s[m - 1..] == [x] + front;
  }

  /** After as many ticks as there are cards the stack is back where it
      started. */
  lemma FullTurnRestores(s: Stack)
    requires |s| > 0
    ensures Ticks(s, |s|) == s
  {
    TicksRotate(s, |s|);
    assert s[0..] == s && s[..0] == [];
  }

  /** With the five default images, the stack repeats every five seconds. */
  lemma DefaultStackRepeats()
    ensures Ticks(Initial(Images), 5) == Initial(Images)
  {
    var t := Initial(Images);
    assert |t| == 5;
    FullTurnRestores(t);
  }

  /** Where a card is drawn: `zIndex: 10 - index`, offset `5 * index` on
      both axes, and the front card scaled up. */
  datatype CardStyle = CardStyle(zIndex: int, x: int, y: int, scalePercent: nat)

  function StyleAt(index: nat): CardStyle
  {
    CardStyle(10 - index, index * 5, index * 5, if index == 0 then 105 else 100)
  }

  /** Earlier cards are drawn above and less offset than later ones, and only
      the front card is enlarged. */
  lemma StylesOrderCards(i: nat, j: nat)
    ensures i < j ==> StyleAt(i).zIndex > StyleAt(j).zIndex && StyleAt(i).x < StyleAt(j).x
    ensures StyleAt(i) == StyleAt(j) <==> i == j
    ensures StyleAt(i).scalePercent > 100 <==> i == 0
  {
  }
}

=== FILE: image_url.dfy ===
/** The two `bytesToImageUrl` helpers that turn an on-chain `bytes` image
    field (ethers hands it over as `0x`-prefixed hex text) into an image
    source: the delivery app's short version and the storefront's version
    with image magic numbers, a `data` tag and an IPFS gateway fallback. */
module ImageUrl {
  import opened Wrappers
  import opened Js
  import opened Bytes

  const DeliveryPlaceholder := "/placeholder-product.png"
  const StorefrontErrorImage := "/image.png"
  const IpfsGateway := "https://ipfs.io/ipfs/"
  const PngDataUrl := "data:image/png;base64,"
  const JpegDataUrl := "data:image/jpeg;base64,"
  const GifDataUrl := "data:image/gif;base64,"
  const WebpDataUrl := "data:image/webp;base64,"

  /** The ASCII bytes of `data`, spelled `0x64617461` in hex text. */
  const DataTag: seq<Byte> := [0x64, 0x61, 0x74, 0x61]
  const DataTagHex := "0x64617461"

  /** The storefront's header table: hex text of the first four bytes and the
      data-URL prefix it selects. */
  const ImageHeaders: seq<(string, string)> := [
    ("0x89504e47", PngDataUrl),
    ("0xffd8ffe0", JpegDataUrl),
    ("0xffd8ffe1", JpegDataUrl),
    ("0x47494638", GifDataUrl),
    ("0x52494646", WebpDataUrl)
  ]

  /** The same table as magic byte sequences. */
  const ImageMagic: seq<seq<Byte>> := [
    [0x89, 0x50, 0x4e, 0x47],
    [0xff, 0xd8, 0xff, 0xe0],
    [0xff, 0xd8, 0xff, 0xe1],
    [0x47, 0x49, 0x46, 0x38],
    [0x52, 0x49, 0x46, 0x46]
  ]

  // ---------------------------------------------------------------------
  // Delivery app
  // ---------------------------------------------------------------------

  /** Delivery `bytesToImageUrl`: `hexlify` the field (a missing or
      malformed field throws and gives the placeholder); a `data` tag gives
      a PNG data URL carrying the remaining hex digits, anything else the
      IPFS gateway URL of the hex digits. */
  function DeliveryImageUrl(image: Option<string>): string
  {
    if image.None? then DeliveryPlaceholder
    else
      match GetBytes(image.value)
      case None => DeliveryPlaceholder
      case Some(b) =>
        var hex := Hexlify(b);
        if StartsWith(hex, DataTagHex) then PngDataUrl + hex[10..]
        else IpfsGateway + hex[2..]
  }

  lemma DataTagHexIsHexlify()
    ensures Hexlify(DataTag) == DataTagHex
    ensures HexOf(DataTag) == DataTagHex[2..]
  {
  }

  /** A `0x`-prefixed prefix test on hex text is a byte-prefix test. */
  lemma HexlifyPrefix(b: seq<Byte>, m: seq<Byte>)
    ensures StartsWith(Hexlify(b), Hexlify(m)) <==> (|m| <= |b| && b[..|m|] == m)
  {
    HexPrefix(b, m);
    var hb, hm := Hexlify(b), Hexlify(m);
    if |hm| <= |hb| {
      assert hb[..|hm|] == "0x" + HexOf(b)[..|HexOf(m)|];
      assert hm == "0x" + HexOf(m);
      if hb[..|hm|] == hm {
        assert HexOf(b)[..|HexOf(m)|] == hb[..|hm|][2..];
      }
    }
  }

  /** The delivery classifier by bytes: a field that decodes to `b` gives the
      data URL of the bytes after the tag when `b` starts with `data`, and
      the gateway URL of all of `b` otherwise; a field that does not decode
      gives the placeholder. */
  lemma DeliveryImageUrlCases(text: string)
    ensures GetBytes(text).None? ==> DeliveryImageUrl(Some(text)) == DeliveryPlaceholder
    ensures GetBytes(text).Some? ==>
      var b := GetBytes(text).value;
      if |b| >= 4 && b[..4] == DataTag
      then DeliveryImageUrl(Some(text)) == PngDataUrl + HexOf(b[4..])
      else DeliveryImageUrl(Some(text)) == IpfsGateway + HexOf(b)
  {
    if GetBytes(text).Some? {
      var b := GetBytes(text).value;
      DataTagHexIsHexlify();
      HexlifyPrefix(b, DataTag);
      if |b| >= 4 && b[..4] == DataTag {
        assert b == DataTag + b[4..];
        HexOfAppend(DataTag, b[4..]);
        assert Hexlify(b)[10..] == HexOf(b[4..]);
      }
      assert Hexlify(b)[2..] == HexOf(b);
    }
  }

  // ---------------------------------------------------------------------
  // Storefront
  // ---------------------------------------------------------------------

  /** The data-URL prefix of the first table entry whose header text starts `hex`. */
  function MatchHeader(hex: string, table: seq<(string, string)>): (r: Option<string>)
    ensures r.Some? <==> exists i :: 0 <= i < |table| && StartsWith(hex, table[i].0)
  {
    if |table| == 0 then None
    else if StartsWith(hex, table[0].0) then Some(table[0].1)
    else
      var r := MatchHeader(hex, table[1..]);
      assert forall i :: 1 <= i < |table| ==> table[i] == table[1..][i - 1];
      r
  }

  /** The regular expression `^[a-zA-Z0-9+/]+={0,2}$` the storefront uses to
      decide whether the text after a `data` tag is base64. */
  predicate Base64Shaped(t: string) {
    var e := TrailingPads(t);
    e <= 2 && |t| - e >= 1 && forall i :: 0 <= i < |t| - e ==> IsBase64Letter(t[i])
  }

  /** Number of `=` characters at the end of `t`. */
  function TrailingPads(t: string): (n: nat)
    ensures n <= |t|
    ensures forall i :: |t| - n <= i < |t| ==> t[i] == '='
    ensures n < |t| ==> t[|t| - 1 - n] != '='
    decreases |t|
  {
    if |t| > 0 && t[|t| - 1] == '=' then TrailingPads(t[..|t| - 1]) + 1 else 0
  }

  /** Hex digits are base64 letters, so the regex accepts a hex tail exactly
      when it is non-empty. */
  lemma HexTailShape(t: string)
    requires LowerHex(t)
    ensures Base64Shaped(t) <==> |t| > 0
  {
    if |t| > 0 {
      assert IsLowerHexDigit(t[|t| - 1]);
    }
  }

  /** Storefront `bytesToImageUrl`. An absent or empty field gives the
      placeholder; a field `hexlify` rejects gives `/image.png`; a known
      magic number gives the matching data URL with the base64 of all bytes;
      a `data` tag followed by base64-shaped text gives a PNG data URL with
      that text; anything else the first IPFS gateway. */
  function MarketImageUrl(image: Option<string>): string
  {
    if !Present(image) then DeliveryPlaceholder
    else
      match GetBytes(image.value)
      case None => StorefrontErrorImage
      case Some(b) =>
        var hex := Hexlify(b);
        match MatchHeader(hex, ImageHeaders)
        case Some(prefix) => prefix + Base64(b)
        case None =>
          if StartsWith(hex, DataTagHex) && Base64Shaped(hex[10..]) then PngDataUrl + hex[10..]
          else IpfsGateway + hex[2..]
  }

  /** The header texts are the hex spellings of the magic numbers. */
  lemma HeadersAreMagic()
    ensures |ImageHeaders| == |ImageMagic|
    ensures forall i :: 0 <= i < |ImageMagic| ==> ImageHeaders[i].0 == Hexlify(ImageMagic[i])
  {
    HexOfFour(0x89, 0x50, 0x4e, 0x47);
    assert Hexlify(ImageMagic[0]) == "0x89504e47";
    HexOfFour(0xff, 0xd8, 0xff, 0xe0);
    assert Hexlify(ImageMagic[1]) == "0xffd8ffe0";
    HexOfFour(0xff, 0xd8, 0xff, 0xe1);
    assert Hexlify(ImageMagic[2]) == "0xffd8ffe1";
    HexOfFour(0x47, 0x49, 0x46, 0x38);
    assert Hexlify(ImageMagic[3]) == "0x47494638";
    HexOfFour(0x52, 0x49, 0x46, 0x46);
    assert Hexlify(ImageMagic[4]) == "0x52494646";
  }

  /** No byte string starts with two different magic numbers, so the order of
      the header table does not matter. */
  lemma MagicNumbersExclusive(b: seq<Byte>, i: nat, j: nat)
    requires i < |ImageMagic| && j < |ImageMagic|
    requires |b| >= 4 && b[..4] == ImageMagic[i] && b[..4] == ImageMagic[j]
    ensures i == j
  {
  }

  /** The first magic number `b` starts with, if any, and its prefix. */
  function MagicPrefix(b: seq<Byte>): (r: Option<string>)
  {
    if |b| < 4 then None
    else if b[..4] == ImageMagic[0] then Some(PngDataUrl)
    else if b[..4] == ImageMagic[1] || b[..4] == ImageMagic[2] then Some(JpegDataUrl)
    else if b[..4] == ImageMagic[3] then Some(GifDataUrl)
    else if b[..4] == ImageMagic[4] then Some(WebpDataUrl)
    else None
  }

  /** Matching header text on `hexlify(b)` is matching magic bytes on `b`. */
  lemma MatchHeaderIsMagicPrefix(b: seq<Byte>)
    ensures MatchHeader(Hexlify(b), ImageHeaders) == MagicPrefix(b)
  {
    HeadersAreMagic();
    var h := Hexlify(b);
    var t := ImageHeaders;
    HexlifyPrefix(b, ImageMagic[0]);
    HexlifyPrefix(b, ImageMagic[1]);
    HexlifyPrefix(b, ImageMagic[2]);
    HexlifyPrefix(b, ImageMagic[3]);
    HexlifyPrefix(b, ImageMagic[4]);
    var t1, t2, t3, t4 := t[1..], t[2..], t[3..], t[4..];
    assert t1[1..] == t2 && t2[1..] == t3 && t3[1..] == t4 && t4[1..] == [];
    assert MatchHeader(h, t4) == (if StartsWith(h, t[4].0) then Some(WebpDataUrl) else None);
    assert MatchHeader(h, t3) == (if StartsWith(h, t[3].0) then Some(GifDataUrl) else MatchHeader(h, t4));
    assert MatchHeader(h, t2) == (if StartsWith(h, t[2].0) then Some(JpegDataUrl) else MatchHeader(h, t3));
    assert MatchHeader(h, t1) == (if StartsWith(h, t[1].0) then Some(JpegDataUrl) else MatchHeader(h, t2));
    assert MatchHeader(h, t) == (if StartsWith(h, t[0].0) then Some(PngDataUrl) else MatchHeader(h, t1));
  }

  /** The storefront classifier by bytes, for a field that decodes to `b`. */
  lemma MarketImageUrlCases(text: string)
    requires text != "" && GetBytes(text).Some?
    ensures
      var b := GetBytes(text).value;
      var r := MarketImageUrl(Some(text));
      if MagicPrefix(b).Some? then r == MagicPrefix(b).value + Base64(b)
      else if |b| > 4 && b[..4] == DataTag then r == PngDataUrl + HexOf(b[4..])
      else r == IpfsGateway + HexOf(b)
  {
    var b := GetBytes(text).value;
    MatchHeaderIsMagicPrefix(b);
    DataTagHexIsHexlify();
    HexlifyPrefix(b, DataTag);
    assert Hexlify(b)[2..] == HexOf(b);
    if |b| >= 4 && b[..4] == DataTag {
      assert b == DataTag + b[4..];
      HexOfAppend(DataTag, b[4..]);
      assert Hexlify(b)[10..] == HexOf(b[4..]);
      HexOfIsLowerHex(b[4..]);
      HexTailShape(HexOf(b[4..]));
    }
  }

  /** Empty on-chain bytes arrive as the text `0x`, which is truthy and
      decodes, so they reach the gateway with an empty content id rather
      than the placeholder. */
  lemma EmptyBytesReachGateway()
    ensures MarketImageUrl(Some("0x")) == IpfsGateway
    ensures MarketImageUrl(None) == DeliveryPlaceholder
    ensures MarketImageUrl(Some("")) == DeliveryPlaceholder
  {
    assert GetBytes("0x") == Some([]);
    assert Hexlify([]) == "0x";
  }
}

=== FILE: js.dfy ===
/** The few JavaScript value and string semantics the applications rely on:
    truthiness of request fields, ASCII case folding used for address
    comparison, `String.prototype.slice` with its clamping rules, and the
    `startsWith` / `includes` tests. */
module Js {
  import opened Wrappers

  /** A JSON value as it arrives in a request body. JSON numbers are
      modelled as integers: every numeric field the routes read is an
      amount or an identifier. */
  datatype Json = Undefined | Null | Bool(b: bool) | Num(n: int) | Str(s: string)

  /** JavaScript truthiness of a JSON value. */
  predicate Truthy(v: Json) {
    match v
    case Undefined => false
    case Null => false
    case Bool(b) => b
    case Num(n) => n != 0
    case Str(s) => s != ""
  }

  /** Truthiness of an optional string: `undefined`, `null` and `""` are falsy. */
  predicate Present(o: Option<string>) {
    o.Some? && o.value != ""
  }

  /** `o || fallback` for an optional string. */
  function OrElse(o: Option<string>, fallback: string): (r: string)
    ensures Present(o) ==> r == o.value
    ensures !Present(o) ==> r == fallback
  {
    if Present(o) then o.value else fallback
  }

  /** How a template literal renders an optional string: a missing field
      (`undefined`) prints as the word itself. A field that is present but
      `null` would print "null"; `Option` does not tell the two apart, and
      every absence is rendered as `undefined`. */
  function Render(o: Option<string>): (r: string)
    ensures o.Some? ==> r == o.value
    ensures o.None? ==> r == "undefined"
  {
    match o
    case Some(s) => s
    case None => "undefined"
  }

  /** BigInt `a / b`: the quotient rounded toward zero, with the sign of a
      product. */
  function BigIntDiv(a: int, b: int): (q: int)
    requires b > 0
    ensures a >= 0 ==> q == a / b
    ensures a < 0 ==> q == -((-a) / b)
  {
    if a >= 0 then a / b else -((-a) / b)
  }

  /** The quotient rounds toward zero: `q * b` lies between zero and `a`,
      less than one `b` away from `a`. */
  lemma BigIntDivTowardZero(a: int, b: int)
    requires b > 0
    ensures a >= 0 ==> 0 <= BigIntDiv(a, b) * b <= a < BigIntDiv(a, b) * b + b
    ensures a < 0 ==> BigIntDiv(a, b) * b - b < a <= BigIntDiv(a, b) * b <= 0
  {
    var n := if a >= 0 then a else -a;
    var q := n / b;
    var m := q * b;
    assert n == m + n % b;
    MulNonNegative(q, b);
    if a < 0 {
      assert BigIntDiv(a, b) == -q;
      assert BigIntDiv(a, b) * b == -m;
    }
  }

  lemma MulNonNegative(x: int, y: int)
    requires x >= 0 && y >= 0
    ensures x * y >= 0
  {
  }

  /** What a caught error carries: the EIP-1193 provider `code`, the
      `reason` ethers attaches to a reverted call, and `message`. */
  datatype Thrown = Thrown(code: Option<int>, reason: Option<string>, message: Option<string>)

  /** `toLowerCase` on one character; only ASCII letters are folded, which
      covers hexadecimal account addresses. */
  function LowerChar(c: char): (r: char)
    ensures 'A' <= c <= 'Z' ==> r as int == c as int + 32
    ensures !('A' <= c <= 'Z') ==> r == c
  {
    if 'A' <= c <= 'Z' then (c as int + 32) as char else c
  }

  function ToLower(s: string): (r: string)
    ensures |r| == |s|
    ensures forall i :: 0 <= i < |s| ==> r[i] == LowerChar(s[i])
  {
    seq(|s|, i requires 0 <= i < |s| => LowerChar(s[i]))
  }

  /** `a.toLowerCase() === b.toLowerCase()`, the address comparison used throughout. */
  predicate SameIgnoringCase(a: string, b: string) {
    ToLower(a) == ToLower(b)
  }

  /** Case-insensitive comparison is an equivalence relation. */
  lemma SameIgnoringCaseIsEquivalence(a: string, b: string, c: string)
    ensures SameIgnoringCase(a, a)
    ensures SameIgnoringCase(a, b) ==> SameIgnoringCase(b, a)
    ensures SameIgnoringCase(a, b) && SameIgnoringCase(b, c) ==> SameIgnoringCase(a, c)
  {
  }

  /** Lower-casing is idempotent, so a lower-cased string compares equal to its source. */
  lemma ToLowerIdempotent(s: string)
    ensures ToLower(ToLower(s)) == ToLower(s)
    ensures SameIgnoringCase(ToLower(s), s)
  {
    assert forall i :: 0 <= i < |s| ==> LowerChar(LowerChar(s[i])) == LowerChar(s[i]);
  }

  /** The index `String.prototype.slice` uses for a possibly negative bound. */
  function ClampIndex(k: int, len: nat): (r: nat)
    ensures r <= len
    ensures 0 <= k <= len ==> r == k
    ensures k > len ==> r == len
    ensures k < 0 && len + k >= 0 ==> r == len + k
    ensures len + k < 0 ==> r == 0
  {
    if k < 0 then (if len + k < 0 then 0 else len + k)
    else if k > len then len else k
  }

  /** `s.slice(start, end)` on a string or an array: bounds are clamped,
      negative ones count from the end, and an empty range gives nothing. */
  function Slice<T>(s: seq<T>, start: int, end: int): (r: seq<T>)
    ensures |r| <= |s|
    ensures 0 <= start <= end <= |s| ==> r == s[start..end]
    ensures 0 <= end <= start ==> r == []
  {
    var from := ClampIndex(start, |s|);
    var to := ClampIndex(end, |s|);
    if from < to then s[from..to] else []
  }

  /** `s.slice(start)`. */
  function SliceFrom<T>(s: seq<T>, start: int): (r: seq<T>)
    ensures 0 <= start <= |s| ==> r == s[start..]
    ensures start < 0 && |s| + start >= 0 ==> r == s[|s| + start..]
    ensures |s| + start < 0 ==> r == s
  {
    Slice(s, start, |s|)
  }

  /** `s.startsWith(p)`. */
  predicate StartsWith(s: string, p: string) {
    |p| <= |s| && s[..|p|] == p
  }

  /** `s.includes(sub)`: `sub` occurs at some position of `s`. */
  predicate Includes(s: string, sub: string)
    decreases |s|
  {
    StartsWith(s, sub) || (|s| > 0 && Includes(s[1..], sub))
  }

  /** `sub` occurs in `s` starting at index `i`. */
  predicate OccursAt(s: string, sub: string, i: int) {
    0 <= i <= |s| - |sub| && s[i..i + |sub|] == sub
  }

  lemma TailSlice(s: string, a: int, b: int)
    requires 0 <= a <= b < |s|
    ensures s[1..][a..b] == s[a + 1..b + 1]
  {
    var t := s[1..][a..b];
    var u := s[a + 1..b + 1];
    assert |t| == |u|;
    forall k | 0 <= k < |t|
      ensures t[k] == u[k]
    {
    }
  }

  /** `Includes` holds exactly when `sub` occurs as a contiguous block. */
  lemma {:induction false} IncludesIffOccurs(s: string, sub: string)
    ensures Includes(s, sub) <==> exists i :: OccursAt(s, sub, i)
    decreases |s|
  {
    if StartsWith(s, sub) {
      assert OccursAt(s, sub, 0);
    } else if |s| == 0 {
      assert forall i :: !OccursAt(s, sub, i);
    } else {
      IncludesIffOccurs(s[1..], sub);
      if Includes(s[1..], sub) {
        var i :| OccursAt(s[1..], sub, i);
        assert s[i + 1..i + 1 + |sub|] == s[1..][i..i + |sub|];
        assert OccursAt(s, sub, i + 1);
      } else {
        forall i
          ensures !OccursAt(s, sub, i)
        {
          if i == 0 && |sub| <= |s| {
            assert s[..|sub|] == s[0..0 + |sub|];
          } else if 0 < i <= |s| - |sub| {
            TailSlice(s, i - 1, i - 1 + |sub|);
            assert !OccursAt(s[1..], sub, i - 1);
          }
        }
      }
    }
  }
}

=== FILE: market.dfy ===
/** The marketplace grid: the NFTs of the store wallet with the fields the
    grid adds, four per page, page navigation, the favourites set and the
    stable fallback price. */
module Market {
  import opened Wrappers
  import opened Js
  import opened OpenSea
  import opened MyStore
  import Decimal
  import Seqs

  const PageSize := 4

  /** The price shown: the listing price, or the fallback price given by
      its two table indices (the price itself is a floating-point product of
      the two table entries and is not modelled). */
  datatype Price = Listed(value: string) | Generated(patternIndex: nat, variationIndex: nat)

  /** A grid entry. Its random rating and review count are not modelled. */
  datatype MarketNft = MarketNft(
    item: Enriched, uniqueKey: string, price: Price, currency: string,
    tokenId: Option<string>, openseaLink: string)

  /** The sum of the character codes of `s`. */
  function CharSum(s: string): nat
    decreases |s|
  {
    if |s| == 0 then 0 else CharSum(s[..|s| - 1]) + s[|s| - 1] as nat
  }

  /** The code sum is additive over concatenation. */
  lemma {:induction false} CharSumAppend(a: string, b: string)
    ensures CharSum(a + b) == CharSum(a) + CharSum(b)
    decreases |b|
  {
    if |b| > 0 {
      assert (a + b)[..|a + b| - 1] == a + b[..|b| - 1];
      CharSumAppend(a, b[..|b| - 1]);
    } else {
      assert a + b == a;
    }
  }

  /** The number of entries of the pattern table (0.001 … 5) and of the
      variation table (0.90 … 1.09). */
  const PatternCount := 12
  const VariationCount := 20

  /** The hash of `generateStableCryptoPrice(contract, tokenId)`: the code
      sum of `${contract}-${tokenId}`. */
  function PriceHash(contract: string, tokenId: Option<string>): nat {
    CharSum(contract + "-" + Render(tokenId))
  }

  /** The integer part of `generateStableCryptoPrice`: which pattern and
      which variation the hash selects. */
  function GeneratedPrice(contract: string, tokenId: Option<string>): (p: Price)
    ensures p.Generated? && p.patternIndex < PatternCount && p.variationIndex < VariationCount
    ensures p.patternIndex == PriceHash(contract, tokenId) % PatternCount
    ensures p.variationIndex == PriceHash(contract, tokenId) % VariationCount
  {
    var h := PriceHash(contract, tokenId);
    Generated(h % PatternCount, h % VariationCount)
  }

  /** The hash is the contract's code sum, the dash, and the token id's code
      sum, so only the characters' codes matter, not how the text is split. */
  lemma PriceHashSplits(contract: string, tokenId: Option<string>)
    ensures PriceHash(contract, tokenId) == CharSum(contract) + '-' as nat + CharSum(Render(tokenId))
  {
    CharSumAppend(contract, "-");
    CharSumAppend(contract + "-", Render(tokenId));
    assert CharSum("-") == CharSum([]) + '-' as nat;
  }

  /** `.filter(nft => nft.image_url)`. */
  predicate HasImage(item: Enriched) {
    Present(item.nft.imageUrl)
  }

  /** The grid entry for the `index`-th NFT that has an image. */
  function Decorate(item: Enriched, index: nat): (m: MarketNft)
    ensures m.item == item && m.tokenId == item.nft.identifier
    ensures Present(item.nft.identifier) ==> m.uniqueKey == item.nft.contract + "-" + item.nft.identifier.value
    ensures !Present(item.nft.identifier) ==> m.uniqueKey == item.nft.contract + "-" + Decimal.ToDecimal(index)
    ensures Present(item.price) ==> m.price == Listed(item.price.value)
    ensures !Present(item.price) ==> m.price == GeneratedPrice(item.nft.contract, item.nft.identifier)
    ensures Present(item.currency) ==> m.currency == item.currency.value
    ensures !Present(item.currency) ==> m.currency == "ETH"
  {
    var nft := item.nft;
    MarketNft(
      item,
      nft.contract + "-" + (if Present(nft.identifier) then nft.identifier.value else Decimal.ToDecimal(index)),
      if Present(item.price) then Listed(item.price.value) else GeneratedPrice(nft.contract, nft.identifier),
      OrElse(item.currency, "ETH"),
      nft.identifier,
      "https://testnets.opensea.io/assets/" + nft.contract + "/" + Render(nft.identifier))
  }

  /** The grid list built from the store reply: NFTs without an image are
      dropped, and each remaining one is decorated with its position among
      the remaining ones. */
  function FetchedNfts(items: seq<Enriched>): (r: seq<MarketNft>)
    ensures |r| == |Seqs.Filter(items, HasImage)|
    ensures forall k :: 0 <= k < |r| ==> r[k] == Decorate(Seqs.Filter(items, HasImage)[k], k)
  {
    var kept := Seqs.Filter(items, HasImage);
    seq(|kept|, k requires 0 <= k < |kept| => Decorate(kept[k], k))
  }

  /** The grid keeps exactly the NFTs with an image, in the reply's order. */
  lemma FetchedNftsKeepOrder(items: seq<Enriched>)
    ensures Seqs.IsSubsequence(Seqs.Filter(items, HasImage), items)
    ensures forall k :: 0 <= k < |FetchedNfts(items)| ==>
      FetchedNfts(items)[k].item in items && HasImage(FetchedNfts(items)[k].item)
    ensures forall it :: it in items && HasImage(it) ==>
      exists k :: 0 <= k < |FetchedNfts(items)| && FetchedNfts(items)[k].item == it
  {
    Seqs.FilterIsSubsequence(items, HasImage);
    var kept := Seqs.Filter(items, HasImage);
    forall it | it in items && HasImage(it)
      ensures exists k :: 0 <= k < |FetchedNfts(items)| && FetchedNfts(items)[k].item == it
    {
      var k :| 0 <= k < |kept| && kept[k] == it;
      assert FetchedNfts(items)[k].item == it;
    }
  }

  /** `Math.ceil(n / 4)`. */
  function PageCount(n: nat): nat {
    (n + PageSize - 1) / PageSize
  }

  /** `updateDisplayedNfts(all, page)`: `all.slice((page - 1) * 4, (page - 1) * 4 + 4)`. */
  function PageSlice<T>(all: seq<T>, page: int): (r: seq<T>)
    ensures |r| <= PageSize
  {
    Slice(all, (page - 1) * PageSize, (page - 1) * PageSize + PageSize)
  }

  /** A page from 1 on shows the contiguous run of at most four entries that
      starts at `(page - 1) * 4`; each page within the page count shows at
      least one entry. */
  lemma PageSliceContents<T>(all: seq<T>, page: int)
    requires page >= 1
    ensures var start := (page - 1) * PageSize;
      var stop := if start + PageSize <= |all| then start + PageSize else |all|;
      (start <= |all| ==> PageSlice(all, page) == all[start..stop]) &&
      (start > |all| ==> PageSlice(all, page) == [])
    ensures page <= PageCount(|all|) ==> |PageSlice(all, page)| >= 1
  {
  }

  /** The grid state: every entry, the entries shown, and the current page. */
  datatype Grid = Grid(all: seq<MarketNft>, displayed: seq<MarketNft>, page: int)

  /** The shown entries are the current page, and the page is in range
      (page 1 when there is nothing to show). */
  predicate Consistent(g: Grid) {
    && g.displayed == PageSlice(g.all, g.page)
    && 1 <= g.page
    && (g.page == 1 || g.page <= PageCount(|g.all|))
  }

  /** `nextPage`. */
  function NextPage(g: Grid): (r: Grid)
    ensures r.all == g.all
    ensures r.page == g.page || r.page == g.page + 1
    ensures r.page == g.page + 1 <==> g.page + 1 <= PageCount(|g.all|)
    ensures Consistent(g) ==> Consistent(r)
  {
    var next := g.page + 1;
    if next <= PageCount(|g.all|) then g.(page := next, displayed := PageSlice(g.all, next)) else g
  }

  /** `prevPage`. */
  function PrevPage(g: Grid): (r: Grid)
    ensures r.all == g.all
    ensures r.page == g.page || r.page == g.page - 1
    ensures r.page == g.page - 1 <==> g.page - 1 >= 1
    ensures Consistent(g) ==> Consistent(r)
  {
    var prev := g.page - 1;
    if prev >= 1 then g.(page := prev, displayed := PageSlice(g.all, prev)) else g
  }

  /** Going forward and back returns to the same page and the same entries. */
  lemma NextThenPrev(g: Grid)
    requires Consistent(g) && g.page + 1 <= PageCount(|g.all|)
    ensures PrevPage(NextPage(g)) == g
  {
  }

  /** `toggleFavorite(k)`. */
  function ToggleFavorite(favorites: set<string>, k: string): (r: set<string>)
    ensures k in r <==> k !in favorites
    ensures forall j :: j != k ==> (j in r <==> j in favorites)
  {
    if k in favorites then favorites - {k} else favorites + {k}
  }

  /** Toggling twice restores the favourites. */
  lemma ToggleFavoriteTwice(favorites: set<string>, k: string)
    ensures ToggleFavorite(ToggleFavorite(favorites, k), k) == favorites
  {
  }
}

=== FILE: my_store.dfy ===
/** The `mystore` route: the NFTs of a wallet, each enriched with its
    collection's name and stats and its lowest listing. A failure while
    enriching one NFT only affects that NFT. */
module MyStore {
  import opened Wrappers
  import opened Js
  import opened OpenSea

  /** `listing.price.current` of a listing; `None` when `price` or
      `current` is missing, so that reading `value` throws. */
  datatype Listing = Listing(current: Option<PriceTag>)
  datatype PriceTag = PriceTag(value: string, currency: string)

  /** The collection stats reply: its `name` and `stats` fields. */
  datatype CollectionReply = CollectionReply(name: Option<string>, stats: Option<string>)

  /** The `collection_stats` field of an output item: the reply's stats,
      `{}` when the reply has none, or no field at all on the fallback path. */
  datatype StatsField = NoStatsField | EmptyStats | Stats(stats: string)

  /** An output item: the NFT with the fields the route adds. */
  datatype Enriched = Enriched(
    nft: Nft, collectionName: string, collectionStats: StatsField,
    price: Option<string>, currency: Option<string>, listed: bool)

  /** The item when enrichment fails. */
  function Fallback(nft: Nft): Enriched {
    Enriched(nft, nft.collection, NoStatsField, None, None, false)
  }

  /** Enriching one NFT. `stats` is the collection stats reply and
      `listings` the listings reply (`None` when the request fails; a
      missing `listings` field is the empty list). */
  function Enrich(nft: Nft, stats: Option<CollectionReply>, listings: Option<seq<Listing>>): (r: Enriched)
    ensures r.nft == nft
    ensures stats.None? || listings.None? ==> r == Fallback(nft)
    ensures stats.Some? && listings.Some? && |listings.value| > 0 && listings.value[0].current.None? ==>
      r == Fallback(nft)
    ensures stats.Some? && listings.Some? && (|listings.value| == 0 || listings.value[0].current.Some?) ==>
      r.listed == (|listings.value| > 0) &&
      r.price == (if |listings.value| > 0 then Some(listings.value[0].current.value.value) else None) &&
      r.currency == (if |listings.value| > 0 then Some(listings.value[0].current.value.currency) else None) &&
      r.collectionName == OrElse(stats.value.name, nft.collection) &&
      r.collectionStats == (if Present(stats.value.stats) then Stats(stats.value.stats.value) else EmptyStats)
  {
    match (stats, listings)
    case (Some(c), Some(ls)) =>
      if |ls| > 0 && ls[0].current.None? then Fallback(nft)
      else
        var price := if |ls| > 0 then Some(ls[0].current.value.value) else None;
        var currency := if |ls| > 0 then Some(ls[0].current.value.currency) else None;
        var statsField := if Present(c.stats) then Stats(c.stats.value) else EmptyStats;
        Enriched(nft, OrElse(c.name, nft.collection), statsField, price, currency, |ls| > 0)
    case _ => Fallback(nft)
  }

  /** An item is listed exactly when it carries a price, and the fallback
      never claims a listing. */
  lemma ListedIffPriced(nft: Nft, stats: Option<CollectionReply>, listings: Option<seq<Listing>>)
    ensures Enrich(nft, stats, listings).listed <==> Enrich(nft, stats, listings).price.Some?
    ensures Enrich(nft, stats, listings).listed <==> Enrich(nft, stats, listings).currency.Some?
  {
  }

  /** The route's reply: the items (status 200) or an error with its status. */
  datatype Reply = Items(items: seq<Enriched>) | Error(status: int, error: string)

  /** A failed request: the upstream HTTP status, if the failure carries one. */
  datatype HttpError = HttpError(status: Option<int>, message: Option<string>)

  /** The whole route. `walletAddress` is the request field; `account` the
      wallet's NFT reply (`Success(None)` when it has no `nfts` field);
      `statsOf` and `listingsOf` give each NFT's two enrichment replies. */
  function MyStore(walletAddress: Json, account: Result<Option<seq<Nft>>, HttpError>,
                   statsOf: string -> Option<CollectionReply>, listingsOf: Nft -> Option<seq<Listing>>): (r: Reply)
    ensures !Truthy(walletAddress) ==> r == Error(400, "Wallet address is required")
    ensures Truthy(walletAddress) && account.Success? ==>
      var nfts := if account.value.Some? then account.value.value else [];
      r.Items? && |r.items| == |nfts| &&
      forall k :: 0 <= k < |nfts| ==> r.items[k] == Enrich(nfts[k], statsOf(nfts[k].collection), listingsOf(nfts[k]))
    ensures Truthy(walletAddress) && account.Failure? ==>
      r == Error(UpstreamStatus(account.error), OrElse(account.error.message, "Failed to fetch NFTs"))
  {
    if !Truthy(walletAddress) then Error(400, "Wallet address is required")
    else
      match account
      case Failure(e) => Error(UpstreamStatus(e), OrElse(e.message, "Failed to fetch NFTs"))
      case Success(found) =>
        var nfts := if found.Some? then found.value else [];
        Items(seq(|nfts|, k requires 0 <= k < |nfts| =>
          Enrich(nfts[k], statsOf(nfts[k].collection), listingsOf(nfts[k]))))
  }

  /** `error.response?.status || 500`. */
  function UpstreamStatus(e: HttpError): (s: int)
    ensures s != 0
    ensures e.status.Some? && e.status.value != 0 ==> s == e.status.value
  {
    if e.status.Some? && e.status.value != 0 then e.status.value else 500
  }

  /** Failure isolation: replies about other NFTs do not affect an item; an
      NFT whose own enrichment fails gets the fallback whatever happens to
      the rest, and keeps its position. */
  lemma FailureIsolated(walletAddress: Json, nfts: seq<Nft>, k: nat,
                        statsOf: string -> Option<CollectionReply>, listingsOf: Nft -> Option<seq<Listing>>,
                        statsOf': string -> Option<CollectionReply>, listingsOf': Nft -> Option<seq<Listing>>)
    requires Truthy(walletAddress) && k < |nfts|
    requires statsOf(nfts[k].collection) == statsOf'(nfts[k].collection)
    requires listingsOf(nfts[k]) == listingsOf'(nfts[k])
    ensures MyStore(walletAddress, Success(Some(nfts)), statsOf, listingsOf).items[k] ==
            MyStore(walletAddress, Success(Some(nfts)), statsOf', listingsOf').items[k]
    ensures statsOf(nfts[k].collection).None? || listingsOf(nfts[k]).None? ==>
      MyStore(walletAddress, Success(Some(nfts)), statsOf, listingsOf).items[k] == Fallback(nfts[k])
  {
  }
}

=== FILE: opensea.dfy ===
/** The OpenSea API records the marketplace reads. Optional fields are
    `Option`s: `None` is a missing or null field. */
module OpenSea {
  import opened Wrappers

  /** An NFT of an account or contract listing. */
  datatype Nft = Nft(
    identifier: Option<string>, contract: string, collection: string,
    name: Option<string>, description: Option<string>, imageUrl: Option<string>)

  /** A collection's order: the Seaport order parameters the pages read.
      `offerToken` and `offerId` come from the first offer item, `price` and
      `currency` from the first consideration item. */
  datatype Order = Order(
    offerer: Option<string>, offerToken: Option<string>, offerId: Option<string>,
    price: Option<string>, currency: Option<string>, orderHash: Option<string>)
}

=== FILE: orders.dfy ===
/** The delivery app's orders page: the order list rebuilt from the
    marketplace contract, the product lookup beside it, the payment check and
    its bounded retry, delivery confirmation, the live-event updates, the
    three-state status, the tab filter and which action buttons appear. */
module Orders {
  import opened Wrappers
  import opened Js
  import opened Address
  import opened Chain
  import Decimal
  import Units
  import Seqs

  /** A row of the orders list. The display timestamp is not modelled. */
  datatype Order = Order(
    id: nat, productId: string, amount: string, amountRaw: string,
    buyer: string, seller: string, isPaid: bool, isDelivered: bool)

  /** An entry of the products lookup. */
  datatype Product = Product(
    name: string, price: string, priceRaw: string, description: string, image: string,
    productType: string, condition: string, seller: string, stock: nat)

  function ToOrder(id: nat, c: ChainOrder): Order {
    Order(id, Decimal.ToDecimal(c.productId),
      Units.FormatUnits(c.amountPaid, Units.TokenDecimals), Decimal.ToDecimal(c.amountPaid),
      c.buyer, c.seller, c.isPaid, c.isDelivered)
  }

  function ToProduct(p: ChainProduct): Product {
    Product(p.name, Units.FormatUnits(p.price, Units.TokenDecimals), Decimal.ToDecimal(p.price),
      p.description, p.image, p.productType, p.condition, p.seller, p.stock)
  }

  /** One pass of the order loop: nothing when `orders(i)` throws (`None`)
      or the slot was deleted (its buyer is the zero address). */
  function OrderAt(orders: nat -> Option<ChainOrder>): nat -> Option<Order> {
    (i: nat) =>
      match orders(i)
      case None => None
      case Some(c) => if c.buyer == ZeroAddress then None else Some(ToOrder(i, c))
  }

  /** The order list after a reload with `orderCount() == count`: ids
      `1 .. count - 1` (the bound is exclusive). */
  function LoadOrders(count: nat, orders: nat -> Option<ChainOrder>): (r: seq<Order>)
    ensures count > 0 ==> |r| <= count - 1
    ensures count == 0 ==> r == []
  {
    Seqs.Collect(1, count, OrderAt(orders))
  }

  /** An order is listed iff its id is in range, its fetch succeeded, its
      slot is not deleted, and the row is built from that fetch. */
  lemma LoadOrdersContents(count: nat, orders: nat -> Option<ChainOrder>, o: Order)
    ensures o in LoadOrders(count, orders) <==>
      exists i: nat :: 1 <= i < count && orders(i).Some? &&
        orders(i).value.buyer != ZeroAddress && o == ToOrder(i, orders(i).value)
  {
    Seqs.CollectMembers(1, count, OrderAt(orders), o);
    if o in LoadOrders(count, orders) {
      var i: nat :| 1 <= i < count && OrderAt(orders)(i) == Some(o);
      assert orders(i).Some? && orders(i).value.buyer != ZeroAddress && o == ToOrder(i, orders(i).value);
    } else {
      forall i: nat | 1 <= i < count && orders(i).Some? && orders(i).value.buyer != ZeroAddress
        ensures o != ToOrder(i, orders(i).value)
      {
        assert OrderAt(orders)(i) == Some(ToOrder(i, orders(i).value));
      }
    }
  }

  /** The listed ids lie in `1 .. count - 1` and are strictly ascending, so
      no order appears twice; there are at most `count - 1` of them. */
  lemma LoadOrdersAscending(count: nat, orders: nat -> Option<ChainOrder>)
    ensures |LoadOrders(count, orders)| <= Seqs.Span(1, count)
    ensures forall k :: 0 <= k < |LoadOrders(count, orders)| ==>
      1 <= LoadOrders(count, orders)[k].id < count
    ensures forall j, k :: 0 <= j < k < |LoadOrders(count, orders)| ==>
      LoadOrders(count, orders)[j].id < LoadOrders(count, orders)[k].id
  {
    var f := OrderAt(orders);
    var key := (o: Order) => o.id;
    forall i: nat | f(i).Some?
      ensures key(f(i).value) == i
    {
      assert f(i) == Some(ToOrder(i, orders(i).value));
    }
    Seqs.CollectKeys(1, count, f, key);
  }

  /** The displayed amount and the raw amount of a listed order describe the
      same number of token units. */
  lemma OrderAmountsAgree(id: nat, c: ChainOrder)
    ensures Units.ParseUnits(ToOrder(id, c).amount, Units.TokenDecimals) == Success(c.amountPaid as int)
    ensures Decimal.ParseNat(ToOrder(id, c).amountRaw) == Some(c.amountPaid)
  {
    Units.ParseFormatRoundTrip(c.amountPaid, Units.TokenDecimals);
    Decimal.ParseNatToDecimal(c.amountPaid);
  }

  /** The product lookup built after the order loop: for each listed order in
      turn, `productsMap[order.productId]` is set from `store(productId)`,
      and a failing fetch leaves the lookup as it was. */
  function ProductsMap(os: seq<Order>, store: string -> Option<ChainProduct>): (m: map<string, Product>)
    ensures forall k :: k in m <==> store(k).Some? && exists o :: o in os && o.productId == k
    ensures forall k :: k in m ==> m[k] == ToProduct(store(k).value)
    decreases |os|
  {
    if |os| == 0 then map[]
    else
      var init := os[..|os| - 1];
      var last := os[|os| - 1];
      assert os == init + [last];
      var m := ProductsMap(init, store);
      match store(last.productId)
      case Some(p) => m[last.productId := ToProduct(p)]
      case None => m
  }

  /** `orders.find(o => o.id === id)`. */
  function FindOrder(orders: seq<Order>, id: nat): (r: Option<Order>)
    ensures r.Some? <==> exists k :: 0 <= k < |orders| && orders[k].id == id
    ensures r.Some? ==> r.value.id == id
    ensures r.Some? ==>
      exists k :: 0 <= k < |orders| && orders[k] == r.value && forall j :: 0 <= j < k ==> orders[j].id != id
  {
    if |orders| == 0 then None
    else if orders[0].id == id then Some(orders[0])
    else
      var r := FindOrder(orders[1..], id);
      assert forall k :: 1 <= k < |orders| ==> orders[k] == orders[1..][k - 1];
      r
  }

  /** `checkPaymentStatus(orderId)`: the seller's token balance must cover
      the product's raw price. A missing order, a missing product, a failed
      balance query (`None`) or an unreadable raw price all give false. */
  function CheckPaymentStatus(orders: seq<Order>, products: map<string, Product>,
                              orderId: nat, balanceOf: string -> Option<nat>): (paid: bool)
    ensures (forall k :: 0 <= k < |orders| ==> orders[k].id != orderId) ==> !paid
  {
    match FindOrder(orders, orderId)
    case None => false
    case Some(o) =>
      if o.productId !in products then false
      else
        match balanceOf(o.seller)
        case None => false
        case Some(b) =>
          match Decimal.ParseNat(products[o.productId].priceRaw)
          case None => false
          case Some(price) => b >= price
  }

  /** When the lookup came from the chain, the check compares the seller's
      balance with the product's on-chain price, and fails when the product or
      the balance could not be fetched. */
  lemma CheckPaymentAgainstChainPrice(orders: seq<Order>, store: string -> Option<ChainProduct>,
                                      orderId: nat, balanceOf: string -> Option<nat>, o: Order)
    requires FindOrder(orders, orderId) == Some(o)
    ensures store(o.productId).None? || balanceOf(o.seller).None? ==>
      !CheckPaymentStatus(orders, ProductsMap(orders, store), orderId, balanceOf)
    ensures store(o.productId).Some? && balanceOf(o.seller).Some? ==>
      (CheckPaymentStatus(orders, ProductsMap(orders, store), orderId, balanceOf) <==>
       balanceOf(o.seller).value >= store(o.productId).value.price)
  {
    var products := ProductsMap(orders, store);
    if store(o.productId).Some? {
      var price := store(o.productId).value.price;
      assert o.productId in products by {
        var k :| 0 <= k < |orders| && orders[k] == o;
        assert orders[k] in orders;
      }
      assert products[o.productId].priceRaw == Decimal.ToDecimal(price);
      Decimal.ParseNatToDecimal(price);
      CheckPaymentCompares(orders, products, orderId, balanceOf, o, price);
    } else {
      assert o.productId !in products;
    }
  }

  /** With the order found and its product's raw price reading as `price`,
      the check is the balance comparison. */
  lemma CheckPaymentCompares(orders: seq<Order>, products: map<string, Product>, orderId: nat,
                             balanceOf: string -> Option<nat>, o: Order, price: nat)
    requires FindOrder(orders, orderId) == Some(o) && o.productId in products
    requires Decimal.ParseNat(products[o.productId].priceRaw) == Some(price)
    ensures CheckPaymentStatus(orders, products, orderId, balanceOf) <==>
      balanceOf(o.seller).Some? && balanceOf(o.seller).value >= price
  {
  }

  /** `checkPaymentStatusWithRetry(orderId, retries)`. `check(k)` is what the
      `k`-th call of `checkPaymentStatus` returns (a payment can arrive
      between calls); `waits` counts the delays slept. */
  method CheckPaymentWithRetry(check: nat -> bool, retries: int) returns (paid: bool, checks: nat, waits: nat)
    ensures checks <= (if retries > 0 then retries else 0)
    ensures paid <==> exists k: nat :: k < retries && check(k)
    ensures paid ==> checks > 0 && check(checks - 1) && forall k: nat :: k < checks - 1 ==> !check(k)
    ensures !paid ==> checks == (if retries > 0 then retries else 0)
    ensures waits == (if checks == 0 then 0 else checks - 1)
    ensures retries <= 0 ==> !paid && checks == 0 && waits == 0
  {
    var i := 0;
    checks, waits := 0, 0;
    while i < retries
      invariant 0 <= i && (retries > 0 ==> i <= retries) && (retries <= 0 ==> i == 0)
      invariant checks == i && waits == (if i < retries || i == 0 then i else i - 1)
      invariant forall k: nat :: k < i ==> !check(k)
      decreases retries - i
    {
      var ok := check(i);
      checks := checks + 1;
      if ok {
        return true, checks, waits;
      }
      if i < retries - 1 {
        waits := waits + 1;
      }
      i := i + 1;
    }
    paid := false;
  }

  /** How `confirmDelivery(orderId)` ends. */
  datatype ConfirmResult =
    | Confirmed                           // the transaction was mined and the list reloaded
    | OrderMissing                        // `order.isPaid` on `undefined` throws
    | ProductMissing                      // `product.price` on `undefined` throws
    | PaymentNotDetected(message: string) // the retry found no payment
    | TxFailed(message: string)           // the contract call or its receipt failed

  /** The contract's `confirmDelivery` was called. */
  predicate CallsContract(r: ConfirmResult) {
    r.Confirmed? || r.TxFailed?
  }

  /** The error shown when the retry finds no payment. */
  function PaymentMessage(price: string, seller: string, token: string): string {
    "Payment not detected. Please send " + price + " BRTX to " + seller +
    " using token contract " + token + " and wait for confirmation"
  }

  /** `error.reason || error.message || fallback`. */
  function ErrorText(e: Thrown, fallback: string): (r: string)
    ensures Present(e.reason) ==> r == e.reason.value
    ensures !Present(e.reason) && Present(e.message) ==> r == e.message.value
    ensures !Present(e.reason) && !Present(e.message) ==> r == fallback
  {
    OrElse(e.reason, OrElse(e.message, fallback))
  }

  /** `confirmDelivery` calls the retry with its default of three checks. */
  const DefaultRetries: nat := 3

  /** The answer of the `k`-th `checkPaymentStatus(orderId)` made by the retry:
      every attempt reads the same orders and products, and `balances(k)` is
      the token's `balanceOf` as the chain answers it at attempt `k` (a
      payment can arrive between attempts). */
  function PaymentCheck(orders: seq<Order>, products: map<string, Product>, orderId: nat,
                        balances: nat -> (string -> Option<nat>)): nat -> bool
  {
    (k: nat) => CheckPaymentStatus(orders, products, orderId, balances(k))
  }

  /** What `checkPaymentStatusWithRetry(orderId)` returns with the default
      number of checks. */
  predicate RetryFindsPayment(orders: seq<Order>, products: map<string, Product>, orderId: nat,
                              balances: nat -> (string -> Option<nat>))
  {
    exists k: nat :: k < DefaultRetries && CheckPaymentStatus(orders, products, orderId, balances(k))
  }

  /** `confirmDelivery(orderId)`. An unpaid order is first re-checked by the
      retry, whose attempts see the balances `balances(0)`, `balances(1)`, ...
      `txError` is the failure of the contract call or its receipt, if any;
      `token` is the payment token's address. */
  function ConfirmDelivery(orders: seq<Order>, products: map<string, Product>, orderId: nat,
                           balances: nat -> (string -> Option<nat>), txError: Option<Thrown>,
                           token: string): (r: ConfirmResult)
    ensures CallsContract(r) <==>
      FindOrder(orders, orderId).Some? &&
      (FindOrder(orders, orderId).value.isPaid || RetryFindsPayment(orders, products, orderId, balances))
    ensures r.Confirmed? <==> CallsContract(r) && txError.None?
    ensures r.TxFailed? ==> r.message == ErrorText(txError.value, "Failed to confirm delivery")
    ensures r.PaymentNotDetected? ==>
      FindOrder(orders, orderId).Some? &&
      var o := FindOrder(orders, orderId).value;
      !o.isPaid && !RetryFindsPayment(orders, products, orderId, balances) && o.productId in products &&
      r.message == PaymentMessage(products[o.productId].price, o.seller, token)
  {
    match FindOrder(orders, orderId)
    case None => OrderMissing
    case Some(o) =>
      if !o.isPaid && !RetryFindsPayment(orders, products, orderId, balances) then
        if o.productId in products then
          PaymentNotDetected(PaymentMessage(products[o.productId].price, o.seller, token))
        else ProductMissing
      else
        match txError
        case None => Confirmed
        case Some(e) => TxFailed(ErrorText(e, "Failed to confirm delivery"))
  }

  /** `confirmDelivery` step by step: the retry loop runs only for an
      unpaid order, with the default number of checks, each check being
      `checkPaymentStatus` over the same orders and products, and the outcome
      is the one `ConfirmDelivery` describes. `checks` counts the payment
      checks made. */
  method ConfirmDeliveryRun(orders: seq<Order>, products: map<string, Product>, orderId: nat,
                            balances: nat -> (string -> Option<nat>), txError: Option<Thrown>, token: string)
    returns (r: ConfirmResult, checks: nat)
    ensures r == ConfirmDelivery(orders, products, orderId, balances, txError, token)
    ensures checks <= DefaultRetries
    ensures checks > 0 <==> FindOrder(orders, orderId).Some? && !FindOrder(orders, orderId).value.isPaid
  {
    var found := FindOrder(orders, orderId);
    if found.None? {
      return OrderMissing, 0;
    }
    var o := found.value;
    var paid := o.isPaid;
    checks := 0;
    if !o.isPaid {
      var check := PaymentCheck(orders, products, orderId, balances);
      assert forall k: nat :: check(k) == CheckPaymentStatus(orders, products, orderId, balances(k));
      var waits;
      paid, checks, waits := CheckPaymentWithRetry(check, DefaultRetries);
      assert paid <==> RetryFindsPayment(orders, products, orderId, balances);
    }
    if !paid {
      if o.productId in products {
        r := PaymentNotDetected(PaymentMessage(products[o.productId].price, o.seller, token));
      } else {
        r := ProductMissing;
      }
    } else if txError.None? {
      r := Confirmed;
    } else {
      r := TxFailed(ErrorText(txError.value, "Failed to confirm delivery"));
    }
  }

  /** An unpaid order whose three checks all fail never reaches the contract. */
  lemma UnpaidNeverConfirmed(orders: seq<Order>, products: map<string, Product>, orderId: nat,
                             balances: nat -> (string -> Option<nat>), txError: Option<Thrown>,
                             token: string, o: Order)
    requires FindOrder(orders, orderId) == Some(o) && !o.isPaid
    requires !CheckPaymentStatus(orders, products, orderId, balances(0))
    requires !CheckPaymentStatus(orders, products, orderId, balances(1))
    requires !CheckPaymentStatus(orders, products, orderId, balances(2))
    ensures !CallsContract(ConfirmDelivery(orders, products, orderId, balances, txError, token))
    ensures o.productId in products ==>
      ConfirmDelivery(orders, products, orderId, balances, txError, token).PaymentNotDetected?
  {
    assert !RetryFindsPayment(orders, products, orderId, balances);
  }

  /** An unpaid order without a product entry is never sent to the contract:
      every check fails, and the error path reads `product.price` on
      `undefined`, whatever the chain answers. */
  lemma UnpaidWithoutProductNeverConfirmed(orders: seq<Order>, products: map<string, Product>, orderId: nat,
                                           balances: nat -> (string -> Option<nat>), txError: Option<Thrown>,
                                           token: string, o: Order)
    requires FindOrder(orders, orderId) == Some(o) && !o.isPaid && o.productId !in products
    ensures ConfirmDelivery(orders, products, orderId, balances, txError, token) == ProductMissing
  {
    forall k: nat | k < DefaultRetries
      ensures !CheckPaymentStatus(orders, products, orderId, balances(k))
    {
    }
  }

  /** For an unpaid order with a known product whose raw price reads as
      `price`, the contract is called iff one of the three attempts sees the
      seller's balance covering that price. */
  lemma ConfirmFollowsBalances(orders: seq<Order>, products: map<string, Product>, orderId: nat,
                               balances: nat -> (string -> Option<nat>), txError: Option<Thrown>,
                               token: string, o: Order, price: nat)
    requires FindOrder(orders, orderId) == Some(o) && !o.isPaid && o.productId in products
    requires Decimal.ParseNat(products[o.productId].priceRaw) == Some(price)
    ensures CallsContract(ConfirmDelivery(orders, products, orderId, balances, txError, token)) <==>
      exists k: nat :: k < DefaultRetries && balances(k)(o.seller).Some? && balances(k)(o.seller).value >= price
  {
    if exists k: nat :: k < DefaultRetries && balances(k)(o.seller).Some? && balances(k)(o.seller).value >= price {
      var k: nat :| k < DefaultRetries && balances(k)(o.seller).Some? && balances(k)(o.seller).value >= price;
      assert CheckPaymentStatus(orders, products, orderId, balances(k));
    } else {
      forall k: nat | k < DefaultRetries
        ensures !CheckPaymentStatus(orders, products, orderId, balances(k))
      {
        assert !(balances(k)(o.seller).Some? && balances(k)(o.seller).value >= price);
      }
    }
  }

  /** `onOrderPlaced`: the new order is appended, undelivered, with a zero amount. */
  function OnOrderPlaced(orders: seq<Order>, orderId: nat, productId: nat,
                         buyer: string, seller: string, isPaid: bool): (r: seq<Order>)
    ensures |r| == |orders| + 1 && r[..|orders|] == orders
    ensures r[|orders|].id == orderId && !r[|orders|].isDelivered
    ensures r[|orders|].amountRaw == "0" && r[|orders|].amount == "0"
    ensures Decimal.ParseNat(r[|orders|].productId) == Some(productId)
    ensures r[|orders|].buyer == buyer && r[|orders|].seller == seller && r[|orders|].isPaid == isPaid
  {
    Decimal.ParseNatToDecimal(productId);
    orders + [Order(orderId, Decimal.ToDecimal(productId), "0", "0", buyer, seller, isPaid, false)]
  }

  /** The update `onOrderPaid` applies to the order it names. */
  function MarkPaid(o: Order, amountPaid: nat): Order {
    o.(isPaid := true,
       amount := Units.FormatUnits(amountPaid, Units.TokenDecimals),
       amountRaw := Decimal.ToDecimal(amountPaid))
  }

  /** A paid order keeps its identity, parties and delivery flag, and both
      amount fields denote the paid amount. */
  lemma MarkPaidRecordsAmount(o: Order, amountPaid: nat)
    ensures MarkPaid(o, amountPaid).isPaid
    ensures MarkPaid(o, amountPaid).(isPaid := o.isPaid, amount := o.amount, amountRaw := o.amountRaw) == o
    ensures Decimal.ParseNat(MarkPaid(o, amountPaid).amountRaw) == Some(amountPaid)
    ensures Units.ParseUnits(MarkPaid(o, amountPaid).amount, Units.TokenDecimals) == Success(amountPaid as int)
  {
    Decimal.ParseNatToDecimal(amountPaid);
    Units.ParseFormatRoundTrip(amountPaid, Units.TokenDecimals);
  }

  /** `onOrderPaid`: every order with the event's id is marked paid; all
      other orders are untouched. */
  function OnOrderPaid(orders: seq<Order>, orderId: nat, amountPaid: nat): (r: seq<Order>)
    ensures |r| == |orders|
    ensures forall k :: 0 <= k < |r| && orders[k].id != orderId ==> r[k] == orders[k]
    ensures forall k :: 0 <= k < |r| && orders[k].id == orderId ==> r[k] == MarkPaid(orders[k], amountPaid)
  {
    seq(|orders|, k requires 0 <= k < |orders| =>
      if orders[k].id == orderId then MarkPaid(orders[k], amountPaid) else orders[k])
  }

  /** `onOrderDelivered`: only `isDelivered` of the named order changes. */
  function OnOrderDelivered(orders: seq<Order>, orderId: nat): (r: seq<Order>)
    ensures |r| == |orders|
    ensures forall k :: 0 <= k < |r| && orders[k].id != orderId ==> r[k] == orders[k]
    ensures forall k :: 0 <= k < |r| && orders[k].id == orderId ==>
      r[k].isDelivered && r[k] == orders[k].(isDelivered := true)
  {
    seq(|orders|, k requires 0 <= k < |orders| =>
      if orders[k].id == orderId then orders[k].(isDelivered := true) else orders[k])
  }

  /** Replaying a delivery event changes nothing. */
  lemma OnOrderDeliveredIdempotent(orders: seq<Order>, orderId: nat)
    ensures OnOrderDelivered(OnOrderDelivered(orders, orderId), orderId) == OnOrderDelivered(orders, orderId)
  {
  }

  /** Payment and delivery events may arrive in either order. */
  lemma PaidDeliveredCommute(orders: seq<Order>, paidId: nat, amountPaid: nat, deliveredId: nat)
    ensures OnOrderPaid(OnOrderDelivered(orders, deliveredId), paidId, amountPaid) ==
            OnOrderDelivered(OnOrderPaid(orders, paidId, amountPaid), deliveredId)
  {
  }

  /** The three order states of the status badge. */
  datatype Status = Pending | Paid | Delivered

  /** Delivered wins over paid; anything else is pending. */
  function StatusOf(o: Order): (s: Status)
    ensures s == Delivered <==> o.isDelivered
    ensures s == Paid <==> o.isPaid && !o.isDelivered
    ensures s == Pending <==> !o.isPaid && !o.isDelivered
  {
    if o.isDelivered then Delivered else if o.isPaid then Paid else Pending
  }

  /** The badge text of each state. */
  function StatusLabel(s: Status): string {
    match s
    case Delivered => "Delivered"
    case Paid => "Shipped"
    case Pending => "Processing"
  }

  /** Different states show different badges. */
  lemma StatusLabelInjective(s: Status, t: Status)
    ensures StatusLabel(s) == StatusLabel(t) <==> s == t
  {
  }

  /** After a delivery event the named order shows Delivered; after a
      payment event it shows Paid unless it was already delivered. */
  lemma EventsAdvanceStatus(orders: seq<Order>, orderId: nat, amountPaid: nat, k: nat)
    requires k < |orders| && orders[k].id == orderId
    ensures StatusOf(OnOrderDelivered(orders, orderId)[k]) == Delivered
    ensures StatusOf(OnOrderPaid(orders, orderId, amountPaid)[k]) ==
      (if orders[k].isDelivered then Delivered else Paid)
  {
  }

  /** The row test of `filteredOrders` for the active tab. */
  predicate TabKeeps(tab: string, o: Order) {
    if tab == "all" then true
    else if tab == "pending" then !o.isPaid && !o.isDelivered
    else if tab == "completed" then o.isPaid && o.isDelivered
    else true
  }

  /** `filteredOrders`: the orders the active tab lists, in list order. */
  function FilteredOrders(orders: seq<Order>, tab: string): (r: seq<Order>)
    ensures forall o :: o in r <==> o in orders && TabKeeps(tab, o)
  {
    Seqs.Filter(orders, o => TabKeeps(tab, o))
  }

  /** The pending tab lists exactly the Pending orders; the completed tab
      exactly the delivered orders whose payment was recorded; any other tab
      lists everything. Every tab's list is a subsequence of the orders. */
  lemma TabsSelect(orders: seq<Order>, tab: string)
    ensures Seqs.IsSubsequence(FilteredOrders(orders, tab), orders)
    ensures tab == "pending" ==>
      forall o :: o in FilteredOrders(orders, tab) <==> o in orders && StatusOf(o) == Pending
    ensures tab == "completed" ==>
      forall o :: o in FilteredOrders(orders, tab) <==> o in orders && o.isPaid && o.isDelivered
    ensures tab != "pending" && tab != "completed" ==> FilteredOrders(orders, tab) == orders
  {
    Seqs.FilterIsSubsequence(orders, o => TabKeeps(tab, o));
    if tab != "pending" && tab != "completed" {
      Seqs.FilterAll(orders, o => TabKeeps(tab, o));
    }
  }

  /** A delivered order whose payment was never recorded (cash on delivery)
      shows Delivered but is listed under neither the pending nor the
      completed tab. */
  lemma DeliveredUnpaidInNoTab(o: Order)
    requires o.isDelivered && !o.isPaid
    ensures StatusOf(o) == Delivered
    ensures !TabKeeps("pending", o) && !TabKeeps("completed", o) && TabKeeps("all", o)
  {
  }

  /** The cancel button (list and details view): the connected account is
      the buyer of an undelivered order. */
  predicate ShowCancel(o: Order, account: Option<string>) {
    !o.isDelivered && IsAccount(o.buyer, account)
  }

  /** The confirm-delivery button for a paid order: the connected account is
      its seller and it is not yet delivered. */
  predicate ShowConfirm(o: Order, account: Option<string>) {
    o.isPaid && !o.isDelivered && IsAccount(o.seller, account)
  }

  /** The details view's confirm button for an unpaid order: shown to the
      seller whether or not the order is delivered. */
  predicate ShowConfirmUnpaid(o: Order, account: Option<string>) {
    !o.isPaid && IsAccount(o.seller, account)
  }

  /** Which buttons appear, in terms of the order's status: no button without
      a connected account; cancel only before delivery; the two confirm
      buttons never together, the paid one exactly for Paid orders. */
  lemma ButtonsFollowStatus(o: Order, account: Option<string>)
    ensures account.None? ==> !ShowCancel(o, account) && !ShowConfirm(o, account) && !ShowConfirmUnpaid(o, account)
    ensures ShowCancel(o, account) ==> StatusOf(o) != Delivered
    ensures ShowConfirm(o, account) <==> StatusOf(o) == Paid && IsAccount(o.seller, account)
    ensures !(ShowConfirm(o, account) && ShowConfirmUnpaid(o, account))
    ensures ShowConfirmUnpaid(o, account) <==> StatusOf(o) != Paid && !o.isPaid && IsAccount(o.seller, account)
  {
  }

  /** The buttons depend on the account only up to letter case. */
  lemma ButtonsIgnoreCase(o: Order, a: string, b: string)
    requires SameIgnoringCase(a, b)
    ensures ShowCancel(o, Some(a)) == ShowCancel(o, Some(b))
    ensures ShowConfirm(o, Some(a)) == ShowConfirm(o, Some(b))
    ensures ShowConfirmUnpaid(o, Some(a)) == ShowConfirmUnpaid(o, Some(b))
  {
  }

  /** The details view's feedback: payment marks per order id and the error line. */
  datatype Feedback = Feedback(paymentStatus: map<nat, string>, error: Option<string>)

  /** The "Check Payment" button: a detected payment marks the order, any
      other result shows "Payment not yet received". */
  function OnCheckPayment(f: Feedback, orderId: nat, paid: bool): (r: Feedback)
    ensures paid ==> r.paymentStatus == f.paymentStatus[orderId := "detected"] && r.error == f.error
    ensures !paid ==> r.paymentStatus == f.paymentStatus && r.error == Some("Payment not yet received")
  {
    if paid then f.(paymentStatus := f.paymentStatus[orderId := "detected"])
    else f.(error := Some("Payment not yet received"))
  }
}

=== FILE: product_form.dfy ===
/** The seller's "add product" form: the form state, its input and image
    upload handlers, and the submit handler that calls the contract's
    `addProduct` and turns a failure into a message. */
module ProductForm {
  import opened Wrappers
  import opened Js

  /** A form field's value: text from an input, the initial stock number,
      or the missing image. */
  datatype FieldValue = Text(s: string) | Number(n: int) | Missing

  type Form = map<string, FieldValue>

  const FieldNames: set<string> := {"name", "price", "description", "type", "condition", "image", "stock"}

  const InitialForm: Form := map[
    "name" := Text(""), "price" := Text(""), "description" := Text(""), "type" := Text(""),
    "condition" := Text("new"), "image" := Missing, "stock" := Number(1)]

  const NotInitialized := "Contract connection not initialized"
  const CanceledByUser := "Transaction canceled by user"
  const RejectedByUser := "You rejected the transaction"
  const GenericFailure := "Transaction failed"
  const UploadFailed := "Image upload failed"
  const RejectionText := "user rejected transaction"

  /** The component's state: the form, the error shown, the busy flag and
      the preview of the chosen file. */
  datatype State = State(form: Form, error: Option<string>, submitting: bool, preview: Option<string>)

  const InitialState := State(InitialForm, None, false, None)

  /** Every field is present and the price is text, so `price.toString()`
      cannot throw. */
  predicate Complete(f: Form) {
    FieldNames <= f.Keys && f["price"].Text?
  }

  /** `handleInputChange`: `{ ...prev, [name]: value }`. */
  function HandleInputChange(s: State, name: string, value: string): (r: State)
    ensures r.form.Keys == s.form.Keys + {name}
    ensures r.form[name] == Text(value)
    ensures forall k :: k in s.form && k != name ==> r.form[k] == s.form[k]
    ensures r.error == s.error && r.submitting == s.submitting && r.preview == s.preview
  {
    s.(form := s.form[name := Text(value)])
  }

  /** What the image upload reports. */
  datatype Upload = Upload(success: bool, imageUrl: Option<string>)

  /** A chosen file: its data URL (what the reader produces for the preview)
      and the upload's outcome. */
  datatype ChosenFile = ChosenFile(dataUrl: string, upload: Upload)

  /** `handleFileChange`: nothing without a file; otherwise the preview, and
      the uploaded URL as the image on success or the upload error. */
  function HandleFileChange(s: State, file: Option<ChosenFile>): (r: State)
    ensures file.None? ==> r == s
    ensures file.Some? ==> r.preview == Some(file.value.dataUrl) && r.submitting == s.submitting
    ensures file.Some? && file.value.upload.success ==>
      r.form == s.form["image" := (if file.value.upload.imageUrl.Some? then Text(file.value.upload.imageUrl.value) else Missing)] &&
      r.error == s.error
    ensures file.Some? && !file.value.upload.success ==> r.form == s.form && r.error == Some(UploadFailed)
  {
    match file
    case None => s
    case Some(c) =>
      var shown := s.(preview := Some(c.dataUrl));
      if c.upload.success then
        var image := match c.upload.imageUrl case Some(u) => Text(u) case None => Missing;
        shown.(form := s.form["image" := image])
      else shown.(error := Some(UploadFailed))
  }

  /** The handlers keep the form complete. */
  lemma HandlersKeepFormComplete(s: State, name: string, value: string, file: Option<ChosenFile>)
    requires Complete(s.form)
    ensures Complete(HandleInputChange(s, name, value).form)
    ensures Complete(HandleFileChange(s, file).form)
  {
  }

  lemma InitialFormComplete()
    ensures Complete(InitialForm)
    ensures InitialForm.Keys == FieldNames
  {
  }

  /** The message shown for a failed `addProduct`: a provider rejection
      code (4001 user rejected, 4100 unauthorized) first, then a message that
      mentions the rejection, then the message itself or a generic text. */
  function ClassifyTxError(e: Thrown): (r: string)
    ensures e.code == Some(4001) || e.code == Some(4100) ==> r == CanceledByUser
  {
    if e.code == Some(4001) || e.code == Some(4100) then CanceledByUser
    else if e.message.Some? && Includes(e.message.value, RejectionText) then RejectedByUser
    else OrElse(e.message, GenericFailure)
  }

  /** How a failure without a rejection code is reported: the rejection
      wording is recognised anywhere in the message; any other message is
      shown as it is, and an empty or missing one as the generic text. */
  lemma ClassifyByMessage(e: Thrown)
    requires e.code != Some(4001) && e.code != Some(4100)
    ensures (e.message.Some? && exists i :: OccursAt(e.message.value, RejectionText, i)) ==>
      ClassifyTxError(e) == RejectedByUser
    ensures e.message.Some? && e.message.value != "" && !(exists i :: OccursAt(e.message.value, RejectionText, i)) ==>
      ClassifyTxError(e) == e.message.value
    ensures !Present(e.message) ==> ClassifyTxError(e) == GenericFailure
  {
    if e.message.Some? {
      IncludesIffOccurs(e.message.value, RejectionText);
    }
    if !Present(e.message) && e.message.Some? {
      assert !Includes("", RejectionText);
    }
  }

  /** The arguments `addProduct` is called with, read from the form. */
  datatype AddProductCall = AddProductCall(
    price: string, stock: FieldValue, name: FieldValue, image: FieldValue,
    description: FieldValue, productType: FieldValue, condition: FieldValue)

  function CallFor(f: Form): AddProductCall
    requires Complete(f)
  {
    AddProductCall(f["price"].s, f["stock"], f["name"], f["image"], f["description"], f["type"], f["condition"])
  }

  /** What one press of the submit button does: the state afterwards, the
      contract call made, and whether the parent's `onSubmit` ran. */
  datatype SubmitRun = SubmitRun(state: State, call: Option<AddProductCall>, submitted: bool)

  /** `callContractFunction`. `contract` is whether the contract function has
      been obtained; `outcome` is how the transaction ends. */
  function CallContractFunction(s: State, contract: bool, outcome: Result<(), Thrown>): (r: SubmitRun)
    requires Complete(s.form)
    ensures !contract ==> r == SubmitRun(s.(error := Some(NotInitialized)), None, false)
    ensures contract ==> r.call == Some(CallFor(s.form)) && !r.state.submitting
    ensures r.state.form == s.form && r.state.preview == s.preview
    ensures r.submitted <==> contract && outcome.Success?
    ensures contract && outcome.Success? ==> r.state.error.None?
    ensures contract && outcome.Failure? ==> r.state.error == Some(ClassifyTxError(outcome.error))
  {
    if !contract then SubmitRun(s.(error := Some(NotInitialized)), None, false)
    else
      var call := CallFor(s.form);
      match outcome
      case Success(_) => SubmitRun(s.(error := None, submitting := false), Some(call), true)
      case Failure(e) => SubmitRun(s.(error := Some(ClassifyTxError(e)), submitting := false), Some(call), false)
  }

  /** The form as the user fills it is sent unchanged: after typing a value
      into a field and submitting, the call carries that value. The stock
      input is a number input, whose value still reaches the handler as text. */
  lemma TypedValueIsSent(s: State, name: string, value: string, outcome: Result<(), Thrown>)
    requires Complete(s.form)
    requires name in FieldNames - {"image"}
    ensures
      var typed := HandleInputChange(s, name, value);
      var run := CallContractFunction(typed, true, outcome);
      run.call.Some? &&
      (name == "price" ==> run.call.value.price == value) &&
      (name == "name" ==> run.call.value.name == Text(value)) &&
      (name == "type" ==> run.call.value.productType == Text(value)) &&
      (name == "condition" ==> run.call.value.condition == Text(value)) &&
      (name == "description" ==> run.call.value.description == Text(value)) &&
      (name == "stock" ==> run.call.value.stock == Text(value))
  {
  }
}

=== FILE: product_route.dfy ===
/** The delivery app's wallet-registration route (`POST /api/product`):
    store a wallet's two data fields once, refusing a wallet id that is
    already stored. The `Wallet` collection is a map from the stored
    `walletId` to its record; a request without `walletid` sends
    `undefined`, which the database driver stores and matches as `null`,
    modelled as the key `None`. */
module ProductRoute {
  import opened Wrappers

  datatype WalletRecord = WalletRecord(walletId: Option<string>, data1: Option<string>, data2: Option<string>)

  type WalletRecords = map<Option<string>, WalletRecord>

  datatype Request = Request(walletid: Option<string>, data1: Option<string>, data2: Option<string>)

  datatype Body =
    | Exists(message: string, existingData: WalletRecord)
    | Stored(message: string, insertedId: string)
    | Failed(message: string, error: Option<string>)

  datatype Response = Response(status: int, body: Body)

  const AlreadyExists := "Wallet already exists"
  const StoredMessage := "Wallet data stored successfully"
  const ServerError := "Internal server error"

  /** What the database does: whether connecting, the lookup and the insert
      succeed, the id it assigns, and the error message it throws. */
  datatype Db = Db(connected: bool, findOk: bool, insertOk: bool, insertedId: string, error: Option<string>)

  /** The route. A body that is not JSON is `None`. */
  function RegisterWallet(db: Db, req: Option<Request>, w: WalletRecords): (r: (Response, WalletRecords))
    ensures r.0.status in {201, 400, 500}
    ensures r.0.status == 201 <==>
      db.connected && req.Some? && db.findOk && req.value.walletid !in w && db.insertOk
    ensures r.0.status == 400 <==> db.connected && req.Some? && db.findOk && req.value.walletid in w
    ensures r.0.status == 400 ==> r.0.body == Exists(AlreadyExists, w[req.value.walletid])
    ensures r.0.status == 500 ==> r.0.body == Failed(ServerError, db.error)
    ensures r.0.status != 201 ==> r.1 == w
    ensures r.0.status == 201 ==>
      var q := req.value;
      r.0.body == Stored(StoredMessage, db.insertedId) &&
      r.1 == w[q.walletid := WalletRecord(q.walletid, q.data1, q.data2)]
  {
    if !db.connected || req.None? || !db.findOk then (Response(500, Failed(ServerError, db.error)), w)
    else
      var q := req.value;
      if q.walletid in w then (Response(400, Exists(AlreadyExists, w[q.walletid])), w)
      else if !db.insertOk then (Response(500, Failed(ServerError, db.error)), w)
      else
        (Response(201, Stored(StoredMessage, db.insertedId)),
         w[q.walletid := WalletRecord(q.walletid, q.data1, q.data2)])
  }

  /** Registration never overwrites: once a wallet is stored, a second
      request for it is answered 400 with the first record, whatever data
      it carries, and the collection stays as it was. */
  lemma SecondRegistrationRefused(db: Db, first: Request, second: Request, w: WalletRecords)
    requires first.walletid == second.walletid
    requires RegisterWallet(db, Some(first), w).0.status == 201
    ensures
      var w1 := RegisterWallet(db, Some(first), w).1;
      var again := RegisterWallet(db, Some(second), w1);
      again.0.status == 400 &&
      again.0.body.existingData == WalletRecord(first.walletid, first.data1, first.data2) &&
      again.1 == w1
  {
  }

  /** A stored record is never changed by a later request. */
  lemma RecordsAreNeverRewritten(db: Db, req: Option<Request>, w: WalletRecords, k: Option<string>)
    requires k in w
    ensures k in RegisterWallet(db, req, w).1 && RegisterWallet(db, req, w).1[k] == w[k]
  {
  }
}

=== FILE: profile.dfy ===
/** The profile page: the collection-slug validator, saving a slug, and
    looking up whether an owned NFT is listed. */
module Profile {
  import opened Wrappers
  import opened Js
  import opened OpenSea
  import opened SlugService

  /** `[a-z0-9-]`. */
  predicate SlugChar(c: char) {
    ('a' <= c <= 'z') || ('0' <= c <= '9') || c == '-'
  }

  /** A line terminator, which the regex `.` does not match. */
  predicate LineTerminator(c: char) {
    c == '\n' || c == '\r' || c == '\U{2028}' || c == '\U{2029}'
  }

  /** `--` at index `i`. */
  predicate DashDashAt(s: string, i: int) {
    0 <= i < |s| - 1 && s[i] == '-' && s[i + 1] == '-'
  }

  /** `.*--` matches from the start: a `--` preceded by no line terminator. */
  predicate ReachableDashDash(s: string) {
    exists i :: 0 <= i < |s| && DashDashAt(s, i) && forall j :: 0 <= j < i ==> !LineTerminator(s[j])
  }

  /** `/^(?!-)(?!.*--)[a-z0-9-]+(?<!-)$/`, read construct by construct. */
  predicate SlugRegex(s: string) {
    && !StartsWith(s, "-")                                // (?!-)
    && !ReachableDashDash(s)                              // (?!.*--)
    && |s| >= 1 && (forall i :: 0 <= i < |s| ==> SlugChar(s[i]))  // ^[a-z0-9-]+$
    && s[|s| - 1] != '-'                                  // (?<!-)
  }

  /** The rule the page's message states: lowercase letters, digits and
      single hyphens, with no hyphen at either end. */
  predicate IsValidSlug(s: string) {
    && |s| >= 1
    && (forall i :: 0 <= i < |s| ==> SlugChar(s[i]))
    && s[0] != '-' && s[|s| - 1] != '-'
    && (forall i :: 0 <= i < |s| ==> !DashDashAt(s, i))
  }

  /** The regex accepts exactly the slugs the rule describes. */
  lemma SlugRegexIsRule(s: string)
    ensures SlugRegex(s) <==> IsValidSlug(s)
  {
    if IsValidSlug(s) {
      assert !ReachableDashDash(s);
    }
    if SlugRegex(s) {
      forall i | 0 <= i < |s| && DashDashAt(s, i)
        ensures false
      {
      }
    }
  }

  /** One left-to-right pass over the slug, as a validator without regex
      support would run it. */
  method ScanSlug(s: string) returns (ok: bool)
    ensures ok <==> IsValidSlug(s)
  {
    if |s| == 0 || s[0] == '-' || s[|s| - 1] == '-' {
      return false;
    }
    var i := 0;
    while i < |s|
      invariant 0 <= i <= |s|
      invariant forall k :: 0 <= k < i ==> SlugChar(s[k])
      invariant forall k :: 0 <= k && k + 1 < i ==> !DashDashAt(s, k)
    {
      if !SlugChar(s[i]) {
        return false;
      }
      if i > 0 && s[i - 1] == '-' && s[i] == '-' {
        assert DashDashAt(s, i - 1);
        return false;
      }
      i := i + 1;
    }
    return true;
  }

  /** A character `String.prototype.trim` removes. */
  predicate JsWhitespace(c: char) {
    c == '\t' || c == '\n' || c == '\U{B}' || c == '\U{C}' || c == '\r' || c == ' ' ||
    c == '\U{A0}' || c == '\U{1680}' || ('\U{2000}' <= c <= '\U{200A}') ||
    c == '\U{2028}' || c == '\U{2029}' || c == '\U{202F}' || c == '\U{205F}' ||
    c == '\U{3000}' || c == '\U{FEFF}'
  }

  /** `!slug.trim()`: the slug is empty or all whitespace. */
  predicate Blank(s: string) {
    forall i :: 0 <= i < |s| ==> JsWhitespace(s[i])
  }

  const BlankSlugAlert := "Please enter a valid slug"
  const BadSlugAlert := "Slug can only contain lowercase letters, numbers, and single hyphens (no leading, trailing, or consecutive hyphens)"

  /** The slug dialog: the typed slug, whether the popup is open, and the busy flag. */
  datatype SlugForm = SlugForm(slug: string, popupOpen: bool, loading: bool)

  /** `SetSlug(address, slug)`. */
  datatype SaveCall = SaveCall(address: Option<string>, slug: string)

  /** The dialog afterwards, the alert shown, and the save call made. */
  datatype SaveRun = SaveRun(form: SlugForm, alert: Option<string>, call: Option<SaveCall>)

  /** `handleSaveSlug()`. The save call's own outcome does not matter: the
      dialog is reset whether it succeeds, fails or throws. */
  function HandleSaveSlug(f: SlugForm, address: Option<string>): (r: SaveRun)
    ensures r.call.Some? <==> IsValidSlug(f.slug)
    ensures r.call.Some? ==> r.call.value == SaveCall(address, f.slug)
    ensures r.call.Some? ==> r.form == SlugForm("", false, false) && r.alert.None?
    ensures Blank(f.slug) ==> r.alert == Some(BlankSlugAlert) && r.form == f.(loading := false)
    ensures !Blank(f.slug) && !IsValidSlug(f.slug) ==> r.alert == Some(BadSlugAlert) && r.form == f.(loading := false)
    ensures !r.form.loading
  {
    if Blank(f.slug) then SaveRun(f.(loading := false), Some(BlankSlugAlert), None)
    else if !IsValidSlug(f.slug) then SaveRun(f.(loading := false), Some(BadSlugAlert), None)
    else SaveRun(SlugForm("", false, false), None, Some(SaveCall(address, f.slug)))
  }

  /** A valid slug is never blank, so the first guard cannot reject it. */
  lemma ValidSlugNotBlank(s: string)
    requires IsValidSlug(s)
    ensures !Blank(s)
  {
    assert SlugChar(s[0]);
    assert !JsWhitespace(s[0]);
  }

  /** `isNFTListed(nft)`: some listed NFT has the same identifier (two
      missing identifiers count as the same, as `undefined === undefined`). */
  predicate IsNftListed(listed: seq<Keyed<ListedNft>>, nft: Nft) {
    exists k :: 0 <= k < |listed| && listed[k].value.identifier == nft.identifier
  }

  /** `getListingDetails(nft)`: the first listed NFT with the same identifier. */
  function ListingDetails(listed: seq<Keyed<ListedNft>>, nft: Nft): (r: Option<Keyed<ListedNft>>)
    ensures r.Some? <==> IsNftListed(listed, nft)
    ensures r.Some? ==> r.value.value.identifier == nft.identifier
    ensures r.Some? ==> exists k :: (0 <= k < |listed| && listed[k] == r.value &&
      forall j :: 0 <= j < k ==> listed[j].value.identifier != nft.identifier)
  {
    if |listed| == 0 then None
    else if listed[0].value.identifier == nft.identifier then Some(listed[0])
    else
      var r := ListingDetails(listed[1..], nft);
      assert forall k :: 1 <= k < |listed| ==> listed[k] == listed[1..][k - 1];
      assert IsNftListed(listed, nft) ==> IsNftListed(listed[1..], nft) by {
        if IsNftListed(listed, nft) {
          var k :| 0 <= k < |listed| && listed[k].value.identifier == nft.identifier;
          assert listed[1..][k - 1].value.identifier == nft.identifier;
        }
      }
      r
  }
}

=== FILE: seqs.dfy ===
/** Sequence shapes shared by the list builders: `Array.prototype.filter`,
    the subsequence relation it establishes, and the id-range loop
    `for (i = lo; i < hi; i++) { try { push(fetch(i)) } catch {} }` that
    every page uses to rebuild a list from a contract. */
module Seqs {
  import opened Wrappers

  /** `xs.filter(p)`. */
  function Filter<T(!new)>(xs: seq<T>, p: T -> bool): (r: seq<T>)
    ensures |r| <= |xs|
    ensures forall x :: x in r <==> x in xs && p(x)
  {
    if |xs| == 0 then []
    else (if p(xs[0]) then [xs[0]] else []) + Filter(xs[1..], p)
  }

  /** `idx` lists, in increasing order, the positions of `xs` that make up `r`. */
  ghost predicate EmbedsVia<T>(r: seq<T>, xs: seq<T>, idx: seq<nat>) {
    && |idx| == |r|
    && (forall k :: 0 <= k < |idx| ==> idx[k] < |xs| && r[k] == xs[idx[k]])
    && (forall j, k :: 0 <= j < k < |idx| ==> idx[j] < idx[k])
  }

  /** `r` is obtained from `xs` by deleting elements, keeping the order. */
  ghost predicate IsSubsequence<T>(r: seq<T>, xs: seq<T>) {
    exists idx :: EmbedsVia(r, xs, idx)
  }

  /** Prepending the same element to both sides keeps an embedding. */
  lemma EmbedCons<T>(x: T, r: seq<T>, xs: seq<T>, idx: seq<nat>, keep: bool) returns (idx': seq<nat>)
    requires EmbedsVia(r, xs, idx)
    ensures keep ==> EmbedsVia([x] + r, [x] + xs, idx')
    ensures !keep ==> EmbedsVia(r, [x] + xs, idx')
  {
    var shifted := seq(|idx|, k requires 0 <= k < |idx| => idx[k] + 1);
    if keep {
      idx' := [0] + shifted;
      forall k | 0 <= k < |idx'|
        ensures idx'[k] < |[x] + xs| && ([x] + r)[k] == ([x] + xs)[idx'[k]]
      {
        if k > 0 {
          assert idx'[k] == idx[k - 1] + 1;
        }
      }
    } else {
      idx' := shifted;
    }
  }

  /** A filter result is a subsequence of its input. */
  lemma {:induction false} FilterEmbeds<T(!new)>(xs: seq<T>, p: T -> bool) returns (idx: seq<nat>)
    ensures EmbedsVia(Filter(xs, p), xs, idx)
  {
    if |xs| == 0 {
      idx := [];
    } else {
      var rest := FilterEmbeds(xs[1..], p);
      assert [xs[0]] + xs[1..] == xs;
      idx := EmbedCons(xs[0], Filter(xs[1..], p), xs[1..], rest, p(xs[0]));
    }
  }

  lemma FilterIsSubsequence<T(!new)>(xs: seq<T>, p: T -> bool)
    ensures IsSubsequence(Filter(xs, p), xs)
  {
    var idx := FilterEmbeds(xs, p);
  }

  /** A filter keeps everything when the test always passes. */
  lemma {:induction false} FilterAll<T(!new)>(xs: seq<T>, p: T -> bool)
    requires forall x :: x in xs ==> p(x)
    ensures Filter(xs, p) == xs
  {
    if |xs| > 0 {
      FilterAll(xs[1..], p);
      assert [xs[0]] + xs[1..] == xs;
    }
  }

  /** Number of ids in `lo .. hi - 1`. */
  function Span(lo: nat, hi: int): nat {
    if hi > lo then hi - lo else 0
  }

  /** The id-range loop: ids `lo .. hi - 1` in ascending order, keeping
      the record `f(i)` when there is one (a failing or filtered id gives `None`). */
  function Collect<T>(lo: nat, hi: int, f: nat -> Option<T>): (r: seq<T>)
    ensures |r| <= Span(lo, hi)
    decreases Span(lo, hi)
  {
    if hi <= lo then []
    else (match f(lo) case Some(v) => [v] case None => []) + Collect(lo + 1, hi, f)
  }

  /** The loop body appended to the records collected so far. */
  lemma {:induction false} CollectSnoc<T>(lo: nat, i: nat, f: nat -> Option<T>)
    requires lo <= i
    ensures Collect(lo, i + 1, f) == Collect(lo, i, f) + (match f(i) case Some(v) => [v] case None => [])
    decreases i - lo
  {
    if lo < i {
      CollectSnoc(lo + 1, i, f);
    }
  }

  /** Exactly the records of the ids in range are collected. */
  lemma {:induction false} CollectMembers<T>(lo: nat, hi: int, f: nat -> Option<T>, v: T)
    ensures v in Collect(lo, hi, f) <==> exists i: nat :: lo <= i < hi && f(i) == Some(v)
    decreases Span(lo, hi)
  {
    if hi > lo {
      CollectMembers(lo + 1, hi, f, v);
      if f(lo) == Some(v) {
        assert v in Collect(lo, hi, f);
      }
    }
  }

  /** When every record carries its own id, the collected ids are strictly
      increasing and lie in the range. */
  lemma {:induction false} CollectKeys<T>(lo: nat, hi: int, f: nat -> Option<T>, key: T -> nat)
    requires forall i: nat :: f(i).Some? ==> key(f(i).value) == i
    ensures forall k :: 0 <= k < |Collect(lo, hi, f)| ==> lo <= key(Collect(lo, hi, f)[k]) < hi
    ensures forall j, k :: 0 <= j < k < |Collect(lo, hi, f)| ==>
      key(Collect(lo, hi, f)[j]) < key(Collect(lo, hi, f)[k])
    decreases Span(lo, hi)
  {
    if hi > lo {
      CollectKeys(lo + 1, hi, f, key);
      var r := Collect(lo, hi, f);
      var tail := Collect(lo + 1, hi, f);
      if f(lo).Some? {
        assert r == [f(lo).value] + tail;
        assert forall k :: 1 <= k < |r| ==> r[k] == tail[k - 1];
      } else {
        assert r == tail;
      }
    }
  }

  /** Loops whose passes agree on every id collect the same records. */
  lemma {:induction false} CollectCongruent<T>(lo: nat, hi: int, f: nat -> Option<T>, g: nat -> Option<T>)
    requires forall i: nat :: lo <= i < hi ==> f(i) == g(i)
    ensures Collect(lo, hi, f) == Collect(lo, hi, g)
    decreases Span(lo, hi)
  {
    if hi > lo {
      CollectCongruent(lo + 1, hi, f, g);
    }
  }

  /** The loop as the pages write it, one id at a time. */
  method CollectLoop<T>(lo: nat, hi: int, f: nat -> Option<T>) returns (r: seq<T>)
    ensures r == Collect(lo, hi, f)
  {
    r := [];
    var i := lo;
    while i < hi
      invariant lo <= i
      invariant hi > lo ==> i <= hi
      invariant hi <= lo ==> i == lo
      invariant r == Collect(lo, i, f)
      decreases hi - i
    {
      CollectSnoc(lo, i, f);
      match f(i) {
        case Some(v) => r := r + [v];
        case None =>
      }
      i := i + 1;
    }
  }
}

=== FILE: slug_service.dfy ===
/** The client-side slug service: the wallet's saved collection slugs, and
    for each the collection with the wallet's own and listed NFTs. Every
    request is an abstract input: `None` for a request that fails, and a
    reply without its list field is the empty list. */
module SlugService {
  import opened Wrappers
  import opened Js
  import opened OpenSea
  import Seqs

  /** A listed NFT as the service shapes it. */
  datatype ListedNft = ListedNft(
    identifier: Option<string>, name: string, description: string, imageUrl: string,
    price: Option<string>, currency: Option<string>, orderHash: Option<string>, contractAddress: string)

  /** An NFT with the `uniqueKey` added to it. */
  datatype Keyed<T> = Keyed(value: T, uniqueKey: string)

  /** What `fetchNFTMetadata` returns. */
  datatype Metadata = Metadata(nftMetadata: seq<Nft>, ownerNfts: seq<Keyed<Nft>>, listedNfts: seq<Keyed<ListedNft>>)

  const NoMetadata := Metadata([], [], [])

  /** The collection reply: its Seaport orders (`listings`). */
  datatype CollectionData = CollectionData(listings: Option<seq<Order>>)

  /** The network: the NFTs of a contract, and of an account within a contract. */
  datatype Network = Network(contractNfts: string -> Option<seq<Nft>>,
                             accountNfts: (string, string) -> Option<seq<Nft>>)

  /** `fetchOwnedNFTs(contract, wallet)`: the reply's list, or `[]` on any error. */
  function FetchOwned(net: Network, contract: string, wallet: string): (r: seq<Nft>)
    ensures net.accountNfts(wallet, contract).None? ==> r == []
    ensures net.accountNfts(wallet, contract).Some? ==> r == net.accountNfts(wallet, contract).value
  {
    match net.accountNfts(wallet, contract)
    case None => []
    case Some(nfts) => nfts
  }

  /** The offerer test of `fetchListedNFTs`: the order's offerer is the
      wallet up to letter case (an order without offerer never is). */
  predicate OfferedBy(wallet: string, o: Order) {
    o.offerer.Some? && SameIgnoringCase(o.offerer.value, wallet)
  }

  /** `nftMap`: each NFT under the text of its identifier (`"undefined"`
      when it has none); a later NFT overwrites an earlier one. */
  function NftMap(nfts: seq<Nft>): (m: map<string, Nft>)
    ensures forall k :: k in m <==> exists n :: n in nfts && Render(n.identifier) == k
    ensures forall k :: k in m ==> m[k] in nfts && Render(m[k].identifier) == k
    decreases |nfts|
  {
    if |nfts| == 0 then map[]
    else
      var init := nfts[..|nfts| - 1];
      var last := nfts[|nfts| - 1];
      assert nfts == init + [last];
      NftMap(init)[Render(last.identifier) := last]
  }

  /** The last NFT under a key wins. */
  lemma {:induction false} NftMapLastWins(nfts: seq<Nft>, i: nat)
    requires i < |nfts|
    requires forall j :: i < j < |nfts| ==> Render(nfts[j].identifier) != Render(nfts[i].identifier)
    ensures NftMap(nfts)[Render(nfts[i].identifier)] == nfts[i]
    decreases |nfts|
  {
    if i < |nfts| - 1 {
      var init := nfts[..|nfts| - 1];
      NftMapLastWins(init, i);
    }
  }

  /** The listing shape for one of the wallet's orders: the metadata comes
      from the NFT whose identifier text equals the order's token id text. */
  function ShapeListing(o: Order, meta: Option<Nft>, contract: string): (r: ListedNft)
    ensures r.identifier == o.offerId && r.contractAddress == contract
    ensures r.price == o.price && r.currency == o.currency && r.orderHash == o.orderHash
    ensures meta.None? ==> r.name == "Unknown" && r.description == "" && r.imageUrl == ""
    ensures meta.Some? ==>
      (r.name == OrElse(meta.value.name, "Unknown") &&
       r.description == OrElse(meta.value.description, "") && r.imageUrl == OrElse(meta.value.imageUrl, ""))
  {
    var name := if meta.Some? then OrElse(meta.value.name, "Unknown") else "Unknown";
    var description := if meta.Some? then OrElse(meta.value.description, "") else "";
    var image := if meta.Some? then OrElse(meta.value.imageUrl, "") else "";
    ListedNft(o.offerId, name, description, image, o.price, o.currency, o.orderHash, contract)
  }

  /** `nftMap[tokenId]` for an order: the NFT whose identifier text equals
      the order's token id text, if the contract's list has one. */
  function MetadataFor(nfts: seq<Nft>, o: Order): (r: Option<Nft>)
    ensures r.Some? <==> exists n :: n in nfts && Render(n.identifier) == Render(o.offerId)
    ensures r.Some? ==> r.value in nfts && Render(r.value.identifier) == Render(o.offerId)
  {
    var m := NftMap(nfts);
    var key := Render(o.offerId);
    if key in m then Some(m[key]) else None
  }

  /** `fetchListedNFTs(collection, wallet, contract)`. */
  function FetchListed(net: Network, c: CollectionData, wallet: string, contract: string): (r: seq<ListedNft>)
    ensures var mine := Seqs.Filter(if c.listings.Some? then c.listings.value else [], o => OfferedBy(wallet, o));
      (mine == [] || net.contractNfts(contract).None? ==> r == []) &&
      (mine != [] && net.contractNfts(contract).Some? ==>
        (|r| == |mine| &&
         forall k :: 0 <= k < |r| ==>
           r[k] == ShapeListing(mine[k], MetadataFor(net.contractNfts(contract).value, mine[k]), contract)))
  {
    var orders := if c.listings.Some? then c.listings.value else [];
    var mine := Seqs.Filter(orders, o => OfferedBy(wallet, o));
    if mine == [] then []
    else
      match net.contractNfts(contract)
      case None => []
      case Some(nfts) =>
        seq(|mine|, k requires 0 <= k < |mine| => ShapeListing(mine[k], MetadataFor(nfts, mine[k]), contract))
  }

  /** Each listing carries its order's token id, price, currency and hash and
      the contract; its name, description and image come from an NFT of the
      contract with the same identifier text, and are "Unknown", "" and ""
      when the contract has none. */
  lemma FetchListedDetails(net: Network, c: CollectionData, wallet: string, contract: string, k: nat)
    requires c.listings.Some? && net.contractNfts(contract).Some?
    requires k < |Seqs.Filter(c.listings.value, o => OfferedBy(wallet, o))|
    ensures var o := Seqs.Filter(c.listings.value, o => OfferedBy(wallet, o))[k];
      var nfts := net.contractNfts(contract).value;
      var l := FetchListed(net, c, wallet, contract)[k];
      OfferedBy(wallet, o) &&
      l.identifier == o.offerId && l.price == o.price && l.currency == o.currency &&
      l.orderHash == o.orderHash && l.contractAddress == contract &&
      ((forall n :: n in nfts ==> Render(n.identifier) != Render(o.offerId)) ==>
         l.name == "Unknown" && l.description == "" && l.imageUrl == "") &&
      ((exists n :: n in nfts && Render(n.identifier) == Render(o.offerId)) ==>
         exists n :: n in nfts && Render(n.identifier) == Render(o.offerId) &&
           l.name == OrElse(n.name, "Unknown") && l.description == OrElse(n.description, "") &&
           l.imageUrl == OrElse(n.imageUrl, ""))
  {
    var mine := Seqs.Filter(c.listings.value, o => OfferedBy(wallet, o));
    var o := mine[k];
    assert o in mine;
    var meta := MetadataFor(net.contractNfts(contract).value, o);
    var l := FetchListed(net, c, wallet, contract)[k];
    assert l == ShapeListing(o, meta, contract);
    if meta.Some? {
      assert meta.value in net.contractNfts(contract).value;
    }
  }

  /** `l` was shaped from one of the wallet's own orders among `orders`. */
  ghost predicate FromOwnOrder(orders: seq<Order>, wallet: string, l: ListedNft) {
    exists o :: o in orders && OfferedBy(wallet, o) && l.orderHash == o.orderHash && l.identifier == o.offerId
  }

  /** The listed NFTs come only from the wallet's own orders, offerer
      compared up to letter case, which keep the collection's order. */
  lemma FetchListedOnlyOwnOrders(net: Network, c: CollectionData, wallet: string, contract: string)
    requires c.listings.Some?
    ensures forall k :: 0 <= k < |FetchListed(net, c, wallet, contract)| ==>
      FromOwnOrder(c.listings.value, wallet, FetchListed(net, c, wallet, contract)[k])
    ensures Seqs.IsSubsequence(Seqs.Filter(c.listings.value, o => OfferedBy(wallet, o)), c.listings.value)
  {
    Seqs.FilterIsSubsequence(c.listings.value, o => OfferedBy(wallet, o));
    var mine := Seqs.Filter(c.listings.value, o => OfferedBy(wallet, o));
    var r := FetchListed(net, c, wallet, contract);
    forall k | 0 <= k < |r|
      ensures FromOwnOrder(c.listings.value, wallet, r[k])
    {
      assert mine != [];
      assert mine[k] in mine;
      assert r[k].orderHash == mine[k].orderHash && r[k].identifier == mine[k].offerId;
    }
  }

  /** `${contract}-${identifier}-owned`. */
  function OwnedKey(contract: string, n: Nft): string {
    contract + "-" + Render(n.identifier) + "-owned"
  }

  /** `${contract}-${identifier}-listed-${order_hash}`. */
  function ListedKey(contract: string, l: ListedNft): string {
    contract + "-" + Render(l.identifier) + "-listed-" + Render(l.orderHash)
  }

  /** The token contract of the collection: the first offer item of the
      first order, if there is one. */
  function ContractOf(c: CollectionData): Option<string> {
    if c.listings.Some? && |c.listings.value| > 0 then c.listings.value[0].offerToken else None
  }

  /** `fetchNFTMetadata(collection, wallet)`. */
  function FetchMetadata(net: Network, c: CollectionData, wallet: string): (r: Metadata)
    ensures !Present(ContractOf(c)) ==> r == NoMetadata
    ensures Present(ContractOf(c)) && net.contractNfts(ContractOf(c).value).None? ==> r == NoMetadata
    ensures Present(ContractOf(c)) && net.contractNfts(ContractOf(c).value).Some? ==>
      var contract := ContractOf(c).value;
      r.nftMetadata == net.contractNfts(contract).value &&
      |r.ownerNfts| == |FetchOwned(net, contract, wallet)| &&
      (forall k :: 0 <= k < |r.ownerNfts| ==>
        r.ownerNfts[k] == Keyed(FetchOwned(net, contract, wallet)[k], OwnedKey(contract, FetchOwned(net, contract, wallet)[k]))) &&
      |r.listedNfts| == |FetchListed(net, c, wallet, contract)| &&
      (forall k :: 0 <= k < |r.listedNfts| ==>
        r.listedNfts[k] == Keyed(FetchListed(net, c, wallet, contract)[k], ListedKey(contract, FetchListed(net, c, wallet, contract)[k])))
  {
    var contract := ContractOf(c);
    if !Present(contract) then NoMetadata
    else
      match net.contractNfts(contract.value)
      case None => NoMetadata
      case Some(all) =>
        var owned := FetchOwned(net, contract.value, wallet);
        var listed := FetchListed(net, c, wallet, contract.value);
        Metadata(all,
          seq(|owned|, k requires 0 <= k < |owned| => Keyed(owned[k], OwnedKey(contract.value, owned[k]))),
          seq(|listed|, k requires 0 <= k < |listed| => Keyed(listed[k], ListedKey(contract.value, listed[k]))))
  }

  /** Within one contract, two owned NFTs share a key only if their
      identifiers read the same. */
  lemma OwnedKeyInjective(contract: string, n: Nft, m: Nft)
    requires OwnedKey(contract, n) == OwnedKey(contract, m)
    ensures Render(n.identifier) == Render(m.identifier)
  {
    var a, b := Render(n.identifier), Render(m.identifier);
    var ka, kb := OwnedKey(contract, n), OwnedKey(contract, m);
    assert ka == contract + "-" + a + "-owned";
    assert kb == contract + "-" + b + "-owned";
    assert |a| == |b|;
    assert a == ka[|contract| + 1..|contract| + 1 + |a|];
    assert b == kb[|contract| + 1..|contract| + 1 + |b|];
  }

  /** An entry of `collections`. */
  datatype CollectionEntry =
    | WithData(slug: string, data: CollectionData, meta: Metadata)
    | WithError(slug: string, error: string)

  /** What one slug contributes: its collection with metadata, an error
      entry when the collection request throws (`Failure` with its message),
      or nothing when the reply has no `data`. */
  function EntryFor(net: Network, wallet: string, collectionOf: string -> Result<Option<CollectionData>, string>,
                    slug: string): (r: Option<CollectionEntry>)
    ensures r.Some? ==> r.value.slug == slug
    ensures r.None? <==> collectionOf(slug) == Success(None)
    ensures collectionOf(slug).Failure? ==> r == Some(WithError(slug, collectionOf(slug).error))
    ensures collectionOf(slug).Success? && collectionOf(slug).value.Some? ==>
      r == Some(WithData(slug, collectionOf(slug).value.value, FetchMetadata(net, collectionOf(slug).value.value, wallet)))
  {
    match collectionOf(slug)
    case Failure(message) => Some(WithError(slug, message))
    case Success(None) => None
    case Success(Some(c)) => Some(WithData(slug, c, FetchMetadata(net, c, wallet)))
  }

  /** The `collections` loop over the slugs, in order. */
  function Collections(net: Network, wallet: string, collectionOf: string -> Result<Option<CollectionData>, string>,
                       slugs: seq<string>): (r: seq<CollectionEntry>)
    ensures |r| <= |slugs|
    decreases |slugs|
  {
    if |slugs| == 0 then []
    else
      var rest := Collections(net, wallet, collectionOf, slugs[1..]);
      match EntryFor(net, wallet, collectionOf, slugs[0])
      case None => rest
      case Some(e) => [e] + rest
  }

  /** The slugs of a list of entries. */
  function SlugsOf(es: seq<CollectionEntry>): (r: seq<string>)
    ensures |r| == |es| && forall k :: 0 <= k < |es| ==> r[k] == es[k].slug
  {
    seq(|es|, k requires 0 <= k < |es| => es[k].slug)
  }

  /** The entries follow the slugs' order: their slugs are the slugs that
      contribute, so a subsequence of the saved slugs. */
  lemma {:induction false} CollectionsFollowSlugs(net: Network, wallet: string,
                                                  collectionOf: string -> Result<Option<CollectionData>, string>,
                                                  slugs: seq<string>)
    ensures SlugsOf(Collections(net, wallet, collectionOf, slugs)) ==
      Seqs.Filter(slugs, s => collectionOf(s) != Success(None))
    decreases |slugs|
  {
    if |slugs| > 0 {
      CollectionsFollowSlugs(net, wallet, collectionOf, slugs[1..]);
      var rest := Collections(net, wallet, collectionOf, slugs[1..]);
      var r := Collections(net, wallet, collectionOf, slugs);
      var keep := s => collectionOf(s) != Success(None);
      assert Seqs.Filter(slugs, keep) == (if keep(slugs[0]) then [slugs[0]] else []) + Seqs.Filter(slugs[1..], keep);
      match EntryFor(net, wallet, collectionOf, slugs[0])
      case None =>
        assert r == rest;
      case Some(e) =>
        assert r == [e] + rest;
        assert SlugsOf([e] + rest) == [e.slug] + SlugsOf(rest);
    }
  }

  /** Every entry comes from a saved slug and is what that slug contributes;
      every slug whose request threw or returned data contributes its entry:
      `{slug, error}` with the thrown message, or `{slug, data}` with the
      collection and its metadata. */
  lemma {:induction false} CollectionsEntries(net: Network, wallet: string,
                                              collectionOf: string -> Result<Option<CollectionData>, string>,
                                              slugs: seq<string>)
    ensures forall e :: e in Collections(net, wallet, collectionOf, slugs) ==>
      e.slug in slugs && EntryFor(net, wallet, collectionOf, e.slug) == Some(e)
    ensures forall s :: s in slugs && collectionOf(s).Failure? ==>
      WithError(s, collectionOf(s).error) in Collections(net, wallet, collectionOf, slugs)
    ensures forall s :: s in slugs && collectionOf(s).Success? && collectionOf(s).value.Some? ==>
      WithData(s, collectionOf(s).value.value, FetchMetadata(net, collectionOf(s).value.value, wallet))
        in Collections(net, wallet, collectionOf, slugs)
    decreases |slugs|
  {
    if |slugs| > 0 {
      CollectionsEntries(net, wallet, collectionOf, slugs[1..]);
      var rest := Collections(net, wallet, collectionOf, slugs[1..]);
      var r := Collections(net, wallet, collectionOf, slugs);
      assert forall s :: s in slugs ==> s == slugs[0] || s in slugs[1..];
      match EntryFor(net, wallet, collectionOf, slugs[0])
      case None =>
        assert r == rest;
      case Some(e) =>
        assert r == [e] + rest;
    }
  }

  /** What `GetSlug` returns: the saved slugs, and for them the entries the
      collection loop builds, in the order of the slugs that contribute. */
  lemma GetSlugFollowsSlugs(net: Network, walletId: Option<string>, reply: Option<SlugReply>,
                            collectionOf: string -> Result<Option<CollectionData>, string>)
    ensures
      var r := GetSlug(net, walletId, reply, collectionOf);
      r.Some? ==>
        SlugsOf(r.value.collections) == Seqs.Filter(r.value.slugs, s => collectionOf(s) != Success(None))
  {
    var r := GetSlug(net, walletId, reply, collectionOf);
    if r.Some? {
      CollectionsFollowSlugs(net, walletId.value, collectionOf, r.value.slugs);
    }
  }

  /** The saved-slugs reply: its `error` field and `data.Slug`. */
  datatype SlugReply = SlugReply(error: Option<string>, slugs: Option<seq<string>>)

  /** What `GetSlug` returns when it does not return null. */
  datatype SlugResult = SlugResult(slugs: seq<string>, collections: seq<CollectionEntry>)

  /** `GetSlug(walletId)`. `reply` is the saved-slugs reply (`None` when
      the request fails). */
  function GetSlug(net: Network, walletId: Option<string>, reply: Option<SlugReply>,
                   collectionOf: string -> Result<Option<CollectionData>, string>): (r: Option<SlugResult>)
    ensures !Present(walletId) ==> r.None?
    ensures Present(walletId) && reply.Some? && Present(reply.value.error) ==> r.None?
    ensures r.Some? <==> Present(walletId) && reply.Some? && !Present(reply.value.error)
    ensures r.Some? && (reply.value.slugs.None? || reply.value.slugs.value == []) ==> r.value == SlugResult([], [])
    ensures r.Some? ==> |r.value.collections| <= |r.value.slugs|
    ensures r.Some? ==>
      var saved := if reply.value.slugs.Some? then reply.value.slugs.value else [];
      r.value == SlugResult(saved, Collections(net, walletId.value, collectionOf, saved))
  {
    if !Present(walletId) then None
    else
      match reply
      case None => None
      case Some(rep) =>
        if Present(rep.error) then None
        else
          var slugs := if rep.slugs.Some? then rep.slugs.value else [];
          if |slugs| == 0 then Some(SlugResult([], []))
          else Some(SlugResult(slugs, Collections(net, walletId.value, collectionOf, slugs)))
  }
}

=== FILE: slug_store.dfy ===
/** The marketplace's saved-slug store: the `slugstore` route that adds a
    slug to a wallet's set (creating the wallet document when needed) and
    the `getslug` route that reads the set back. The collection is a map
    from wallet id to its document. The schema defaults the slug list to
    `[]`, but the routes do not rely on it: a document may lack the field. */
module SlugStore {
  import opened Wrappers
  import opened Js

  datatype WalletDoc = WalletDoc(walletId: string, slugs: Option<seq<string>>)

  /** `doc.slugs || []`. */
  function SlugsOf(d: WalletDoc): seq<string> {
    if d.slugs.Some? then d.slugs.value else []
  }

  /** The `Wallet` collection, keyed by the unique `walletId`. */
  type Wallets = map<string, WalletDoc>

  /** Every document sits under its own wallet id and lists each slug once. */
  ghost predicate WellFormed(w: Wallets) {
    forall k :: k in w ==> w[k].walletId == k && NoDuplicates(SlugsOf(w[k]))
  }

  predicate NoDuplicates(xs: seq<string>) {
    forall i, j :: 0 <= i < j < |xs| ==> xs[i] != xs[j]
  }

  /** What a route answers: a wallet document, a slug list with a message,
      or an error text, with the HTTP status. */
  datatype Body = DocBody(doc: WalletDoc) | SlugsBody(message: string, slugs: seq<string>) | ErrorBody(error: string)
  datatype Response = Response(status: int, body: Body)

  /** The request body's fields; `None` for a missing field. A body that is
      not JSON makes `req.json()` throw and is `None` as a whole. */
  datatype SaveRequest = SaveRequest(walletId: Option<string>, slug: Option<string>)

  const MissingFields := "walletId and slug are required"
  const SaveFailed := "Internal Server Error"
  const MissingWallet := "walletId is required"
  const NoUser := "No user found"
  const Found := "Success"
  const ReadFailed := "Internal server error"

  /** `$addToSet`: append `x` unless it is already there. */
  function AddToSet(xs: seq<string>, x: string): (r: seq<string>)
    ensures x in r
    ensures forall y :: y in r <==> y in xs || y == x
    ensures x in xs ==> r == xs
    ensures x !in xs ==> r == xs + [x]
    ensures NoDuplicates(xs) ==> NoDuplicates(r)
  {
    if x in xs then xs else xs + [x]
  }

  /** `findOneAndUpdate({ walletId }, { $addToSet: { slugs: slug } },
      { upsert: true, new: true })`: the collection afterwards and the
      document it returns. */
  function Upsert(w: Wallets, walletId: string, slug: string): (r: (Wallets, WalletDoc))
    ensures walletId in r.0 && r.0[walletId] == r.1
    ensures r.1.walletId == (if walletId in w then w[walletId].walletId else walletId)
    ensures walletId in w ==> r.1.slugs == Some(AddToSet(SlugsOf(w[walletId]), slug))
    ensures walletId !in w ==> r.1.slugs == Some([slug])
    ensures r.0.Keys == w.Keys + {walletId}
    ensures forall k :: k in w && k != walletId ==> r.0[k] == w[k]
  {
    var prior := if walletId in w then w[walletId] else WalletDoc(walletId, None);
    var doc := prior.(slugs := Some(AddToSet(SlugsOf(prior), slug)));
    assert walletId !in w ==> AddToSet([], slug) == [slug];
    (w[walletId := doc], doc)
  }

  /** `POST /api/slugstore`. `connected` is whether the database connection
      succeeds (it is opened before the body is read); `writeOk` whether the
      update succeeds. The collection changes only on a 200 answer. */
  function StoreSlug(connected: bool, req: Option<SaveRequest>, w: Wallets, writeOk: bool): (r: (Response, Wallets))
    ensures r.0.status in {200, 400, 500}
    ensures r.0.status != 200 ==> r.1 == w
    ensures r.0.status == 400 <==>
      connected && req.Some? && !(Present(req.value.walletId) && Present(req.value.slug))
    ensures r.0.status == 400 ==> r.0.body == ErrorBody(MissingFields)
    ensures r.0.status == 500 ==> r.0.body == ErrorBody(SaveFailed)
    ensures r.0.status == 200 <==>
      connected && req.Some? && Present(req.value.walletId) && Present(req.value.slug) && writeOk
    ensures r.0.status == 200 ==>
      var id := req.value.walletId.value;
      var slug := req.value.slug.value;
      id in r.1 && slug in SlugsOf(r.1[id]) && r.0.body == DocBody(r.1[id])
  {
    if !connected || req.None? then (Response(500, ErrorBody(SaveFailed)), w)
    else if !Present(req.value.walletId) || !Present(req.value.slug) then
      (Response(400, ErrorBody(MissingFields)), w)
    else if !writeOk then (Response(500, ErrorBody(SaveFailed)), w)
    else
      var u := Upsert(w, req.value.walletId.value, req.value.slug.value);
      (Response(200, DocBody(u.1)), u.0)
  }

  /** Saving keeps the collection well formed and leaves other wallets alone. */
  lemma StoreSlugPreserves(connected: bool, req: Option<SaveRequest>, w: Wallets, writeOk: bool)
    requires WellFormed(w)
    ensures WellFormed(StoreSlug(connected, req, w, writeOk).1)
    ensures forall k :: k in w && (req.None? || req.value.walletId != Some(k)) ==>
      k in StoreSlug(connected, req, w, writeOk).1 && StoreSlug(connected, req, w, writeOk).1[k] == w[k]
  {
  }

  /** Saving the same slug twice answers the same and leaves the collection
      as one save did. */
  lemma StoreSlugIdempotent(req: SaveRequest, w: Wallets)
    ensures
      var once := StoreSlug(true, Some(req), w, true);
      var twice := StoreSlug(true, Some(req), once.1, true);
      twice == once
  {
    var once := StoreSlug(true, Some(req), w, true);
    if Present(req.walletId) && Present(req.slug) {
      var id := req.walletId.value;
      assert SlugsOf(once.1[id]) == AddToSet(SlugsOf(once.1[id]), req.slug.value);
      assert once.1[id := once.1[id]] == once.1;
    }
  }

  /** The getslug request body: only `walletId` is read. */
  datatype ReadRequest = ReadRequest(walletId: Option<string>)

  /** `POST /api/getslug`: the wallet's slugs, or an empty list with
      "No user found" when there is no document. `connected` is whether the
      database connection succeeds, `findOk` whether the query does; the
      query is only made for a present wallet id. */
  function ReadSlugs(connected: bool, req: Option<ReadRequest>, w: Wallets, findOk: bool): (r: Response)
    ensures r.status in {200, 400, 500}
    ensures r.status == 400 <==> connected && req.Some? && !Present(req.value.walletId)
    ensures r.status == 400 ==> r.body == ErrorBody(MissingWallet)
    ensures r.status == 500 ==> r.body == ErrorBody(ReadFailed)
    ensures r.status == 200 <==> connected && req.Some? && Present(req.value.walletId) && findOk
    ensures r.status == 200 ==>
      var id := req.value.walletId.value;
      r.body == (if id in w then SlugsBody(Found, SlugsOf(w[id])) else SlugsBody(NoUser, []))
  {
    if !connected || req.None? then Response(500, ErrorBody(ReadFailed))
    else if !Present(req.value.walletId) then Response(400, ErrorBody(MissingWallet))
    else if !findOk then Response(500, ErrorBody(ReadFailed))
    else
      var id := req.value.walletId.value;
      if id in w then Response(200, SlugsBody(Found, SlugsOf(w[id])))
      else Response(200, SlugsBody(NoUser, []))
  }

  /** A slug the save route accepted is in the list the read route returns
      for that wallet afterwards, next to every slug saved before it. */
  lemma SavedSlugIsRead(walletId: string, slug: string, w: Wallets)
    requires walletId != "" && slug != ""
    ensures
      var saved := StoreSlug(true, Some(SaveRequest(Some(walletId), Some(slug))), w, true);
      var read := ReadSlugs(true, Some(ReadRequest(Some(walletId))), saved.1, true);
      read.status == 200 && read.body.SlugsBody? && read.body.message == Found &&
      slug in read.body.slugs &&
      (walletId in w ==> forall s :: s in SlugsOf(w[walletId]) ==> s in read.body.slugs)
  {
  }
}

=== FILE: storefront.dfy ===
/** The marketplace storefront page: the product list loaded from the
    contract, what each product card shows, and placing an order. */
module Storefront {
  import opened Wrappers
  import opened Js
  import opened Chain
  import Decimal
  import Units
  import Seqs
  import ImageUrl
  import Bytes

  /** Every product card is given this image path instead of the on-chain bytes. */
  const LaptopImage := "/laptop.png"

  /** A product of the storefront list. */
  datatype Listing = Listing(
    id: nat, price: string, stock: nat, name: string, description: string,
    image: string, productType: string, condition: string, seller: string)

  function ToListing(id: nat, p: ChainProduct): Listing {
    Listing(id, Units.FormatUnits(p.price, Units.TokenDecimals), p.stock, p.name,
      p.description, LaptopImage, p.productType, p.condition, p.seller)
  }

  /** One pass of the product loop: nothing when `store(i)` throws. */
  function ListingAt(store: nat -> Option<ChainProduct>): nat -> Option<Listing> {
    (i: nat) =>
      match store(i)
      case None => None
      case Some(p) => Some(ToListing(i, p))
  }

  /** The product list for `productCount() == count`: ids `1 .. count`
      (the bound is inclusive). */
  function LoadProducts(count: nat, store: nat -> Option<ChainProduct>): (r: seq<Listing>)
    ensures |r| <= count
  {
    Seqs.Collect(1, count + 1, ListingAt(store))
  }

  /** A product is listed iff its id is in `1 .. count` and its fetch
      succeeded; its price is the on-chain price in token units and its image
      the fixed laptop path. */
  lemma LoadProductsContents(count: nat, store: nat -> Option<ChainProduct>, l: Listing)
    ensures l in LoadProducts(count, store) <==>
      exists i: nat :: 1 <= i <= count && store(i).Some? && l == ToListing(i, store(i).value)
    ensures l in LoadProducts(count, store) ==>
      l.image == LaptopImage && Units.ParseUnits(l.price, Units.TokenDecimals) == Success(store(l.id).value.price as int)
  {
    Seqs.CollectMembers(1, count + 1, ListingAt(store), l);
    if l in LoadProducts(count, store) {
      var i: nat :| 1 <= i < count + 1 && ListingAt(store)(i) == Some(l);
      assert store(i).Some? && l == ToListing(i, store(i).value);
      Units.ParseFormatRoundTrip(store(i).value.price, Units.TokenDecimals);
    } else {
      forall i: nat | 1 <= i <= count && store(i).Some?
        ensures l != ToListing(i, store(i).value)
      {
        assert ListingAt(store)(i) == Some(ToListing(i, store(i).value));
      }
    }
  }

  /** The listed ids lie in `1 .. count` and strictly ascend. */
  lemma LoadProductsAscending(count: nat, store: nat -> Option<ChainProduct>)
    ensures |LoadProducts(count, store)| <= count
    ensures forall k :: 0 <= k < |LoadProducts(count, store)| ==>
      1 <= LoadProducts(count, store)[k].id <= count
    ensures forall j, k :: 0 <= j < k < |LoadProducts(count, store)| ==>
      LoadProducts(count, store)[j].id < LoadProducts(count, store)[k].id
  {
    var f := ListingAt(store);
    var key := (l: Listing) => l.id;
    forall i: nat | f(i).Some?
      ensures key(f(i).value) == i
    {
      assert f(i) == Some(ToListing(i, store(i).value));
    }
    Seqs.CollectKeys(1, count + 1, f, key);
    var r := LoadProducts(count, store);
    assert r == Seqs.Collect(1, count + 1, f);
    assert forall k :: 0 <= k < |r| ==> key(r[k]) == r[k].id;
  }

  /** `products.find(p => p.id === id)`. */
  function FindListing(products: seq<Listing>, id: nat): (r: Option<Listing>)
    ensures r.Some? ==> r.value in products && r.value.id == id
    ensures r.None? ==> forall l :: l in products ==> l.id != id
  {
    if |products| == 0 then None
    else if products[0].id == id then Some(products[0])
    else FindListing(products[1..], id)
  }

  /** The `buyProduct` transaction: the product, whether it is paid now,
      and the value sent with it in wei. */
  datatype OrderTx = OrderTx(productId: nat, payNow: bool, value: int)

  /** How `handlePlaceOrder` ends. */
  datatype PlaceResult =
    | NotReady                              // no contract or no payment method: nothing is sent
    | ProductMissing                        // `product.price` on `undefined` throws
    | BadPrice(error: Units.UnitsError)     // `parseUnits` rejects the price text
    | TxFailed(tx: OrderTx, message: string)
    | Placed(tx: OrderTx)

  /** The message shown when the page is not ready. */
  const NotReadyMessage := "Contract not initialized or payment method not selected"

  /** `handlePlaceOrder(productId)`. `paymentMethod` is the selected method
      (`""` before a choice); `txError` is the failure of the transaction or
      its receipt, if any. */
  function HandlePlaceOrder(contractReady: bool, paymentMethod: string, products: seq<Listing>,
                            productId: nat, txError: Option<Thrown>): (r: PlaceResult)
    ensures !contractReady || paymentMethod == "" ==> r == NotReady
    ensures r.Placed? || r.TxFailed? ==>
      contractReady && paymentMethod != "" &&
      r.tx.productId == productId && (r.tx.payNow <==> paymentMethod == "paynow") &&
      FindListing(products, productId).Some? &&
      (r.tx.payNow ==>
        Units.ParseUnits(FindListing(products, productId).value.price, Units.TokenDecimals) == Success(r.tx.value)) &&
      (!r.tx.payNow ==> r.tx.value == 0)
    ensures r.Placed? <==> (contractReady && paymentMethod != "" && txError.None? &&
      FindListing(products, productId).Some? &&
      Units.ParseUnits(FindListing(products, productId).value.price, Units.TokenDecimals).Success?)
    ensures r.TxFailed? ==> txError.Some? && r.message == OrElse(txError.value.message, "Failed to place order")
  {
    if !contractReady || paymentMethod == "" then NotReady
    else
      var payNow := paymentMethod == "paynow";
      match FindListing(products, productId)
      case None => ProductMissing
      case Some(p) =>
        match Units.ParseUnits(p.price, Units.TokenDecimals)
        case Failure(e) => BadPrice(e)
        case Success(wei) =>
          var tx := OrderTx(productId, payNow, if payNow then wei else 0);
          match txError
          case None => Placed(tx)
          case Some(e) => TxFailed(tx, OrElse(e.message, "Failed to place order"))
  }

  /** Paying now for a product of the loaded list sends exactly its on-chain
      price; paying on delivery sends nothing. */
  lemma PlaceOrderSendsChainPrice(count: nat, store: nat -> Option<ChainProduct>, paymentMethod: string,
                                  productId: nat, txError: Option<Thrown>)
    requires 1 <= productId <= count && store(productId).Some? && paymentMethod != ""
    ensures
      var r := HandlePlaceOrder(true, paymentMethod, LoadProducts(count, store), productId, txError);
      (r.Placed? || r.TxFailed?) &&
      r.tx.value == (if paymentMethod == "paynow" then store(productId).value.price else 0)
  {
    var products := LoadProducts(count, store);
    var l := ToListing(productId, store(productId).value);
    LoadProductsContents(count, store, l);
    LoadProductsAscending(count, store);
    var found := FindListing(products, productId);
    assert found.Some?;
    LoadProductsContents(count, store, found.value);
    var i: nat :| 1 <= i <= count && store(i).Some? && found.value == ToListing(i, store(i).value);
    assert i == productId;
    Units.ParseFormatRoundTrip(store(productId).value.price, Units.TokenDecimals);
  }

  /** The card image as the page renders it: the listing's image field
      goes through the bytes classifier. */
  function CardImageAsWritten(l: Listing): string {
    ImageUrl.MarketImageUrl(Some(l.image))
  }

  /** Every loaded card shows the error image: the fixed path `/laptop.png`
      is not hex text, so `hexlify` throws. */
  lemma LaptopPathRendersErrorImage()
    ensures ImageUrl.MarketImageUrl(Some(LaptopImage)) == ImageUrl.StorefrontErrorImage
  {
    assert Bytes.GetBytes(LaptopImage).None?;
  }

  /** The card image with a site-relative path (one starting with `/`) shown
      as it is; on-chain hex text, which starts with `0`, is still classified. */
  function CardImage(l: Listing): (r: string)
    ensures StartsWith(l.image, "/") ==> r == l.image
    ensures !StartsWith(l.image, "/") ==> r == CardImageAsWritten(l)
  {
    if StartsWith(l.image, "/") then l.image else ImageUrl.MarketImageUrl(Some(l.image))
  }

  /** With the corrected card image every loaded product shows the laptop
      picture, and image fields holding bytes are classified exactly as
      before. */
  lemma CardImageShowsLaptop(count: nat, store: nat -> Option<ChainProduct>, l: Listing)
    requires l in LoadProducts(count, store)
    ensures CardImage(l) == LaptopImage
    ensures CardImageAsWritten(l) == ImageUrl.StorefrontErrorImage
  {
    LoadProductsContents(count, store, l);
    LaptopPathRendersErrorImage();
  }

  /** Hex text never starts with `/`, so the correction only affects paths. */
  lemma CardImageKeepsBytes(l: Listing)
    requires Bytes.GetBytes(l.image).Some?
    ensures CardImage(l) == CardImageAsWritten(l)
  {
  }
}

=== FILE: units.dfy ===
/** Fixed-point token amounts as ethers prints and reads them:
    `formatUnits(x, d)` renders an integer number of base units as a decimal
    string with `d` fractional digits, and `parseUnits(s, d)` reads such a
    string back. All on-chain prices use `d = 18`. */
module Units {
  import opened Wrappers
  import opened Decimal

  /** Decimals of the BRTX token and of ether. */
  const TokenDecimals: nat := 18

  datatype UnitsError = InvalidValue | TooManyDecimals

  /** Drops trailing zeros but always keeps the first character. */
  function TrimTrailingZeros(s: string): (r: string)
    ensures |r| <= |s|
    ensures |s| >= 1 ==> |r| >= 1
    ensures r == s[..|r|]
    decreases |s|
  {
    if |s| > 1 && s[|s| - 1] == '0' then TrimTrailingZeros(s[..|s| - 1]) else s
  }

  /** Only zeros were dropped. */
  lemma {:induction false} TrimTrailingZerosPad(s: string)
    ensures TrimTrailingZeros(s) + Zeros(|s| - |TrimTrailingZeros(s)|) == s
    decreases |s|
  {
    var r := TrimTrailingZeros(s);
    if |s| > 1 && s[|s| - 1] == '0' {
      var s' := s[..|s| - 1];
      TrimTrailingZerosPad(s');
      assert r + Zeros(|s'| - |r|) == s';
      assert Zeros(|s| - |r|) == Zeros(|s'| - |r|) + ['0'];
      assert s == s' + ['0'];
    } else {
      assert Zeros(0) == [];
    }
  }

  /** Whole units in `m` base units. */
  function WholeUnits(m: nat, d: nat): nat {
    var p := Pow10(d);
    QuotientBounds(m, p);
    m / p
  }

  /** Base units left over after the whole units. */
  function FractionUnits(m: nat, d: nat): nat {
    var p := Pow10(d);
    QuotientBounds(m, p);
    m % p
  }

  lemma SplitUnits(m: nat, d: nat)
    ensures WholeUnits(m, d) * Pow10(d) + FractionUnits(m, d) == m
    ensures FractionUnits(m, d) < Pow10(d)
  {
  }

  /** `formatUnits(x, d)`: the sign, the whole part without leading zeros,
      then (for `d > 0`) a point and the `d` fractional digits with trailing
      zeros removed, keeping at least one. */
  function FormatUnits(x: int, d: nat): string
  {
    if x < 0 then "-" + FormatMagnitude(-x, d) else FormatMagnitude(x, d)
  }

  /** `formatUnits` of a non-negative amount. */
  function FormatMagnitude(m: nat, d: nat): (s: string)
    ensures |s| > 0 && IsDigit(s[0])
  {
    if d == 0 then ToDecimal(m)
    else
      var w := ToDecimal(WholeUnits(m, d));
      var r := w + "." + TrimTrailingZeros(Fixed(FractionUnits(m, d), d));
      assert r[0] == w[0];
      r
  }

  /** Length of the longest run of digits at the start of `s`. */
  function LeadingDigits(s: string): (n: nat)
    ensures n <= |s|
    ensures AllDigits(s[..n])
    ensures n < |s| ==> !IsDigit(s[n])
    decreases |s|
  {
    if |s| > 0 && IsDigit(s[0]) then
      var k := LeadingDigits(s[1..]);
      assert s[..k + 1] == [s[0]] + s[1..][..k];
      k + 1
    else 0
  }

  predicate AllZeros(s: string) {
    forall i :: 0 <= i < |s| ==> s[i] == '0'
  }

  /** What follows the whole digits, with one leading point dropped. */
  function FractionText(rest: string): string {
    if |rest| > 0 && rest[0] == '.' then rest[1..] else rest
  }

  /** The fractional digits cut or zero-padded to exactly `d` places. */
  function PadFraction(frac: string, d: nat): (r: string)
    requires AllDigits(frac)
    ensures |r| == d && AllDigits(r)
  {
    if |frac| >= d then frac[..d] else frac + Zeros(d - |frac|)
  }

  /** `parseUnits(s, d)`: `s` must match `-?[0-9]*\.?[0-9]*` with at least
      one digit; fractional digits beyond the `d`-th must all be zero; the
      result is the signed number of base units. */
  function ParseUnits(s: string, d: nat): Result<int, UnitsError>
  {
    var neg := |s| > 0 && s[0] == '-';
    match ParseMagnitude(if neg then s[1..] else s, d)
    case Success(v) =>
      var signed: int := if neg then -(v as int) else v;
      Success(signed)
    case Failure(e) => Failure(e)
  }

  /** `parseUnits` of the text after the optional sign. */
  function ParseMagnitude(body: string, d: nat): Result<nat, UnitsError>
  {
    var w := LeadingDigits(body);
    var frac := FractionText(body[w..]);
    if !AllDigits(frac) || w + |frac| == 0 then Failure(InvalidValue)
    else if |frac| > d && !AllZeros(frac[d..]) then Failure(TooManyDecimals)
    else Success(Value(body[..w]) * Pow10(d) + Value(PadFraction(frac, d)))
  }

  lemma LeadingDigitsOfConcat(a: string, b: string)
    requires AllDigits(a) && (|b| == 0 || !IsDigit(b[0]))
    ensures LeadingDigits(a + b) == |a|
    decreases |a|
  {
    if |a| > 0 {
      var s := a + b;
      assert s[0] == a[0] && IsDigit(s[0]);
      assert s[1..] == a[1..] + b;
      LeadingDigitsOfConcat(a[1..], b);
      assert LeadingDigits(s) == LeadingDigits(s[1..]) + 1;
    } else {
      assert a + b == b;
    }
  }

  /** A plain digit string parses to that many whole units. */
  lemma ParseDigits(s: string, d: nat)
    requires AllDigits(s) && |s| > 0
    ensures ParseMagnitude(s, d) == Success(Value(s) * Pow10(d))
  {
    LeadingDigitsOfConcat(s, "");
    assert s + "" == s;
    assert s[..|s|] == s;
    assert s[|s|..] == "";
    assert PadFraction("", d) == Zeros(d);
    ZerosValue(d);
  }

  lemma {:induction false} ZerosValue(k: nat)
    ensures Value(Zeros(k)) == 0
  {
    if k > 0 {
      assert Zeros(k)[..k - 1] == Zeros(k - 1);
      ZerosValue(k - 1);
    }
  }

  /** `ParseMagnitude` once its whole digits and fraction are known and the
      fraction fits in `d` places. */
  lemma ParseMagnitudeParts(body: string, d: nat, n: nat, frac: string)
    requires n <= |body| && LeadingDigits(body) == n && FractionText(body[n..]) == frac
    requires AllDigits(frac) && n + |frac| > 0 && |frac| <= d
    ensures ParseMagnitude(body, d) == Success(Value(body[..n]) * Pow10(d) + Value(PadFraction(frac, d)))
  {
  }

  /** Whole digits, a point and at most `d` fraction digits parse to the
      whole value scaled by `10^d` plus the padded fraction. */
  lemma ParsePointed(body: string, w: string, f: string, d: nat, v: nat)
    requires body == w + ("." + f)
    requires |w| > 0 && AllDigits(w) && AllDigits(f) && |f| <= d
    requires Value(w) * Pow10(d) + Value(PadFraction(f, d)) == v
    ensures ParseMagnitude(body, d) == Success(v)
  {
    assert LeadingDigits(body) == |w| by {
      LeadingDigitsOfConcat(w, "." + f);
    }
    assert body[..|w|] == w;
    assert FractionText(body[|w|..]) == f by {
      assert body[|w|..] == "." + f;
    }
    ParseMagnitudeParts(body, d, |w|, f);
  }

  /** With a fractional part: the printed whole digits, the point and the
      trimmed fraction read back as the amount. */
  lemma ParseFormatFraction(m: nat, d: nat)
    requires d > 0
    ensures ParseMagnitude(FormatMagnitude(m, d), d) == Success(m)
  {
    var full := Fixed(FractionUnits(m, d), d);
    var w := ToDecimal(WholeUnits(m, d));
    var f := TrimTrailingZeros(full);
    var body := FormatMagnitude(m, d);
    assert body == w + ("." + f);
    assert AllDigits(f);
    assert PadFraction(f, d) == full by {
      TrimTrailingZerosPad(full);
      if |f| >= d {
        assert f + Zeros(0) == f;
      }
    }
    assert Value(PadFraction(f, d)) == FractionUnits(m, d) by {
      ValueOfFixed(FractionUnits(m, d), d);
      SplitUnits(m, d);
      SmallMod(FractionUnits(m, d), Pow10(d));
    }
    assert Value(w) == WholeUnits(m, d) by {
      ValueOfToDecimal(WholeUnits(m, d));
    }
    SplitUnits(m, d);
    ParsePointed(body, w, f, d, m);
  }

  /** The digits printed for a non-negative amount parse back to it. */
  lemma ParseFormatMagnitude(m: nat, d: nat)
    ensures ParseMagnitude(FormatMagnitude(m, d), d) == Success(m)
  {
    if d == 0 {
      ParseDigits(ToDecimal(m), 0);
      ValueOfToDecimal(m);
    } else {
      ParseFormatFraction(m, d);
    }
  }

  lemma SmallMod(r: nat, p: nat)
    requires r < p
    ensures r % p == r
  {
  }

  /** The round trip the storefront relies on: the price shown with
      `formatUnits(price, 18)` and sent back through `parseUnits(shown, 18)`
      is the original integer, for every integer and every number of decimals. */
  lemma ParseFormatRoundTrip(x: int, d: nat)
    ensures ParseUnits(FormatUnits(x, d), d) == Success(x)
  {
    var m: nat := if x < 0 then -x else x;
    var t := FormatMagnitude(m, d);
    var u := FormatUnits(x, d);
    ParseFormatMagnitude(m, d);
    if x < 0 {
      assert u == "-" + t;
      ParseNegated(u, t, d, m);
    } else {
      assert u == t;
      ParseUnsigned(t, d, m);
    }
  }

  /** A magnitude that starts with a digit parses the same with no sign. */
  lemma ParseUnsigned(t: string, d: nat, v: nat)
    requires |t| > 0 && IsDigit(t[0]) && ParseMagnitude(t, d) == Success(v)
    ensures ParseUnits(t, d) == Success(v)
  {
    DigitsExcludePunctuation(t[0]);
  }

  /** A `-` in front of a magnitude negates it. */
  lemma ParseNegated(s: string, t: string, d: nat, v: nat)
    requires s == "-" + t && ParseMagnitude(t, d) == Success(v)
    ensures ParseUnits(s, d) == Success(-(v as int))
  {
    assert s[0] == '-' && s[1..] == t;
  }

  /** A plain whole number parses to that many whole units. */
  lemma ParseWholeNumber(n: nat, d: nat)
    ensures ParseUnits(ToDecimal(n), d) == Success(n * Pow10(d))
  {
    ParseDigits(ToDecimal(n), d);
    ValueOfToDecimal(n);
  }

  lemma OneEtherInWei()
    ensures Pow10(TokenDecimals) == 1_000_000_000_000_000_000
  {
    assert Pow10(6) == 1_000_000;
    assert Pow10(12) == 1_000_000_000_000;
  }

  /** `parseEther("1")`, the default deposit amount, is `10^18` wei. */
  lemma ParseOneEther()
    ensures ParseUnits("1", TokenDecimals) == Success(1_000_000_000_000_000_000)
  {
    assert ToDecimal(1) == "1";
    ParseWholeNumber(1, TokenDecimals);
    OneEtherInWei();
  }
}

=== FILE: wrappers.dfy ===
/** Failure-carrying wrappers shared by every module of the model. An
    exception thrown by the original code, a missing response field and an
    absent JavaScript value are all expressed through these two types. */
module Wrappers {

  /** An optional value: `None` stands for JavaScript `undefined`/`null`. */
  datatype Option<+T> = None | Some(value: T) {

    /** The carried value, or `default` when there is none. */
    function GetOr(default: T): T {
      match this
      case Some(v) => v
      case None => default
    }
  }

  /** The outcome of a step that may throw: `Failure` carries the error. */
  datatype Result<+R, +E> = Success(value: R) | Failure(error: E) {

    /** Forgets the error: a thrown call becomes a missing value. */
    function ToOption(): Option<R> {
      match this
      case Success(v) => Some(v)
      case Failure(_) => None
    }
  }
}
